=== FILE: README.md ===
# AshStarter bookkeeping and selection logic, in Dafny

AshStarter is a collection of small Vulkan demos written in Rust on top of
`ash`. Almost everything they do is a driver call, but underneath the calls
sits a layer of plain logic. This project models that layer:

- **The frame-slot state machines.** `FramesInFlight` is a ring of frame-sync
  slots with a round-robin cursor and a "swapchain needs rebuild" flag.
  `SwapchainFrames` keeps one slot per swapchain image, recycles acquire
  semaphores and has its own rebuild flag.
- **Swapchain result mapping and parameter selection.** These cover what an
  acquire or present result means, and the choice of surface format,
  present mode, extent, image count and MSAA sample count. Both the newer
  `vulkan_api` layer and the older `vulkan` layer are modelled.
- **Containers.** The growable `GpuVec`, the semaphore pool, the command and
  descriptor pools, the `FrameRateLimit` deque and the triangle canvas's
  per-image vertex and index vectors.
- **Decoders and validators.** SPIR-V bytes to little-endian 32-bit words,
  queue-family selection, the memory-type search, missing-extension
  filtering, the Markdown list formatter, the shader output path in
  `build.rs`, and the render-pass argument rules.

Every driver call is a parameter of the model, so the model never calls the
driver itself. Handles are opaque numbers, with 0 as `VK_NULL_HANDLE`. A call
that reports a result becomes an input:
- the raw result of `vkAcquireNextImageKHR` or `vkQueuePresentKHR`;
- an `Outcome` for fence waits and submits;
- a function from the request to the result, where the contract needs to
  talk about what was requested.

A Rust panic, such as an `unwrap` on `None`, `clamp` with min > max, or an
out-of-bounds index, becomes a `requires`. Everything else is modelled as
an error value. Objects whose fields the Rust code updates in place are
classes. Pure decision code is functions, and each function has lemmas
about it.

The frame lifecycle is modelled as the code implements it:
- `FramesInFlight::acquire_frame` does not rebuild the swapchain when it is
  out of date or suboptimal. It returns `SwapchainNeedsRebuild` and leaves
  the rebuild to the application, through `stall_and_rebuild_swapchain`. A
  suboptimal acquire is treated like an out-of-date one.
- The fence of the slot is waited on after the acquire, not before it.
- `SwapchainFrames` uses the mapping in `swapchain/mod.rs`. That mapping
  turns every present error, `ERROR_OUT_OF_DATE_KHR` included, into an
  error, and it ignores the suboptimal flag.
- In `SwapchainFrames`, an acquire that reports `NeedsRebuild` does not set
  the rebuild flag. Only `invalidate_swapchain` sets it, and only
  `rebuild_swapchain` clears it.

The model has one module per source file, plus three shared modules:
- `Wrappers` holds `Option`, `Result` and `Outcome`.
- `Vk` holds handles, flags as `bv32`, the Vulkan constants, the error
  types, and `u32`/`i32` arithmetic.
- `Utf8` holds the well-formedness rule of section 4 of RFC 3629.

## Model

| member | source | states |
|---|---|---|
| AcquirePresent.AcquireSwapchainImage | src/graphics/vulkan_api/swapchain/acquire_present.rs:37-75 | an image index without the suboptimal flag maps to `Index` with that same index; a suboptimal acquire or `ERROR_OUT_OF_DATE_KHR` maps to `NeedsRebuild`; every other code maps to a runtime error carrying that code. Each case is an if-and-only-if |
| AcquirePresent.PresentSwapchainImage | src/graphics/vulkan_api/swapchain/acquire_present.rs:86-131 | a clean present gives `Index(index)` for the index passed in; suboptimal or out-of-date gives `NeedsRebuild`; any other failure is an error with its code. Each case is an if-and-only-if |
| SwapchainSelection.ChooseSurfaceFormat | src/graphics/vulkan_api/swapchain/selection.rs:14-36 | errors exactly when no format is available; otherwise the result is one of the available formats: the preferred B8G8R8A8_SRGB/SRGB_NONLINEAR entry when present, else the first entry |
| SwapchainSelection.ChoosePresentationMode | src/graphics/vulkan_api/swapchain/selection.rs:44-61 | MAILBOX if and only if it is available, otherwise FIFO |
| SwapchainSelection.ChooseSwapchainExtent | src/graphics/vulkan_api/swapchain/selection.rs:69-94 | the framebuffer size unchanged when the surface fixes its extent; otherwise each side clamped to the surface's [min, max]: a size already in range is kept, a side below the minimum becomes the minimum and a side above the maximum becomes the maximum |
| SwapchainSelection.ChooseImageCount | src/graphics/vulkan_api/swapchain/selection.rs:101-113 | at least the minimum, at most the maximum when there is one; exactly 3 when 3 is allowed, the minimum when 3 is below it, and the maximum when there is one and 3 is above it |
| RenderDeviceSelection.ChooseImageCount | src/vulkan/render_device/swapchain/selection.rs:10-30 | passes a capability query error through; otherwise gives min + 1, capped at max when max > 0 |
| RenderDeviceSelection.ChooseSurfaceFormat | src/vulkan/render_device/swapchain/selection.rs:34-55 | the result is among the formats: the preferred SRGB entry when present, else the first |
| RenderDeviceSelection.ChoosePresentMode | src/vulkan/render_device/swapchain/selection.rs:59-78 | MAILBOX if and only if it is available, otherwise IMMEDIATE |
| RenderDeviceSelection.ChooseSwapExtent | src/vulkan/render_device/swapchain/selection.rs:82-111 | passes a query error through; the current extent when the surface fixes it, else the framebuffer size clamped per side: kept when in range, the minimum when below it, the maximum when above it |
| RenderDeviceSelection.SurfaceFormatChoicesAgree | src/vulkan/render_device/swapchain/selection.rs:43-50 | on a non-empty list the older and the newer format choice pick the same format |
| RenderDeviceSelection.PresentModeChoicesAgreeIffMailbox | src/vulkan/render_device/swapchain/selection.rs:69-73 | the two layers choose the same present mode exactly when MAILBOX is available; otherwise they differ (IMMEDIATE against FIFO) |
| Msaa.MinFlags | src/graphics/msaa_display/mod.rs:211-214 | `Ord::min` on two masks: the result is one of them and no greater than either |
| Msaa.FirstContained | src/graphics/msaa_display/mod.rs:215-231 | the first count in the list that the mask contains, with no earlier one contained; none only when the mask contains none |
| Msaa.FirstContainedUnrolled | src/graphics/msaa_display/mod.rs:215-231 | on the descending list the search tests 64 samples down to two, in the order of the `if`/`else if` chain |
| Msaa.FirstContainedIsHighest | src/graphics/msaa_display/mod.rs:215-231 | the search finds a count exactly when the mask holds one of 2 or more samples, and every such count is at most the one found |
| Msaa.PickMaxSupportedMsaaCount | src/graphics/msaa_display/mod.rs:205-236 | as written: on the numeric minimum of the two masks, the result is exactly `min(desired, c)` for the highest count c of 2 or more in that minimum, and TYPE_1 when it holds none; so it never exceeds `desired` and is `desired` or a count of the minimum mask |
| Msaa.PickDocumentedExamples | src/graphics/msaa_display/mod.rs:202-204 | a device supporting up to 4 samples gives 4 when 8 are desired and 2 when 2 are desired |
| Msaa.PickKeepsSupportedDesired | src/graphics/msaa_display/mod.rs:216-230 | a desired count of 2 or more that the combined mask contains is returned unchanged |
| Msaa.PickCanChooseUnsupportedColorCount | src/graphics/msaa_display/mod.rs:210-213 | depth counts 0xF {1, 2, 4, 8}, colour counts 0x15 {1, 4, 16} and desired TYPE_8 give TYPE_8 as written, which the colour attachment does not support; the corrected pick gives TYPE_4 |
| Msaa.FirstFitting | src/graphics/msaa_display/mod.rs:216-230 | the first count in the descending list that both masks contain and that does not exceed the desired count, with no earlier one fitting; none only when no count fits |
| Msaa.FirstFittingIsHighest | src/graphics/msaa_display/mod.rs:216-230 | every fitting count is at most the one found |
| Msaa.PickSampleCount | src/graphics/msaa_display/mod.rs:196-205 | corrected pick: TYPE_1 or a count that both depth and colour support and that does not exceed the desired count, and no such count is higher |
| QueueFamilies.LastGraphicsFamily | src/graphics/vulkan_api/render_device/queue_families.rs:35-39 | the last family whose flags hold GRAPHICS and COMPUTE; none if and only if no family does |
| QueueFamilies.LastPresentFamily | src/graphics/vulkan_api/render_device/queue_families.rs:47-59 | the last family whose support query answers `Ok(true)`; query errors count as unsupported |
| QueueFamilies.FindForPhysicalDevice | src/graphics/vulkan_api/render_device/queue_families.rs:20-74 | succeeds if and only if both a graphics and a present family exist, with the last index of each; a missing graphics family is `UnableToFindGraphicsQueue`, then a missing present family is `UnableToFindPresentQueue` |
| QueueFamilies.AsQueueCreateInfos | src/graphics/vulkan_api/render_device/queue_families.rs:79-98 | one graphics entry with 2 queues, plus a present entry with 1 queue exactly when the families differ; no family is listed twice |
| QueueFamilies.GetQueues | src/graphics/vulkan_api/render_device/queue_families.rs:101-139 | graphics is (g, 0), compute is (g, 1), and present is (p, 0), which equals graphics exactly when g == p |
| QueueFamilies.GetQueuesWereRequested | src/graphics/vulkan_api/render_device/queue_families.rs:79-139 | every queue `get_queues` fetches was requested by the create infos |
| RenderDevice.SwapchainQueueFamilyIndices | src/graphics/vulkan_api/render_device/mod.rs:133-141 | graphics first, both families present, each listed once: [g] when g == p, else [g, p] |
| RenderDevice.FindMemoryTypeFrom | src/graphics/vulkan_api/render_device/mod.rs:209-220 | the least suitable memory type at or after the start index; none only when no type from there on is suitable |
| RenderDevice.FindMemoryType | src/graphics/vulkan_api/render_device/mod.rs:201-234 | the least index whose bit is set in the type mask and whose flags contain the requested ones; `MemoryTypeNotFound` if and only if there is none |
| GpuVec.Growth | src/vulkan/buffer/gpu_vec.rs:61-67 | corrected growth: always more than the length, and equal to the written `2 * length` whenever the length is positive |
| GpuVec.PushBackAsWrittenWriteInBounds | src/vulkan/buffer/gpu_vec.rs:60-67 | as written, the write at index `length` lands inside the possibly grown buffer if and only if the capacity is positive; for length = capacity = 0 the grown capacity is 0 |
| GpuVec.GpuVec.New | src/vulkan/buffer/gpu_vec.rs:29-51 | an allocation failure is returned; otherwise an empty vector with the initial capacity |
| GpuVec.GpuVec.Init | src/vulkan/buffer/gpu_vec.rs:43-49 | length 0 and the given capacity |
| GpuVec.GpuVec.Grow | src/vulkan/buffer/gpu_vec.rs:106-128 | on success a fresh buffer of the desired capacity whose prefix is the old buffer; on failure nothing changes; the contents stay the same |
| GpuVec.GpuVec.PushBack | src/vulkan/buffer/gpu_vec.rs:60-70 | with the corrected `Growth`: succeeds exactly when there is room or the growth allocation succeeds; with room it returns `Ok(false)` and keeps the buffer; the contents gain the value at the end; `true` exactly when it grew; an error is the allocation's and changes nothing |
| GpuVec.GpuVec.Clear | src/vulkan/buffer/gpu_vec.rs:73-75 | empties the contents and keeps the buffer and capacity |
| GpuVec.GpuVec.Len | src/vulkan/buffer/gpu_vec.rs:78-80 | the number of elements, never above capacity |
| GpuVec.GpuVec.LenBytes | src/vulkan/buffer/gpu_vec.rs:84-86 | the number of elements times the element size |
| TriangleCanvas.TriangleCanvas.Init | src/renderer/triangle_canvas/mod.rs:103-121 | image 0, white, and one empty vertex vector and one empty index vector per swapchain image; each image's descriptor set binds that image's vertex buffer |
| TriangleCanvas.TriangleCanvas.NewVectors | src/renderer/triangle_canvas/mod.rs:379-400 | `count` fresh, distinct, empty vectors with the initial capacity, and their buffers, which the descriptor sets are bound to |
| TriangleCanvas.TriangleCanvas.SetColor | src/renderer/triangle_canvas/mod.rs:155-158 | sets the colour and changes nothing else |
| TriangleCanvas.TriangleCanvas.Clear | src/renderer/triangle_canvas/mod.rs:160-164 | selects the image and empties only its vertex and index vectors; the other images keep their contents |
| TriangleCanvas.TriangleCanvas.PushVertex | src/renderer/triangle_canvas/mod.rs:324-327 | one vertex is appended to the current image's vertices; a successful allocation means success, and an error is the failed allocation's, with nothing appended; `Ok(true)` exactly when the buffer was replaced by a fresh one; the other vectors and the descriptor bindings are unchanged |
| TriangleCanvas.TriangleCanvas.PushVertices | src/renderer/triangle_canvas/mod.rs:319-343 | on success the vertices are appended and the result is the index of the last one; it succeeds when every allocation and the debug naming do; an error is either that of push k, where k vertices were appended before it, or the naming's, with every vertex appended and the buffer replaced; once every vertex is appended, a replaced buffer is rebound to the image's descriptor set; after a failed allocation, or with the buffer kept, the bindings are unchanged; other images and all indices are unchanged |
| TriangleCanvas.TriangleCanvas.PushIndex | src/renderer/triangle_canvas/mod.rs:304-317 | one index is appended to the current image's indices; a successful allocation means success, and an error is the failed allocation's, with nothing appended; `Ok(true)` exactly when the buffer was replaced by a fresh one |
| TriangleCanvas.TriangleCanvas.PushIndices | src/renderer/triangle_canvas/mod.rs:304-317 | on success the indices are appended in order; it succeeds when every allocation and the debug naming do; an error is either that of push k, where k indices were appended before it, or the naming's, with every index appended and the buffer replaced; other images, all vertices and the bindings are unchanged |
| TriangleCanvas.TriangleCanvas.AddShape | src/renderer/triangle_canvas/mod.rs:167-224 | the vertices are appended and the index pattern is offset by the old vertex count; it succeeds when every vertex and index allocation and both debug namings do, and an error is one of theirs; index validity and a current vertex binding are preserved on success; other images are unchanged |
| TriangleCanvas.TriangleCanvas.AddTriangle | src/renderer/triangle_canvas/mod.rs:167-189 | three vertices in the current colour and the indices n, n+1, n+2, so every index names a vertex of this triangle; it succeeds when the three vertex and three index allocations and both debug namings do, and an error is one of theirs; a current vertex binding stays current on success |
| TriangleCanvas.TriangleCanvas.AddQuad | src/renderer/triangle_canvas/mod.rs:191-225 | four vertices and the indices of the two triangles tl, tr, bl and tr, bl, br; it succeeds when the four vertex and six index allocations and both debug namings do, and an error is one of theirs; a current vertex binding stays current on success |
| TriangleCanvas.Offset | src/renderer/triangle_canvas/mod.rs:187 | each pattern entry shifted by the first new vertex index, length kept |
| SemaphorePool.SemaphorePool.constructor | src/vulkan/semaphore_pool/mod.rs:21-25 | a new pool holds no semaphores |
| SemaphorePool.SemaphorePool.GetSemaphore | src/vulkan/semaphore_pool/mod.rs:32-47 | the most recently returned semaphore when there is one, removing it; else a newly created one or the creation error |
| SemaphorePool.SemaphorePool.ReturnSemaphore | src/vulkan/semaphore_pool/mod.rs:54-58 | a null handle is ignored; any other is pushed on top |
| SemaphorePool.SemaphorePool.Destroy | src/vulkan/semaphore_pool/mod.rs:61-67 | destroys every pooled semaphore, in order, and leaves the pool empty |
| ShaderModule.WordFromLeBytes | src/graphics/vulkan_api/pipeline/shader_module.rs:83-88 | the four bytes are recovered from the word, lowest first |
| ShaderModule.LeBytesOfWord | src/graphics/vulkan_api/pipeline/shader_module.rs:83-88 | the four little-endian bytes of a word, which reassemble to it |
| ShaderModule.DecodeWords | src/graphics/vulkan_api/pipeline/shader_module.rs:80-89 | one word per four bytes |
| ShaderModule.EncodeWords | src/graphics/vulkan_api/pipeline/shader_module.rs:80-89 | four bytes per word |
| ShaderModule.DecodeWordsAt | src/graphics/vulkan_api/pipeline/shader_module.rs:83-88 | word k is the little-endian reading of bytes 4k..4k+3 |
| ShaderModule.DecodeEncode | src/graphics/vulkan_api/pipeline/shader_module.rs:70-92 | decoding the bytes of a word sequence gives it back |
| ShaderModule.EncodeDecode | src/graphics/vulkan_api/pipeline/shader_module.rs:70-92 | for a length that is a multiple of 4, encoding the decoded words gives the bytes back |
| ShaderModule.CopyToU32 | src/graphics/vulkan_api/pipeline/shader_module.rs:70-92 | errors `InvalidSourceLengthInShaderSPIRV` exactly when the length is not a multiple of 4; otherwise it gives the decoded words, one per four bytes |
| ShaderModule.CodeSize | src/graphics/vulkan_api/pipeline/shader_module.rs:19-23 | a byte count that is a multiple of 4 |
| ShaderModule.CodeSizeIsSourceLength | src/graphics/vulkan_api/pipeline/shader_module.rs:15-33 | the code size given to the driver equals the length of the SPIR-V byte input |
| Allocation.Allocation.constructor | src/graphics/vulkan_api/render_device/allocator/allocation.rs:150-162 | a new allocation is unmapped and records its memory, offset, size and type |
| Allocation.Allocation.Map | src/graphics/vulkan_api/render_device/allocator/allocation.rs:38-51 | a successful map records the pointer moved by the allocation's offset; a failure is returned and the mapping is unchanged |
| Allocation.Allocation.Unmap | src/graphics/vulkan_api/render_device/allocator/allocation.rs:55-60 | always leaves it unmapped, and calls the driver only when it was mapped, so a second unmap does nothing |
| Allocation.Allocation.AsSlice | src/graphics/vulkan_api/render_device/allocator/allocation.rs:72-120 | `as_slice_mut` and `as_slice`: `DeviceMemoryIsNotMapped` when unmapped and the alignment error when misaligned; otherwise the mapped address with size / element-size elements |
| CommandPool.CommandPool.Init | src/graphics/vulkan_api/raii/command_pool.rs:31-36 | both buffer lists start empty |
| CommandPool.CommandPool.New | src/graphics/vulkan_api/raii/command_pool.rs:22-45 | a creation error is returned; otherwise a fresh pool with empty lists |
| CommandPool.CommandPool.AllocatePrimaryCommandBuffers | src/graphics/vulkan_api/raii/command_pool.rs:71-89 | requests `count` primary buffers; on success appends them in order and answers the old length, so buffer `r + k` is the k-th new one; errors change nothing; secondary list untouched |
| CommandPool.CommandPool.AllocateSecondaryCommandBuffers | src/graphics/vulkan_api/raii/command_pool.rs:96-115 | the same on the secondary list; the primary list is untouched |
| DescriptorPool.CreateInfoWithSizes | src/graphics/vulkan_api/raii/descriptor_pool.rs:51-57 | max sets and the pool sizes are passed through with their count |
| DescriptorPool.DescriptorPool.Init | src/graphics/vulkan_api/raii/descriptor_pool.rs:33-37 | a new pool holds no descriptor sets |
| DescriptorPool.DescriptorPool.New | src/graphics/vulkan_api/raii/descriptor_pool.rs:24-42 | a creation error is returned; otherwise a fresh, empty pool over the created handle |
| DescriptorPool.DescriptorPool.NewWithSizes | src/graphics/vulkan_api/raii/descriptor_pool.rs:46-57 | creates the pool from exactly those sizes and max sets |
| DescriptorPool.DescriptorPool.AllocateDescriptorSets | src/graphics/vulkan_api/raii/descriptor_pool.rs:83-105 | requests one set per layout; on success appends them in order and answers the old length; errors change nothing |
| DescriptorSetPool.New | src/vulkan/descriptor_set/descriptor_pool.rs:23-42 | the create info carries the sizes and their count; a creation error is wrapped |
| DescriptorSetPool.PoolSizes | src/vulkan/descriptor_set/descriptor_pool.rs:53-71 | an entry for each positive count, uniform then storage then sampler, and none for a zero count |
| DescriptorSetPool.ForEachSwapchainImage | src/vulkan/descriptor_set/descriptor_pool.rs:46-73 | max sets equals the swapchain image count; the sizes are empty exactly when all three counts are 0 |
| DescriptorSetPool.Allocate | src/vulkan/descriptor_set/descriptor_pool.rs:76-105 | requests `count` copies of the layout and wraps an error in `UnableToAllocateDescriptors` |
| RenderPass.InitialLayout | src/renderer/render_pass.rs:102-108 | UNDEFINED if and only if the pass is first, else COLOR_ATTACHMENT_OPTIMAL |
| RenderPass.FinalLayout | src/renderer/render_pass.rs:110-116 | PRESENT_SRC_KHR if and only if the pass is last, else COLOR_ATTACHMENT_OPTIMAL |
| RenderPass.LoadOp | src/renderer/render_pass.rs:118-124 | CLEAR if and only if there are clear colours, else LOAD |
| RenderPass.ClearCount | src/renderer/render_pass.rs:126-131 | 0 without clear colours, else their number |
| RenderPass.PassesChain | src/renderer/render_pass.rs:102-116 | a non-last pass followed by a non-first pass leaves the image in the layout the next pass expects |
| RenderPass.ClearValuesOnlyWhenClearing | src/renderer/render_pass.rs:118-131 | clear values are given only to a clearing pass |
| RenderPass.DefaultKeepsImage | src/renderer/render_pass.rs:142-149 | the default pass loads and keeps the image in COLOR_ATTACHMENT_OPTIMAL with no clear values |
| RenderPass.RenderPass.Init | src/renderer/render_pass.rs:12-30 | records its name, arguments, render pass and framebuffers |
| RenderPass.RenderPass.New | src/renderer/render_pass.rs:12-30 | creates the render pass from the arguments, then the framebuffers for that render pass; the first creation error is returned |
| RenderPass.RenderPass.Destroy | src/renderer/render_pass.rs:38-45 | destroys every framebuffer and the render pass, and leaves no framebuffers |
| RenderPass.RenderPass.RebuildSwapchainResources | src/renderer/render_pass.rs:48-60 | destroys the old objects, then recreates them from the same arguments |
| RenderPassArgs.ClearCount | src/renderer/render_pass_args.rs:23-28 | 0 without clear colours, else their number |
| RenderPassArgs.InitialLayout | src/renderer/render_pass_args.rs:192-198 | UNDEFINED if and only if first |
| RenderPassArgs.FinalLayout | src/renderer/render_pass_args.rs:200-202 | always COLOR_ATTACHMENT_OPTIMAL in this renderer |
| RenderPassArgs.LoadOp | src/renderer/render_pass_args.rs:204-210 | CLEAR if and only if there are clear colours |
| RenderPassArgs.Attachments | src/renderer/render_pass_args.rs:114-176 | a multisampled colour attachment, plus a single-sampled resolve attachment ending in PRESENT_SRC_KHR exactly when the pass is last |
| RenderPassArgs.ResolveReference | src/renderer/render_pass_args.rs:141-170 | attachment 1 when last, else the unused reference |
| RenderPassArgs.FramebufferViews | src/renderer/render_pass_args.rs:89-103 | one view per attachment: the MSAA target, then the swapchain image when last |
| RenderPassArgs.ResolveReferenceIsValid | src/renderer/render_pass_args.rs:141-176 | the resolve reference names an existing attachment exactly when the pass is last |
| RenderPassArgs.DefaultIsSingleSampledLoad | src/renderer/render_pass_args.rs:11-20 | the default has one sample, loads, and has no clear values |
| RenderPassArgs.CreateFramebuffers | src/renderer/render_pass_args.rs:79-107 | one framebuffer per swapchain image, in order, each over that image's views; the first failure is returned |
| Utf8.LeadingCharLength | src/graphics/vulkan_api/instance/extensions.rs:30-35 | the length of a well-formed character at the front, or 0, by the byte ranges of RFC 3629 |
| Utf8.AsciiIsValidUtf8 | src/graphics/vulkan_api/instance/extensions.rs:30-35 | every ASCII byte string is valid UTF-8 |
| Utf8.ValidUtf8HasNoForbiddenByte | src/graphics/vulkan_api/instance/extensions.rs:30-35 | valid UTF-8 never contains 0xC0, 0xC1 or a byte of 0xF5 and above |
| Utf8.LeadingCharLengthOfPrefix | build.rs:30 | the first character of well-formed text stays the first character when bytes are appended |
| Utf8.ValidUtf8Concat | build.rs:30 | `format!("{}.spv", name)` of a UTF-8 name is UTF-8: well-formed text followed by well-formed text is well-formed |
| Extensions.AsU8 | src/graphics/vulkan_api/instance/extensions.rs:31 | the two's-complement reading of a C `char` as a byte |
| Extensions.NameBytes | src/graphics/vulkan_api/instance/extensions.rs:31 | every character of the fixed name array as a byte, NUL padding included |
| Extensions.AvailableNames | src/graphics/vulkan_api/instance/extensions.rs:27-36 | exactly the names that are valid UTF-8, in order |
| Extensions.Missing | src/graphics/vulkan_api/instance/extensions.rs:40-44 | a required name is kept if and only if no available name contains it |
| Extensions.MissingKeepsOrder | src/graphics/vulkan_api/instance/extensions.rs:40-44 | the missing names are a subsequence of the required ones, in their order |
| Extensions.NothingMissingIffAllAvailable | src/graphics/vulkan_api/instance/extensions.rs:40-44 | nothing is missing if and only if every required name is found |
| Extensions.AsciiNameIsAvailable | src/graphics/vulkan_api/instance/extensions.rs:27-44 | an ASCII extension name reported by the driver satisfies a request for it |
| Extensions.SubstringMatchAcceptsLongerName | src/graphics/vulkan_api/instance/extensions.rs:43 | `VK_KHR_surface` counts as available when only `VK_KHR_surface_protected_capabilities` is reported |
| Extensions.MissingExtensions | src/graphics/vulkan_api/instance/extensions.rs:19-45 | a failed enumeration gives `UnableToListAvailableExtensions`; otherwise exactly the required names that no available name contains, in the required order |
| Extensions.CheckExtensions | src/graphics/vulkan_api/instance/extensions.rs:5-15 | passes if and only if the enumeration works and nothing is missing; a failed enumeration is passed on; otherwise the error is `RequiredExtensionsNotFound` with exactly the missing names, never empty |
| Markdown.Formatter.constructor | src/markdown.rs:24-30 | the formatter starts with no output |
| Markdown.Formatter.WriteStr | src/markdown.rs:25 | appends the string to the output |
| Markdown.Item | src/markdown.rs:40 | "- ", the entry and a newline |
| Markdown.Items | src/markdown.rs:39-41 | the entries' items concatenated in order |
| Markdown.MdList | src/markdown.rs:37-43 | a newline followed by the items |
| Markdown.ItemsAppend | src/markdown.rs:39-41 | the items of a concatenation are the concatenation of the items |
| Markdown.EmptyListIsNewline | src/markdown.rs:37-38 | an empty list renders as a single newline |
| Markdown.NewlineCount | src/markdown.rs:37-43 | with entries free of newlines, n entries render with exactly n + 1 newlines |
| Markdown.Fmt | src/markdown.rs:20-44 | writes exactly the list rendering after what was already written, for Display and Debug alike |
| BuildScript.OutputFileForShaderFile | build.rs:8-32 | fails with no parent, then with no file name, then with a non-UTF-8 name; otherwise the sibling file named name + ".spv" |
| BuildScript.OutputIsSibling | build.rs:30-31 | the output has the same parent as the shader and its name ends in ".spv" |
| BuildScript.ExampleOutputPath | build.rs:30-31 | `s/a.vert` compiles to `s/a.vert.spv` |
| BuildScript.NeedsRebuild | build.rs:34-45 | true when the output is missing, else true exactly when the shader is strictly newer; a metadata error is passed on |
| BuildScript.PathIsUtf8 | build.rs:53 | `to_str` on a path succeeds exactly when every name in it is UTF-8 |
| BuildScript.OutputPathIsUtf8 | build.rs:76-81 | the output path of a UTF-8 shader path is UTF-8, so printing it cannot panic |
| BuildScript.CompileShader | build.rs:47-59 | requires a UTF-8 shader path once the output path is known, as `to_str().unwrap()` panics otherwise; skips exactly when the rebuild check answers `Ok(false)`, and an error counts as "rebuild"; an output-path error is returned |
| BuildScript.SkipIffUpToDate | build.rs:34-56 | compilation is skipped if and only if the output exists and is no older than the shader |
| FrameRateLimit.Elapsed | src/timing/frame_rate_limit.rs:39-41 | the time since an instant, zero for a later one |
| FrameRateLimit.FrameRateLimit.constructor | src/timing/frame_rate_limit.rs:10-16 | no frames tracked; the target duration is one second divided by the target rate, within division bounds |
| FrameRateLimit.FrameRateLimit.StartFrame | src/timing/frame_rate_limit.rs:20-25 | drops the oldest start only when more than `frames_to_track` are held, then puts the new one in front; at most `frames_to_track + 1` are kept, newest first for a monotone clock |
| FrameRateLimit.FrameRateLimit.AvgFrameTime | src/timing/frame_rate_limit.rs:38-42 | the time since the oldest start divided by the number of starts, within division bounds |
| FrameRateLimit.AverageAtMostSpan | src/timing/frame_rate_limit.rs:38-42 | the average is never above the time since the oldest start |
| FramesInFlight.FramesInFlight.Init | src/graphics/vulkan_api/frames_in_flight/mod.rs:72-79 | the cursor at 0, the flag clear, the given slots and swapchain |
| FramesInFlight.FramesInFlight.New | src/graphics/vulkan_api/frames_in_flight/mod.rs:53-80 | creates the syncs for slots 0 to `frame_count` - 1 in order, then the swapchain; on success every slot i holds sync i, the cursor is 0 and the flag is clear; it fails exactly when a creation fails, and the error is the first failure: the lowest failing sync, else the swapchain's |
| FramesInFlight.FramesInFlight.WaitOutcome | src/graphics/vulkan_api/frames_in_flight/mod.rs:97-107 | passes if and only if no slot from `from` on is empty or fails its wait; otherwise it gives the error of the first such slot |
| FramesInFlight.FramesInFlight.WaitForAllFramesToComplete | src/graphics/vulkan_api/frames_in_flight/mod.rs:94-110 | the outcome of walking the slots in order, stopping at the first empty slot or failed wait |
| FramesInFlight.FramesInFlight.StallAndRebuildSwapchain | src/graphics/vulkan_api/frames_in_flight/mod.rs:120-138 | a failed wait is returned and changes nothing; otherwise the swapchain is recreated from the old one, and the flag is cleared only on success |
| FramesInFlight.FramesInFlight.InvalidateSwapchain | src/graphics/vulkan_api/frames_in_flight/mod.rs:150-152 | sets the flag and nothing else |
| FramesInFlight.FramesInFlight.AcquireFrameAsWritten | src/graphics/vulkan_api/frames_in_flight/mod.rs:165-199 | as written: needs slots and a swapchain only when the flag is clear; with the flag set it reports `SwapchainNeedsRebuild` and changes nothing, even with no swapchain; otherwise the cursor advances modulo the slot count and the slot is taken; an empty slot is `FrameSyncUnavailable`, an acquire error is passed on, an acquire needing a rebuild sets the flag and leaves the slot empty, and an image index gives the slot's sync with that index unless the restart fails |
| FramesInFlight.FramesInFlight.AcquireFrame | src/graphics/vulkan_api/frames_in_flight/mod.rs:165-199 | corrected acquire: the same, but an acquire needing a rebuild puts the sync back, so every slot stays full |
| FramesInFlight.FramesInFlight.PresentFrame | src/graphics/vulkan_api/frames_in_flight/mod.rs:209-278 | the sync goes back to its slot; submit errors are returned; a present needing a rebuild sets the flag; a clean present leaves the flag alone |
| FramesInFlight.RebuildAfterOutOfDateAcquireAsWritten | src/graphics/vulkan_api/frames_in_flight/mod.rs:185-191 | as written, an out-of-date acquire followed by the application's rebuild fails with `FrameSyncUnavailable` for the cursor slot |
| FramesInFlight.RebuildAfterOutOfDateAcquire | src/graphics/vulkan_api/frames_in_flight/mod.rs:120-138 | with the corrected acquire the same sequence rebuilds, clears the flag and keeps every slot full |
| FramesInFlight.AcquireAfterFailedRebuild | src/graphics/vulkan_api/frames_in_flight/mod.rs:120-168 | after a rebuild whose swapchain creation fails, there is no swapchain and the flag is still set, and the next acquire returns `SwapchainNeedsRebuild` |
| SwapchainFrames.AcquireNextSwapchainImage | src/graphics/vulkan_api/swapchain/mod.rs:124-159 | `ImageAcquired(i)` exactly for a clean acquire of i; `NeedsRebuild` for suboptimal or out-of-date; any other code is `UnableToAcquireSwapchainImage` |
| SwapchainFrames.PresentImage | src/graphics/vulkan_api/swapchain/mod.rs:162-186 | passes exactly when the present succeeds, suboptimal or not; every failure, out-of-date included, is `UnableToPresentSwapchainImage` |
| SwapchainFrames.ReleaseSemaphore | src/graphics/vulkan_api/sync/semaphore_pool.rs:24-30 | the k-th request takes the k-th semaphore from the top of the pool, or creates one once the pool is exhausted |
| SwapchainFrames.SwapchainFrames.constructor | src/graphics/swapchain_frames/mod.rs:39-48 | starts with the flag set, no frames, no swapchain and an empty semaphore pool |
| SwapchainFrames.SwapchainFrames.SwapchainImageView | src/graphics/swapchain_frames/mod.rs:63-72 | `FrameMissing` if and only if the slot is empty, else the slot's image view |
| SwapchainFrames.SwapchainFrames.WaitOutcome | src/graphics/swapchain_frames/mod.rs:149-155 | passes if and only if no slot from `from` on is empty or fails its wait; otherwise the first such slot's error |
| SwapchainFrames.SwapchainFrames.WaitForAllFramesToComplete | src/graphics/swapchain_frames/mod.rs:146-156 | the outcome of walking the slots in order |
| SwapchainFrames.SwapchainFrames.InvalidateSwapchain | src/graphics/swapchain_frames/mod.rs:141-143 | sets the flag and nothing else |
| SwapchainFrames.SwapchainFrames.AcquireSwapchainFrame | src/graphics/swapchain_frames/mod.rs:76-110 | with the flag set it reports `NeedsRebuild` and changes nothing; otherwise it takes a semaphore, and an acquired image's slot is taken (`FrameMissing` when empty) with its old acquire semaphore returned to the pool; a `NeedsRebuild` status never sets the flag |
| SwapchainFrames.SwapchainFrames.PresentFrameWithSignal | src/graphics/swapchain_frames/mod.rs:121-137 | a submit or present error is returned; only a successful present puts the frame back in slot `swapchain_image_index` |
| SwapchainFrames.SwapchainFrames.CreateFrames | src/graphics/swapchain_frames/mod.rs:202-211 | builds `count` frames with frame k in slot k, each with its own release semaphore drawn from the pool first; fails exactly when some creation fails |
| SwapchainFrames.SwapchainFrames.RebuildSwapchain | src/graphics/swapchain_frames/mod.rs:167-215 | a failed wait is returned unchanged; a shared swapchain is `SwapchainOwnershipIsNotUnique`; otherwise a new swapchain and one frame per image, and only success clears the flag |

## Left out

- Every `ash` call (create, destroy, fence wait, submit, present, enumerate) is a parameter or an input value. The driver's behaviour is not modelled.
- The `Drop` implementations and other destruction that only releases driver objects are not modelled, except where the source orders the destruction (`RenderPass.RenderPass.Destroy`, `SemaphorePool.SemaphorePool.Destroy`).
- `set_debug_name` and `name_vulkan_object` return a `Result` that their callers pass on with `?`. Only the canvas's renaming of a replaced buffer in `push_vertices` and `push_indices` is modelled, as the `naming` outcome of `TriangleCanvas.TriangleCanvas.PushVertices` and `TriangleCanvas.TriangleCanvas.PushIndices`. The other naming calls are not modelled. Among them is the renaming at the end of the canvas's `new` and `rebuild_swapchain_resources`, so `TriangleCanvas.TriangleCanvas.Init` is the state after a successful `new`.
- The descriptor set's binding is modelled only as the buffer it refers to (`boundVertexBuffers`). The `vkUpdateDescriptorSets` call that `bind_buffer` makes is a driver call.
- The context strings that `anyhow` and `VulkanError` attach to errors are not modelled. An error is its variant and the code it carries.
- Descriptor writes, pipeline creation and command recording in the triangle canvas's `rebuild_swapchain_resources` and `fill_command_buffer` only fill FFI structures.
- `RenderPass` `begin_render_pass`/`end_render_pass` and `create_render_pass_configured` are recording and FFI struct filling.
- `RenderPassArgs` `clear_colors_ptr`, `create_msaa_render_target` and `create_render_pass` are FFI builders. Their attachment and reference rules are modelled as `RenderPassArgs.Attachments` and `RenderPassArgs.ResolveReference`.
- MSAA display: only `pick_max_supported_msaa_count` is modelled. The other methods in the file are driver calls and delegation.
- `FrameRateLimit` `sleep_to_limit` and the `Instant::now` clock are left out: sleeping is I/O, and the clock is the `now` parameter.
- `build.rs`: the `main` loop over globbed files, the filesystem metadata queries and the `glslc` process are I/O. Their results are inputs. `BuildScript.CompileShader` returns the decision to run the compiler.
- Floating-point values are not modelled: colours are copied `f32` arrays and vertex coordinates are reals, because they are only copied.
- Markdown formatting: `write_fmt` errors are not modelled, so the formatter never fails. `{}` and `{:?}` are one `render` parameter.
- `Allocation.Allocation.AsSlice` also stands for `as_slice_mut`. The two share their checks and differ only in mutability.
- Memory-type search: the memory properties are the fixed 32-entry array (`VK_MAX_MEMORY_TYPES`). The search scans all 32 entries and ignores `memory_type_count`, as the source does. What a driver leaves in the entries past the count is not modelled.
- GpuVec.GpuVec.PushBack: requires the `u32` length and its doubling not to overflow, as the source's debug build panics there. It grows with the corrected `GpuVec.Growth`; the written `2 * length` is the Findings row below.
- BuildScript.CompileShader: requires every name in the shader path to be UTF-8 once the output path is known, because `to_str().unwrap()` at build.rs:53 and build.rs:59 panics otherwise.
- TriangleCanvas.TriangleCanvas.PushVertices: also requires a non-empty vector afterwards, because the source's `len() - 1` panics on an empty one.
- Frame internals are reduced to `Outcome` parameters: the fence waits, fence resets, command-buffer resets and submits of `frame.rs` and `frame_sync.rs`.
- `FramesInFlight.FramesInFlight.FrameCount` and `SwapchainFrames.SwapchainFrames.SwapchainImageCount` are plain accessors of the slot count, so they carry no contract of their own.
- The pool accessors `CommandPool.CommandPool.PrimaryCommandBuffer`, `CommandPool.CommandPool.SecondaryCommandBuffer` and `DescriptorPool.DescriptorPool.DescriptorSet` are plain indexing. What they return is stated in the allocate methods' contracts.
- Copies of modelled logic elsewhere in the repository are not modelled twice: the other SPIR-V decoders, semaphore pools, MSAA selections, acquire mappings, memory-type searches, the older queue selection, the layer filter and the pretty-list formatter.
- GLFW windowing, logging formatters, the per-example application loops, mutex-guarded allocators and raw-pointer buffer writes are not modelled.
- TriangleCanvas.TriangleCanvas.PushVertex: requires each per-image vector to stay below 2^31 elements. This is simpler and slightly stronger than the source's own limit, where the `u32` doubling in `push_back` panics on overflow.
- TriangleCanvas.TriangleCanvas.PushVertices: requires each per-image vector to stay below 2^31 elements. This is simpler and slightly stronger than the source's own limit, where the `u32` doubling in `push_back` panics on overflow.
- TriangleCanvas.TriangleCanvas.PushIndex: requires each per-image vector to stay below 2^31 elements. This is simpler and slightly stronger than the source's own limit, where the `u32` doubling in `push_back` panics on overflow.
- TriangleCanvas.TriangleCanvas.PushIndices: requires each per-image vector to stay below 2^31 elements. This is simpler and slightly stronger than the source's own limit, where the `u32` doubling in `push_back` panics on overflow.
- TriangleCanvas.TriangleCanvas.AddShape: requires each per-image vector to stay below 2^31 elements. This is simpler and slightly stronger than the source's own limit, where the `u32` doubling in `push_back` panics on overflow.
- TriangleCanvas.TriangleCanvas.AddTriangle: requires each per-image vector to stay below 2^31 elements. This is simpler and slightly stronger than the source's own limit, where the `u32` doubling in `push_back` panics on overflow.
- TriangleCanvas.TriangleCanvas.AddQuad: requires each per-image vector to stay below 2^31 elements. This is simpler and slightly stronger than the source's own limit, where the `u32` doubling in `push_back` panics on overflow.
- RenderDeviceSelection.ChooseImageCount: requires `min_image_count + 1` to fit in a `u32`. The source's `+ 1` panics on overflow in a debug build.
- SwapchainFrames.SwapchainFrames.AcquireSwapchainFrame: requires the driver's image index to be below the slot count. The source would panic on a larger index; the driver never returns one.
- FramesInFlight.FramesInFlight.PresentFrame: requires the frame's index to equal the cursor. This is the source's `debug_assert`.
- FramesInFlight.FramesInFlight.New and SwapchainFrames.SwapchainFrames.RebuildSwapchain: the framebuffer size is an `i32` pair, reinterpreted as `u32` by the source's `as` cast (`Vk.I32AsU32`).

## Findings

| source | as written | input that shows it | evidently intended | confidence | as-written member | corrected member |
|---|---|---|---|---|---|---|
| src/vulkan/buffer/gpu_vec.rs:61-67 | a full vector grows to `2 * length` before writing at index `length` | a `GpuVec` created with initial capacity 0, then one `push_back`: it grows to capacity 0 and the write is out of bounds. `GpuVec::new(0)` (gpu_vec.rs:29-51) already asks for a 0-byte buffer, which Vulkan does not allow (a buffer's size must be greater than 0) | grow to at least `length + 1` | not executed | GpuVec.PushBackAsWrittenWriteInBounds | GpuVec.Growth |
| src/graphics/msaa_display/mod.rs:210-213 | the counts supported by both attachments are the numeric `min` of the two masks | depth counts 0xF {1, 2, 4, 8}, colour counts 0x15 {1, 4, 16} (both hold 1 and 4, as Vulkan requires), desired TYPE_8: `min` is 0xF, so TYPE_8 is picked, which the colour attachment does not support | the intersection of the two masks | not executed | Msaa.PickCanChooseUnsupportedColorCount | Msaa.PickSampleCount |
| src/graphics/vulkan_api/frames_in_flight/mod.rs:185-191 | when the acquire needs a rebuild, the taken frame sync is dropped and its slot stays empty | all slots full, then `acquire_frame` with an out-of-date acquire result, then `stall_and_rebuild_swapchain` (as in examples/e09/main.rs:89-94): the wait reaches the empty slot and fails | put the frame sync back in its slot before returning `SwapchainNeedsRebuild` | not executed | FramesInFlight.RebuildAfterOutOfDateAcquireAsWritten | FramesInFlight.RebuildAfterOutOfDateAcquire |

=== FILE: acquire_present.dfy ===
/** Mapping of the raw results of `vkAcquireNextImageKHR` and
    `vkQueuePresentKHR` to the crate's `SwapchainStatus`
    (src/graphics/vulkan_api/swapchain/acquire_present.rs). The driver calls
    themselves are not modelled: their results are the inputs. */
module AcquirePresent {
  import opened Wrappers
  import opened Vk

  /** Indicates that the swapchain needs a rebuild, or that the operation
      completed with the given swapchain image index. */
  datatype SwapchainStatus = Index(index: nat) | NeedsRebuild

  /** What ash returns from `acquire_next_image`: `Ok((index, suboptimal))`
      or `Err(code)`. */
  datatype AcquireResult = Acquired(index: U32, suboptimal: bool) | AcquireFailed(code: VkCode)

  /** What ash returns from `queue_present`: `Ok(suboptimal)` or `Err(code)`. */
  datatype PresentResult = Presented(suboptimal: bool) | PresentFailed(code: VkCode)

  /** The swapchain no longer matches the surface: a suboptimal success or
      VK_ERROR_OUT_OF_DATE_KHR (Vulkan 1.3, Window System Integration). */
  predicate AcquireInvalidates(r: AcquireResult) {
    (r.Acquired? && r.suboptimal) || r == AcquireFailed(ERROR_OUT_OF_DATE_KHR)
  }

  predicate PresentInvalidates(r: PresentResult) {
    (r.Presented? && r.suboptimal) || r == PresentFailed(ERROR_OUT_OF_DATE_KHR)
  }

  /** Acquire: an optimal index is used, an invalidated swapchain asks for a
      rebuild, any other failure is an error. */
  function AcquireSwapchainImage(r: AcquireResult): (s: Result<SwapchainStatus, GraphicsError>)
    ensures s.Ok? && s.value.Index? <==> r.Acquired? && !r.suboptimal
    ensures s.Ok? && s.value.Index? ==> s.value.index == r.index
    ensures s == Ok(NeedsRebuild) <==> AcquireInvalidates(r)
    ensures s.Err? <==> r.AcquireFailed? && r.code != ERROR_OUT_OF_DATE_KHR
    ensures s.Err? ==> s.error == RuntimeError(UnexpectedVkResult(r.code))
  {
    match r
    case Acquired(index, false) => Ok(Index(index))
    case Acquired(_, true) => Ok(NeedsRebuild)
    case AcquireFailed(code) =>
      if code == ERROR_OUT_OF_DATE_KHR then Ok(NeedsRebuild)
      else Err(RuntimeError(UnexpectedVkResult(code)))
  }

  /** Present: an optimal presentation reports back the index that was
      presented, an invalidated swapchain asks for a rebuild, any other
      failure is an error. */
  function PresentSwapchainImage(index: nat, r: PresentResult): (s: Result<SwapchainStatus, GraphicsError>)
    ensures s == Ok(Index(index)) <==> r == Presented(false)
    ensures s.Ok? ==> s.value == Index(index) || s.value == NeedsRebuild
    ensures s == Ok(NeedsRebuild) <==> PresentInvalidates(r)
    ensures s.Err? <==> r.PresentFailed? && r.code != ERROR_OUT_OF_DATE_KHR
    ensures s.Err? ==> s.error == RuntimeError(UnexpectedVkResult(r.code))
  {
    match r
    case Presented(false) => Ok(Index(index))
    case Presented(true) => Ok(NeedsRebuild)
    case PresentFailed(code) =>
      if code == ERROR_OUT_OF_DATE_KHR then Ok(NeedsRebuild)
      else Err(RuntimeError(UnexpectedVkResult(code)))
  }
}

=== FILE: allocation.dfy ===
/** A chunk of device memory and its optional host mapping
    (src/graphics/vulkan_api/render_device/allocator/allocation.rs).
    Host pointers are addresses (naturals); mapping and unmapping are
    driver calls, so the mapped address is a parameter and `Unmap` reports
    whether it would call the driver. */
module Allocation {
  import opened Wrappers
  import opened Vk

  /** A typed view of the mapped memory: its start address and element
      count. */
  datatype Slice = Slice(address: nat, count: nat)

  class Allocation {
    const deviceMemory: Handle
    const offsetInBytes: nat
    const sizeInBytes: nat
    const memoryTypeIndex: U32
    /** The host address of the allocation's first byte, while mapped. */
    var cpuMappedPtr: Option<nat>

    /** `new`: an unmapped allocation of the given memory range. */
    constructor (memory: Handle, offsetInBytes: nat, sizeInBytes: nat, memoryTypeIndex: U32)
      ensures cpuMappedPtr == None
      ensures deviceMemory == memory && this.offsetInBytes == offsetInBytes
      ensures this.sizeInBytes == sizeInBytes && this.memoryTypeIndex == memoryTypeIndex
    {
      deviceMemory := memory;
      this.offsetInBytes := offsetInBytes;
      this.sizeInBytes := sizeInBytes;
      this.memoryTypeIndex := memoryTypeIndex;
      cpuMappedPtr := None;
    }

    /** `map`: `mapped` is the render device's answer to mapping the
        memory object. On success the host pointer is that address advanced
        by the offset; an error is passed on and changes nothing. */
    method Map(mapped: Result<nat, VulkanError>) returns (r: Outcome<VulkanError>)
      modifies this
      ensures mapped.Ok? ==> r == Pass && cpuMappedPtr == Some(mapped.value + offsetInBytes)
      ensures mapped.Err? ==> r == Fail(mapped.error) && cpuMappedPtr == old(cpuMappedPtr)
    {
      match mapped {
        case Err(e) => return Fail(e);
        case Ok(hostMemoryPtr) =>
          cpuMappedPtr := Some(hostMemoryPtr + offsetInBytes);
          return Pass;
      }
    }

    /** `unmap`: forgets the host pointer; the driver is asked to unmap
        only when the allocation was mapped, so a second call does
        nothing. */
    method Unmap() returns (unmapCalled: bool)
      modifies this
      ensures cpuMappedPtr == None
      ensures unmapCalled <==> old(cpuMappedPtr).Some?
    {
      unmapCalled := cpuMappedPtr.Some?;
      cpuMappedPtr := None;
    }

    /** `as_slice` and `as_slice_mut` for an element type of alignment
        `align` and size `size`: an error when unmapped or when the host
        pointer is misaligned; otherwise as many whole elements as fit in
        the allocation. A zero-sized element type would divide by zero. */
    function AsSlice(align: nat, size: nat, typeName: string): (r: Result<Slice, VulkanError>)
      reads this
      requires align > 0 && size > 0
      ensures cpuMappedPtr.None? ==> r == Err(DeviceMemoryIsNotMapped)
      ensures cpuMappedPtr.Some? && cpuMappedPtr.value % align != 0 ==>
        r == Err(DeviceMemoryIsNotAlignedForType(typeName))
      ensures r.Ok? <==> cpuMappedPtr.Some? && cpuMappedPtr.value % align == 0
      ensures r.Ok? ==> r.value.address == cpuMappedPtr.value
      ensures r.Ok? ==> r.value.count * size <= sizeInBytes < (r.value.count + 1) * size
    {
      match cpuMappedPtr
      case None => Err(DeviceMemoryIsNotMapped)
      case Some(mappedPtr) =>
        if mappedPtr % align != 0 then Err(DeviceMemoryIsNotAlignedForType(typeName))
        else
          var numberOfElements := sizeInBytes / size;
          assert numberOfElements * size <= sizeInBytes < (numberOfElements + 1) * size by {
            DivisionBounds(sizeInBytes, size);
          }
          Ok(Slice(mappedPtr, numberOfElements))
    }
  }
}

=== FILE: build_script.dfy ===
/** The shader build script (build.rs): where a shader's compiled SPIR-V
    goes, when it must be recompiled, and what `compile_shader` decides.
    Paths are modelled by their components, as `std::path` sees them; file
    system queries are parameters holding what they returned. Running
    `glslc` is not modelled beyond the decision to run it. */
module BuildScript {
  import opened Wrappers
  import opened Vk
  import opened Utf8

  /** A component of a Unix path. A root is the `absolute` flag. */
  datatype Component = Normal(name: Bytes) | CurDir | ParentDir

  datatype Path = Path(absolute: bool, components: seq<Component>)

  /** The three contexts `output_file_for_shader_file` can fail with. */
  datatype BuildError = NoParentDir | NoFileName | FileNameNotUtf8

  /** An I/O error from a file system query. */
  datatype IoError = IoError(code: int)

  /** A modification time, in nanoseconds. */
  type Time = int

  /** `Path::parent`: the path without its last component; none for an
      empty path or a bare root. */
  function Parent(p: Path): (r: Option<Path>)
    ensures r.None? <==> |p.components| == 0
    ensures r.Some? ==> (r.value.absolute == p.absolute &&
      r.value.components + [p.components[|p.components| - 1]] == p.components)
  {
    if |p.components| == 0 then None
    else Some(Path(p.absolute, p.components[..|p.components| - 1]))
  }

  /** `Path::file_name`: the last component when it is a normal name. */
  function FileName(p: Path): (r: Option<Bytes>)
    ensures r.Some? <==> |p.components| > 0 && p.components[|p.components| - 1].Normal?
    ensures r.Some? ==> p.components[|p.components| - 1] == Normal(r.value)
  {
    if |p.components| > 0 && p.components[|p.components| - 1].Normal? then
      Some(p.components[|p.components| - 1].name)
    else None
  }

  /** `parent.join(name)` for a single relative file name. */
  function Join(parent: Path, name: Bytes): (r: Path)
    ensures Parent(r) == Some(parent) && FileName(r) == Some(name)
  {
    Path(parent.absolute, parent.components + [Normal(name)])
  }

  /** The bytes of ".spv". */
  const SPV_SUFFIX: Bytes := [0x2E, 0x73, 0x70, 0x76]

  /** `output_file_for_shader_file`: the shader's directory, with the
      shader's file name followed by `.spv` (a.vert becomes a.vert.spv).
      Fails without a parent, without a file name, or when the file name
      is not UTF-8, checked in that order. */
  function OutputFileForShaderFile(shader: Path): (r: Result<Path, BuildError>)
    ensures r == Err(NoParentDir) <==> Parent(shader).None?
    ensures r == Err(NoFileName) <==> Parent(shader).Some? && FileName(shader).None?
    ensures r == Err(FileNameNotUtf8) <==>
      FileName(shader).Some? && !ValidUtf8(FileName(shader).value)
    ensures r.Ok? ==> (Parent(r.value) == Parent(shader) &&
      FileName(r.value) == Some(FileName(shader).value + SPV_SUFFIX))
  {
    match Parent(shader)
    case None => Err(NoParentDir)
    case Some(parent) =>
      match FileName(shader)
      case None => Err(NoFileName)
      case Some(name) =>
        if !ValidUtf8(name) then Err(FileNameNotUtf8)
        else Ok(Join(parent, name + SPV_SUFFIX))
  }

  /** The output sits next to the shader: only the last component differs. */
  lemma OutputIsSibling(shader: Path)
    requires OutputFileForShaderFile(shader).Ok?
    ensures var out := OutputFileForShaderFile(shader).value;
      out.absolute == shader.absolute &&
      |out.components| == |shader.components| &&
      out.components[..|out.components| - 1] == shader.components[..|shader.components| - 1]
  {
  }

  /** `Path::to_str` succeeds: every name is UTF-8. The separators are
      ASCII, so this is the same as the whole path being UTF-8. */
  predicate PathIsUtf8(p: Path) {
    forall i :: 0 <= i < |p.components| && p.components[i].Normal? ==> ValidUtf8(p.components[i].name)
  }

  /** The output path of a UTF-8 shader path is UTF-8 too, so printing it
      after a successful compile cannot panic. */
  lemma OutputPathIsUtf8(shader: Path)
    requires PathIsUtf8(shader) && OutputFileForShaderFile(shader).Ok?
    ensures PathIsUtf8(OutputFileForShaderFile(shader).value)
  {
    var name := FileName(shader).value;
    AsciiIsValidUtf8(SPV_SUFFIX);
    ValidUtf8Concat(name, SPV_SUFFIX);
    var out := OutputFileForShaderFile(shader).value;
    forall i | 0 <= i < |out.components| && out.components[i].Normal?
      ensures ValidUtf8(out.components[i].name)
    {
      if i < |out.components| - 1 {
        assert out.components[i] == shader.components[i];
      }
    }
  }

  /** `shaders/a.vert` compiles to `shaders/a.vert.spv`. */
  lemma ExampleOutputPath()
    ensures OutputFileForShaderFile(Path(false, [Normal([0x73]), Normal([0x61, 0x2E, 0x76, 0x65, 0x72, 0x74])]))
      == Ok(Path(false, [Normal([0x73]), Normal([0x61, 0x2E, 0x76, 0x65, 0x72, 0x74, 0x2E, 0x73, 0x70, 0x76])]))
  {
    var dir: Bytes := [0x73];
    var name: Bytes := [0x61, 0x2E, 0x76, 0x65, 0x72, 0x74];
    var spv: Bytes := [0x61, 0x2E, 0x76, 0x65, 0x72, 0x74, 0x2E, 0x73, 0x70, 0x76];
    var shader := Path(false, [Normal(dir), Normal(name)]);
    AsciiIsValidUtf8(name);
    assert shader.components[..1] == [Normal(dir)];
    assert Parent(shader) == Some(Path(false, [Normal(dir)]));
    assert FileName(shader) == Some(name);
    assert name + SPV_SUFFIX == spv;
    assert [Normal(dir)] + [Normal(spv)] == [Normal(dir), Normal(spv)];
  }

  /** `needs_rebuild`: true when the output does not exist; otherwise
      whether the shader is strictly newer than the output. The queries
      are made in order and the first failure is returned. */
  function NeedsRebuild(outputExists: Result<bool, IoError>, shaderModified: Result<Time, IoError>,
                        outputModified: Result<Time, IoError>): (r: Result<bool, IoError>)
    ensures outputExists == Ok(false) ==> r == Ok(true)
    ensures outputExists.Err? ==> r == Err(outputExists.error)
    ensures outputExists == Ok(true) && shaderModified.Err? ==> r == Err(shaderModified.error)
    ensures outputExists == Ok(true) && shaderModified.Ok? && outputModified.Err? ==> r == Err(outputModified.error)
    ensures outputExists == Ok(true) && shaderModified.Ok? && outputModified.Ok? ==>
      r == Ok(shaderModified.value > outputModified.value)
  {
    if outputExists.Err? then Err(outputExists.error)
    else if !outputExists.value then Ok(true)
    else if shaderModified.Err? then Err(shaderModified.error)
    else if outputModified.Err? then Err(outputModified.error)
    else Ok(shaderModified.value > outputModified.value)
  }

  /** What `compile_shader` does for one shader. */
  datatype Action = SkipUpToDate | RunCompiler(input: Path, output: Path)

  /** `compile_shader` up to running `glslc`: an output path error is
      returned; the compile is skipped only when `needs_rebuild` says
      `Ok(false)`, so an error from it counts as "rebuild". Once the output
      path is known, both branches print the shader path with
      `to_str().unwrap()`, which panics unless the path is UTF-8. */
  function CompileShader(shader: Path, outputExists: Result<bool, IoError>,
                         shaderModified: Result<Time, IoError>,
                         outputModified: Result<Time, IoError>): (r: Result<Action, BuildError>)
    requires OutputFileForShaderFile(shader).Ok? ==> PathIsUtf8(shader)
    ensures r.Err? <==> OutputFileForShaderFile(shader).Err?
    ensures r.Err? ==> r.error == OutputFileForShaderFile(shader).error
    ensures r == Ok(SkipUpToDate) <==> (OutputFileForShaderFile(shader).Ok? &&
      NeedsRebuild(outputExists, shaderModified, outputModified) == Ok(false))
    ensures r.Ok? && r.value.RunCompiler? ==>
      r.value == RunCompiler(shader, OutputFileForShaderFile(shader).value)
  {
    match OutputFileForShaderFile(shader)
    case Err(e) => Err(e)
    case Ok(output) =>
      var needs := NeedsRebuild(outputExists, shaderModified, outputModified);
      if !(if needs.Ok? then needs.value else true) then Ok(SkipUpToDate)
      else Ok(RunCompiler(shader, output))
  }

  /** The skip rule in full: a shader with a valid output path is skipped
      exactly when its output exists, both times could be read, and the
      shader is not newer than the output. */
  lemma SkipIffUpToDate(shader: Path, outputExists: Result<bool, IoError>,
                        shaderModified: Result<Time, IoError>, outputModified: Result<Time, IoError>)
    requires OutputFileForShaderFile(shader).Ok? && PathIsUtf8(shader)
    ensures CompileShader(shader, outputExists, shaderModified, outputModified) == Ok(SkipUpToDate) <==>
      (outputExists == Ok(true) && shaderModified.Ok? && outputModified.Ok? &&
       shaderModified.value <= outputModified.value)
  {
  }
}

=== FILE: command_pool.dfy ===
/** The RAII command pool of `vulkan_api`
    (src/graphics/vulkan_api/raii/command_pool.rs): a pool handle and the
    primary and secondary command buffers allocated from it, in allocation
    order. The driver's pool creation and buffer allocation are
    parameters; the allocation is a function of the request, so the
    contracts can say what is requested. */
module CommandPool {
  import opened Wrappers
  import opened Vk

  datatype CommandBufferLevel = Primary | Secondary

  /** The fields of `vk::CommandBufferAllocateInfo` the code sets. */
  datatype CommandBufferAllocateInfo = CommandBufferAllocateInfo(
    commandPool: Handle, level: CommandBufferLevel, commandBufferCount: U32)

  class CommandPool {
    const commandPool: Handle
    var primaryCommandBuffers: seq<Handle>
    var secondaryCommandBuffers: seq<Handle>

    constructor Init(commandPool: Handle)
      ensures this.commandPool == commandPool
      ensures primaryCommandBuffers == [] && secondaryCommandBuffers == []
    {
      this.commandPool := commandPool;
      primaryCommandBuffers := [];
      secondaryCommandBuffers := [];
    }

    /** `new`: a pool over the created handle, with no buffers yet; a
        creation error is passed on. */
    static method New<E>(created: Result<Handle, E>) returns (r: Result<CommandPool, E>)
      ensures created.Err? ==> r == Err(created.error)
      ensures created.Ok? ==> r.Ok? && fresh(r.value) && r.value.commandPool == created.value
      ensures r.Ok? ==> r.value.primaryCommandBuffers == [] && r.value.secondaryCommandBuffers == []
    {
      if created.Err? {
        return Err(created.error);
      }
      var pool := new CommandPool.Init(created.value);
      return Ok(pool);
    }

    /** `primary_command_buffer`: the buffer at position `index`; an index
        past the end panics. */
    function PrimaryCommandBuffer(index: nat): Handle
      reads this
      requires index < |primaryCommandBuffers|
    {
      primaryCommandBuffers[index]
    }

    /** `secondary_command_buffer`, as above for secondary buffers. */
    function SecondaryCommandBuffer(index: nat): Handle
      reads this
      requires index < |secondaryCommandBuffers|
    {
      secondaryCommandBuffers[index]
    }

    /** `allocate_primary_command_buffers`: asks for `count` primary
        buffers from this pool, appends what the driver returns and answers
        the position of the first new buffer. */
    method AllocatePrimaryCommandBuffers<E>(count: U32, allocate: CommandBufferAllocateInfo -> Result<seq<Handle>, E>)
      returns (r: Result<nat, E>)
      modifies this
      ensures var result := allocate(CommandBufferAllocateInfo(commandPool, Primary, count));
        (result.Err? ==> r == Err(result.error) && primaryCommandBuffers == old(primaryCommandBuffers)) &&
        (result.Ok? ==>
          r == Ok(|old(primaryCommandBuffers)|) &&
          primaryCommandBuffers == old(primaryCommandBuffers) + result.value &&
          forall k :: 0 <= k < |result.value| ==> PrimaryCommandBuffer(r.value + k) == result.value[k])
      ensures secondaryCommandBuffers == old(secondaryCommandBuffers)
    {
      var createInfo := CommandBufferAllocateInfo(commandPool, Primary, count);
      var newBuffers := allocate(createInfo);
      if newBuffers.Err? {
        return Err(newBuffers.error);
      }
      var last := |primaryCommandBuffers|;
      primaryCommandBuffers := primaryCommandBuffers + newBuffers.value;
      return Ok(last);
    }

    /** `allocate_secondary_command_buffers`: the same on the secondary
        list; the primary list is untouched. */
    method AllocateSecondaryCommandBuffers<E>(count: U32, allocate: CommandBufferAllocateInfo -> Result<seq<Handle>, E>)
      returns (r: Result<nat, E>)
      modifies this
      ensures var result := allocate(CommandBufferAllocateInfo(commandPool, Secondary, count));
        (result.Err? ==> r == Err(result.error) && secondaryCommandBuffers == old(secondaryCommandBuffers)) &&
        (result.Ok? ==>
          r == Ok(|old(secondaryCommandBuffers)|) &&
          secondaryCommandBuffers == old(secondaryCommandBuffers) + result.value &&
          forall k :: 0 <= k < |result.value| ==> SecondaryCommandBuffer(r.value + k) == result.value[k])
      ensures primaryCommandBuffers == old(primaryCommandBuffers)
    {
      var createInfo := CommandBufferAllocateInfo(commandPool, Secondary, count);
      var newBuffers := allocate(createInfo);
      if newBuffers.Err? {
        return Err(newBuffers.error);
      }
      var last := |secondaryCommandBuffers|;
      secondaryCommandBuffers := secondaryCommandBuffers + newBuffers.value;
      return Ok(last);
    }
  }
}

=== FILE: descriptor_pool.dfy ===
/** The RAII descriptor pool of `vulkan_api`
    (src/graphics/vulkan_api/raii/descriptor_pool.rs): a pool handle and
    the descriptor sets allocated from it, in allocation order. Pool
    creation and set allocation are driver calls, given as functions of
    the request. */
module DescriptorPool {
  import opened Wrappers
  import opened Vk

  /** The create info `new_with_sizes` builds. */
  function CreateInfoWithSizes(maxSets: U32, poolSizes: seq<DescriptorPoolSize>): (info: DescriptorPoolCreateInfo)
    ensures info.maxSets == maxSets && info.poolSizes == poolSizes
    ensures |poolSizes| <= U32_MAX ==> info.poolSizeCount == |poolSizes|
  {
    DescriptorPoolCreateInfo(maxSets, TruncateU32(|poolSizes|), poolSizes)
  }

  class DescriptorPool {
    const descriptorPool: Handle
    var descriptorSets: seq<Handle>

    constructor Init(descriptorPool: Handle)
      ensures this.descriptorPool == descriptorPool && descriptorSets == []
    {
      this.descriptorPool := descriptorPool;
      descriptorSets := [];
    }

    /** `new`: a pool made from `createInfo`, holding no sets yet; a
        creation error is passed on. */
    static method New<E>(createInfo: DescriptorPoolCreateInfo, create: DescriptorPoolCreateInfo -> Result<Handle, E>)
      returns (r: Result<DescriptorPool, E>)
      ensures create(createInfo).Err? ==> r == Err(create(createInfo).error)
      ensures create(createInfo).Ok? ==>
        r.Ok? && fresh(r.value) && r.value.descriptorPool == create(createInfo).value
      ensures r.Ok? ==> r.value.descriptorSets == []
    {
      var created := create(createInfo);
      if created.Err? {
        return Err(created.error);
      }
      var pool := new DescriptorPool.Init(created.value);
      return Ok(pool);
    }

    /** `new_with_sizes`: `new` with a create info carrying `maxSets` and
        the pool sizes unchanged. */
    static method NewWithSizes<E>(maxSets: U32, poolSizes: seq<DescriptorPoolSize>,
                                  create: DescriptorPoolCreateInfo -> Result<Handle, E>)
      returns (r: Result<DescriptorPool, E>)
      ensures var info := CreateInfoWithSizes(maxSets, poolSizes);
        (create(info).Err? ==> r == Err(create(info).error)) &&
        (create(info).Ok? ==> r.Ok? && fresh(r.value) && r.value.descriptorPool == create(info).value)
      ensures r.Ok? ==> r.value.descriptorSets == []
    {
      r := New(CreateInfoWithSizes(maxSets, poolSizes), create);
    }

    /** `descriptor_set`: the set at position `index`; an index past the
        end panics. */
    function DescriptorSet(index: nat): Handle
      reads this
      requires index < |descriptorSets|
    {
      descriptorSets[index]
    }

    /** `allocate_descriptor_sets`: asks for one set per layout, in layout
        order, appends what the driver returns and answers the position of
        the first new set. */
    method AllocateDescriptorSets<E>(layouts: seq<Handle>, allocate: DescriptorSetAllocateInfo -> Result<seq<Handle>, E>)
      returns (r: Result<nat, E>)
      modifies this
      ensures var result := allocate(DescriptorSetAllocateInfo(descriptorPool, TruncateU32(|layouts|), layouts));
        (result.Err? ==> r == Err(result.error) && descriptorSets == old(descriptorSets)) &&
        (result.Ok? ==>
          r == Ok(|old(descriptorSets)|) &&
          descriptorSets == old(descriptorSets) + result.value &&
          forall k :: 0 <= k < |result.value| ==> DescriptorSet(r.value + k) == result.value[k])
    {
      var descriptorSetCount := TruncateU32(|layouts|);
      var createInfo := DescriptorSetAllocateInfo(descriptorPool, descriptorSetCount, layouts);
      var newSets := allocate(createInfo);
      if newSets.Err? {
        return Err(newSets.error);
      }
      var last := |descriptorSets|;
      descriptorSets := descriptorSets + newSets.value;
      return Ok(last);
    }
  }
}

=== FILE: descriptor_set_pool.dfy ===
/** The older descriptor pool (src/vulkan/descriptor_set/descriptor_pool.rs):
    a pool sized for one descriptor set per swapchain image, and batch
    allocation of sets sharing one layout. Pool creation and set allocation
    are driver calls, given as functions of the request. */
module DescriptorSetPool {
  import opened Wrappers
  import opened Vk

  datatype DescriptorSetError = UnableToCreatePool(code: VkCode) | UnableToAllocateDescriptors(code: VkCode)

  /** The pool only keeps its raw handle. */
  datatype DescriptorPool = DescriptorPool(raw: Handle)

  /** `new`: a pool for `descriptorCount` sets with the given sizes. */
  function New(descriptorCount: U32, sizes: seq<DescriptorPoolSize>,
               create: DescriptorPoolCreateInfo -> Result<Handle, VkCode>): (r: Result<DescriptorPool, DescriptorSetError>)
    ensures var info := create(DescriptorPoolCreateInfo(descriptorCount, TruncateU32(|sizes|), sizes));
      (info.Ok? ==> r == Ok(DescriptorPool(info.value))) &&
      (info.Err? ==> r == Err(UnableToCreatePool(info.error)))
  {
    var createInfo := DescriptorPoolCreateInfo(descriptorCount, TruncateU32(|sizes|), sizes);
    match create(createInfo)
    case Ok(raw) => Ok(DescriptorPool(raw))
    case Err(code) => Err(UnableToCreatePool(code))
  }

  /** The pool sizes `for_each_swapchain_image` asks for: a uniform-buffer,
      a storage-buffer and an image-sampler entry, in that order, each only
      when its count is positive. */
  method PoolSizes(uniformBuffers: U32, storageBuffers: U32, imageSamplers: U32)
    returns (sizes: seq<DescriptorPoolSize>)
    ensures |sizes| == (if uniformBuffers > 0 then 1 else 0) + (if storageBuffers > 0 then 1 else 0)
      + (if imageSamplers > 0 then 1 else 0)
    ensures DescriptorPoolSize(DESCRIPTOR_TYPE_UNIFORM_BUFFER, uniformBuffers) in sizes <==> uniformBuffers > 0
    ensures DescriptorPoolSize(DESCRIPTOR_TYPE_STORAGE_BUFFER, storageBuffers) in sizes <==> storageBuffers > 0
    ensures DescriptorPoolSize(DESCRIPTOR_TYPE_COMBINED_IMAGE_SAMPLER, imageSamplers) in sizes <==> imageSamplers > 0
    ensures forall i :: 0 <= i < |sizes| ==> sizes[i].descriptorCount > 0
    ensures forall i, j :: 0 <= i < j < |sizes| ==> TypeRank(sizes[i].ty) < TypeRank(sizes[j].ty)
  {
    sizes := [];
    if uniformBuffers > 0 {
      sizes := sizes + [DescriptorPoolSize(DESCRIPTOR_TYPE_UNIFORM_BUFFER, uniformBuffers)];
    }
    if storageBuffers > 0 {
      sizes := sizes + [DescriptorPoolSize(DESCRIPTOR_TYPE_STORAGE_BUFFER, storageBuffers)];
    }
    if imageSamplers > 0 {
      sizes := sizes + [DescriptorPoolSize(DESCRIPTOR_TYPE_COMBINED_IMAGE_SAMPLER, imageSamplers)];
    }
  }

  /** The position of a descriptor type in the order the sizes are pushed. */
  function TypeRank(ty: DescriptorType): nat {
    if ty == DESCRIPTOR_TYPE_UNIFORM_BUFFER then 0
    else if ty == DESCRIPTOR_TYPE_STORAGE_BUFFER then 1
    else 2
  }

  /** `for_each_swapchain_image`: a pool whose set limit is the swapchain
      image count and whose sizes are `PoolSizes`. */
  method ForEachSwapchainImage(swapchainImageCount: U32, uniformBuffers: U32, storageBuffers: U32,
                               imageSamplers: U32, create: DescriptorPoolCreateInfo -> Result<Handle, VkCode>)
    returns (r: Result<DescriptorPool, DescriptorSetError>, createInfo: DescriptorPoolCreateInfo)
    ensures createInfo.maxSets == swapchainImageCount
    ensures createInfo.poolSizeCount == |createInfo.poolSizes| <= 3
    ensures createInfo.poolSizes == [] <==> uniformBuffers == 0 && storageBuffers == 0 && imageSamplers == 0
    ensures r == New(swapchainImageCount, createInfo.poolSizes, create)
  {
    var sizes := PoolSizes(uniformBuffers, storageBuffers, imageSamplers);
    createInfo := DescriptorPoolCreateInfo(swapchainImageCount, TruncateU32(|sizes|), sizes);
    r := New(swapchainImageCount, sizes, create);
  }

  /** `allocate`: asks for `count` sets, each with `layout`, and passes on
      what the driver returns. */
  method Allocate(pool: DescriptorPool, layout: Handle, count: U32,
                  allocate: DescriptorSetAllocateInfo -> Result<seq<Handle>, VkCode>)
    returns (r: Result<seq<Handle>, DescriptorSetError>, allocateInfo: DescriptorSetAllocateInfo)
    ensures allocateInfo.descriptorPool == pool.raw && allocateInfo.descriptorSetCount == count
    ensures |allocateInfo.setLayouts| == count
    ensures forall i :: 0 <= i < |allocateInfo.setLayouts| ==> allocateInfo.setLayouts[i] == layout
    ensures allocate(allocateInfo).Ok? ==> r == Ok(allocate(allocateInfo).value)
    ensures allocate(allocateInfo).Err? ==> r == Err(UnableToAllocateDescriptors(allocate(allocateInfo).error))
  {
    var layouts: seq<Handle> := [];
    for i := 0 to count
      invariant |layouts| == i
      invariant forall k :: 0 <= k < i ==> layouts[k] == layout
    {
      layouts := layouts + [layout];
    }
    allocateInfo := DescriptorSetAllocateInfo(pool.raw, TruncateU32(|layouts|), layouts);
    match allocate(allocateInfo) {
      case Ok(rawSets) => r := Ok(rawSets);
      case Err(code) => r := Err(UnableToAllocateDescriptors(code));
    }
  }
}

=== FILE: extensions.dfy ===
/** The required-instance-extension check
    (src/graphics/vulkan_api/instance/extensions.rs). The driver's list of
    extension properties is a parameter: each entry is its fixed array of
    C characters, NUL padding included, exactly as `enumerate` returns it. */
module Extensions {
  import opened Wrappers
  import opened Vk
  import opened Utf8

  /** A C `char`, signed on the platforms the demos target. */
  type CChar = c: int | -0x80 <= c < 0x80

  /** `*c as u8`: a two's-complement reinterpretation. */
  function AsU8(c: CChar): (b: Byte)
    ensures c >= 0 ==> b == c
    ensures c < 0 ==> b == c + 0x100
    ensures b >= 0x80 <==> c < 0
  {
    if c < 0 then c + 0x100 else c
  }

  /** The bytes of one `extension_name` array, padding kept. */
  function NameBytes(name: seq<CChar>): (r: Bytes)
    ensures |r| == |name|
    ensures forall k :: 0 <= k < |name| ==> r[k] == AsU8(name[k])
  {
    if |name| == 0 then [] else [AsU8(name[0])] + NameBytes(name[1..])
  }

  /** The available names: each property's bytes, keeping only those that
      are well-formed UTF-8, in the driver's order. */
  function AvailableNames(properties: seq<seq<CChar>>): (names: seq<Bytes>)
    ensures |names| <= |properties|
    ensures forall n :: n in names ==> ValidUtf8(n)
    ensures forall n :: n in names ==> exists p :: p in properties && NameBytes(p) == n
    ensures forall p :: p in properties && ValidUtf8(NameBytes(p)) ==> NameBytes(p) in names
  {
    if |properties| == 0 then []
    else
      var rest := AvailableNames(properties[1..]);
      var bytes := NameBytes(properties[0]);
      assert properties[0] in properties;
      assert forall n :: n in rest ==> exists p :: p in properties && NameBytes(p) == n by {
        forall n | n in rest
          ensures exists p :: p in properties && NameBytes(p) == n
        {
          var p :| p in properties[1..] && NameBytes(p) == n;
          assert p in properties;
        }
      }
      if ValidUtf8(bytes) then [bytes] + rest else rest
  }

  /** Rust's `str::contains`: `needle` occurs in `haystack` at some offset. */
  predicate Contains(haystack: Bytes, needle: Bytes) {
    exists i :: 0 <= i <= |haystack| - |needle| && OccursAt(haystack, needle, i)
  }

  /** `needle` occurs in `haystack` starting at byte `i`. */
  predicate OccursAt(haystack: Bytes, needle: Bytes, i: int) {
    0 <= i <= |haystack| - |needle| && haystack[i..i + |needle|] == needle
  }

  /** Some available name contains `name`. */
  predicate IsAvailable(available: seq<Bytes>, name: Bytes) {
    exists item :: item in available && Contains(item, name)
  }

  /** The filter of `missing_extensions`: the required names no available
      name contains, in the order they were required. */
  function Missing(available: seq<Bytes>, required: seq<Bytes>): (missing: seq<Bytes>)
    ensures |missing| <= |required|
    ensures forall name :: name in missing <==> name in required && !IsAvailable(available, name)
  {
    if |required| == 0 then []
    else
      var rest := Missing(available, required[1..]);
      if IsAvailable(available, required[0]) then rest else [required[0]] + rest
  }

  /** The filter keeps the required order: splitting the required list
      splits the result the same way. */
  lemma {:induction false} MissingKeepsOrder(available: seq<Bytes>, a: seq<Bytes>, b: seq<Bytes>)
    ensures Missing(available, a + b) == Missing(available, a) + Missing(available, b)
    decreases |a|
  {
    if |a| > 0 {
      assert (a + b)[0] == a[0];
      assert (a + b)[1..] == a[1..] + b;
      MissingKeepsOrder(available, a[1..], b);
      if !IsAvailable(available, a[0]) {
        calc {
          Missing(available, a + b);
          [a[0]] + Missing(available, a[1..] + b);
          [a[0]] + (Missing(available, a[1..]) + Missing(available, b));
          ([a[0]] + Missing(available, a[1..])) + Missing(available, b);
          Missing(available, a) + Missing(available, b);
        }
      }
    } else {
      assert a + b == b;
    }
  }

  /** Nothing is missing exactly when every required name is available. */
  lemma NothingMissingIffAllAvailable(available: seq<Bytes>, required: seq<Bytes>)
    ensures Missing(available, required) == [] <==>
      forall name :: name in required ==> IsAvailable(available, name)
  {
    if Missing(available, required) != [] {
      assert Missing(available, required)[0] in Missing(available, required);
    }
  }

  /** `missing_extensions`: a failed enumeration becomes
      `UnableToListAvailableExtensions`; otherwise the missing names. */
  function MissingExtensions(enumerated: Result<seq<seq<CChar>>, VkCode>, required: seq<Bytes>)
    : (r: Result<seq<Bytes>, VulkanError>)
    ensures enumerated.Err? <==> r.Err?
    ensures enumerated.Err? ==> r.error == UnableToListAvailableExtensions(enumerated.error)
    ensures r.Ok? ==> forall name :: name in r.value <==>
      name in required && !IsAvailable(AvailableNames(enumerated.value), name)
    ensures r.Ok? ==> r.value == Missing(AvailableNames(enumerated.value), required)
  {
    if enumerated.Err? then Err(UnableToListAvailableExtensions(enumerated.error))
    else Ok(Missing(AvailableNames(enumerated.value), required))
  }

  /** `check_extensions`: passes iff the enumeration worked and nothing is
      missing; otherwise the missing names, which are never empty, or the
      enumeration error. */
  function CheckExtensions(enumerated: Result<seq<seq<CChar>>, VkCode>, required: seq<Bytes>)
    : (r: Outcome<VulkanError>)
    ensures r.Pass? <==> (enumerated.Ok? &&
      forall name :: name in required ==> IsAvailable(AvailableNames(enumerated.value), name))
    ensures r.Fail? && r.error.RequiredExtensionsNotFound? ==>
      enumerated.Ok? && r.error.names == Missing(AvailableNames(enumerated.value), required) &&
      |r.error.names| > 0
    ensures enumerated.Err? ==> r == Fail(UnableToListAvailableExtensions(enumerated.error))
    ensures enumerated.Ok? && r.Fail? ==>
      r.error == RequiredExtensionsNotFound(Missing(AvailableNames(enumerated.value), required))
  {
    var missing := MissingExtensions(enumerated, required);
    if missing.Err? then Fail(missing.error)
    else
      NothingMissingIffAllAvailable(AvailableNames(enumerated.value), required);
      if |missing.value| != 0 then Fail(RequiredExtensionsNotFound(missing.value)) else Pass
  }

  /** A property array holding an ASCII name padded with NULs always passes
      the UTF-8 filter. */
  lemma AsciiNameIsAvailable(properties: seq<seq<CChar>>, p: seq<CChar>)
    requires p in properties
    requires forall k :: 0 <= k < |p| ==> 0 <= p[k]
    ensures NameBytes(p) in AvailableNames(properties)
  {
    AsciiIsValidUtf8(NameBytes(p));
  }

  /** Because the match is by substring, a required name counts as
      available when only a longer name that starts with it is: with only
      `VK_KHR_surface_protected_capabilities` available,
      `VK_KHR_surface` is not reported missing. */
  lemma SubstringMatchAcceptsLongerName(longer: Bytes, name: Bytes)
    requires |name| <= |longer| && longer[..|name|] == name
    ensures Missing([longer], [name]) == []
  {
    assert OccursAt(longer, name, 0);
    assert IsAvailable([longer], name) by { assert longer in [longer]; }
  }
}

=== FILE: frame_rate_limit.dfy ===
/** `FrameRateLimit` (src/timing/frame_rate_limit.rs, fields declared in
    src/timing/mod.rs): a bounded deque of recent frame start times,
    newest at the front, and the target frame duration. Instants and
    durations are nanoseconds; the clock is the `now` parameter. */
module FrameRateLimit {
  import opened Vk

  const NANOS_PER_SEC: nat := 1_000_000_000

  /** `Instant - Instant`: saturates at zero, as current Rust does. */
  function Elapsed(later: nat, earlier: nat): (d: nat)
    ensures later >= earlier ==> d + earlier == later
    ensures later < earlier ==> d == 0
  {
    if later >= earlier then later - earlier else 0
  }

  class FrameRateLimit {
    const framesToTrack: nat
    const targetDuration: nat
    var frameStarts: seq<nat>

    /** At most one more start than the frames tracked is ever kept. */
    predicate Valid()
      reads this
    {
      |frameStarts| <= framesToTrack + 1
    }

    /** Starts are newest first, so the sequence never increases. */
    predicate Ordered()
      reads this
    {
      forall i, j :: 0 <= i < j < |frameStarts| ==> frameStarts[i] >= frameStarts[j]
    }

    /** `new`: no starts yet; the target is one second divided by the
        frame rate, rounded down to whole nanoseconds (a zero rate panics). */
    constructor(targetFps: U32, framesToTrack: nat)
      requires targetFps > 0
      ensures Valid() && Ordered()
      ensures this.framesToTrack == framesToTrack && frameStarts == []
      ensures targetDuration * targetFps <= NANOS_PER_SEC < (targetDuration + 1) * targetFps
    {
      this.framesToTrack := framesToTrack;
      frameStarts := [];
      targetDuration := NANOS_PER_SEC / targetFps;
      DivisionBounds(NANOS_PER_SEC, targetFps);
    }

    /** `start_frame`: drop the oldest start only when more than
        `framesToTrack` are held, then put `now` at the front. Fed with a
        clock that does not go backwards, the starts stay ordered. */
    method StartFrame(now: nat)
      modifies this
      requires Valid()
      ensures Valid() && |frameStarts| > 0 && frameStarts[0] == now
      ensures |old(frameStarts)| > framesToTrack ==> frameStarts == [now] + old(frameStarts)[..|old(frameStarts)| - 1]
      ensures |old(frameStarts)| <= framesToTrack ==> frameStarts == [now] + old(frameStarts)
      ensures old(Ordered()) && (|old(frameStarts)| == 0 || now >= old(frameStarts)[0]) ==> Ordered()
    {
      if |frameStarts| > framesToTrack {
        frameStarts := frameStarts[..|frameStarts| - 1];
      }
      frameStarts := [now] + frameStarts;
    }

    /** `avg_frame_time`: the time since the oldest start, divided by the
        number of starts held (the count cast to `u32`; an empty deque or
        a zero divisor panics), rounded down. */
    function AvgFrameTime(now: nat): (average: nat)
      reads this
      requires |frameStarts| > 0 && TruncateU32(|frameStarts|) != 0
      ensures var total := Elapsed(now, frameStarts[|frameStarts| - 1]);
        var n := TruncateU32(|frameStarts|);
        average * n <= total < (average + 1) * n
      ensures |frameStarts| <= U32_MAX ==>
        average * |frameStarts| <= Elapsed(now, frameStarts[|frameStarts| - 1])
    {
      var total := Elapsed(now, frameStarts[|frameStarts| - 1]);
      DivisionBounds(total, TruncateU32(|frameStarts|));
      total / TruncateU32(|frameStarts|)
    }
  }

  /** The average never exceeds the span it averages over. */
  lemma AverageAtMostSpan(limit: FrameRateLimit, now: nat)
    requires |limit.frameStarts| > 0 && TruncateU32(|limit.frameStarts|) != 0
    ensures limit.AvgFrameTime(now) <= Elapsed(now, limit.frameStarts[|limit.frameStarts| - 1])
  {
    var n := TruncateU32(|limit.frameStarts|);
    var average := limit.AvgFrameTime(now);
    AtMostMultiple(average, n);
  }

  lemma {:induction false} AtMostMultiple(a: nat, n: nat)
    requires n >= 1
    ensures a <= a * n
  {
    if n > 1 {
      AtMostMultiple(a, n - 1);
      assert a * n == a * (n - 1) + a;
    }
  }
}

=== FILE: frames_in_flight.dfy ===
/** `FramesInFlight` (src/graphics/vulkan_api/frames_in_flight/mod.rs): a
    ring of per-frame synchronization slots with a round-robin cursor, a
    take/return discipline on the slots, and a flag that asks for the
    swapchain to be rebuilt. Driver calls are parameters holding their
    results; the swapchain and a slot's fences, semaphores and command
    pool are opaque handles. */
module FramesInFlight {
  import opened Wrappers
  import opened Vk
  import opened AcquirePresent

  /** `FrameSync`: the slot index it was created for and its resources. */
  datatype FrameSync = FrameSync(index: nat, resources: Handle)

  /** `Frame`: a slot's sync objects lent out with the target image. */
  datatype Frame = Frame(sync: FrameSync, swapchainImageIndex: nat)
  {
    /** `frame_index`. */
    function FrameIndex(): nat { sync.index }
  }

  datatype FrameStatus = FrameAcquired(frame: Frame) | SwapchainNeedsRebuild

  class FramesInFlight {
    var swapchainNeedsRebuild: bool
    var currentFrame: nat
    var frames: seq<Option<FrameSync>>
    var swapchain: Option<Handle>

    /** The cursor names a slot, and a slot only ever holds its own sync. */
    predicate Valid()
      reads this
    {
      (|frames| > 0 ==> currentFrame < |frames|) &&
      forall i :: 0 <= i < |frames| && frames[i].Some? ==> frames[i].value.index == i
    }

    /** Every slot holds its sync: no frame is out. */
    predicate AllSlotsFull()
      reads this`frames
    {
      forall i :: 0 <= i < |frames| ==> frames[i].Some?
    }

    /** `frame_count`. */
    function FrameCount(): nat
      reads this
    {
      |frames|
    }

    constructor Init(frames: seq<Option<FrameSync>>, swapchain: Handle)
      ensures this.frames == frames && this.swapchain == Some(swapchain)
      ensures !swapchainNeedsRebuild && currentFrame == 0
    {
      this.frames := frames;
      this.swapchain := Some(swapchain);
      swapchainNeedsRebuild := false;
      currentFrame := 0;
    }

    /** `new`: creates the sync for slots 0..frameCount in order, then a
        swapchain for the framebuffer size (each `i32` cast to `u32`, no
        previous swapchain). The first failure is returned. */
    static method New(framebufferSize: (I32, I32), frameCount: nat,
                      createSync: nat -> Result<Handle, GraphicsError>,
                      createSwapchain: (U32, U32, Option<Handle>) -> Result<Handle, GraphicsError>)
      returns (r: Result<FramesInFlight, GraphicsError>)
      ensures r.Ok? ==> fresh(r.value) && r.value.Valid() && r.value.AllSlotsFull()
      ensures r.Ok? ==> (r.value.FrameCount() == frameCount && r.value.currentFrame == 0 &&
        !r.value.swapchainNeedsRebuild)
      ensures r.Ok? ==> forall i :: 0 <= i < frameCount ==>
        createSync(i).Ok? && r.value.frames[i] == Some(FrameSync(i, createSync(i).value))
      ensures r.Ok? ==> r.value.swapchain.Some?
      ensures r.Ok? ==>
        createSwapchain(I32AsU32(framebufferSize.0), I32AsU32(framebufferSize.1), None) == Ok(r.value.swapchain.value)
      ensures r.Err? <==>
        (exists i :: 0 <= i < frameCount && createSync(i).Err?) ||
        createSwapchain(I32AsU32(framebufferSize.0), I32AsU32(framebufferSize.1), None).Err?
      ensures r.Err? ==>
        (exists i :: 0 <= i < frameCount && createSync(i).Err? && r.error == createSync(i).error &&
          forall k :: 0 <= k < i ==> createSync(k).Ok?) ||
        ((forall i :: 0 <= i < frameCount ==> createSync(i).Ok?) &&
          r == Err(createSwapchain(I32AsU32(framebufferSize.0), I32AsU32(framebufferSize.1), None).error))
    {
      var frames: seq<Option<FrameSync>> := [];
      for i := 0 to frameCount
        invariant |frames| == i
        invariant forall k :: 0 <= k < i ==> createSync(k).Ok? && frames[k] == Some(FrameSync(k, createSync(k).value))
      {
        var sync := createSync(i);
        if sync.Err? {
          return Err(sync.error);
        }
        frames := frames + [Some(FrameSync(i, sync.value))];
      }
      var swapchain := createSwapchain(I32AsU32(framebufferSize.0), I32AsU32(framebufferSize.1), None);
      if swapchain.Err? {
        return Err(swapchain.error);
      }
      var f := new FramesInFlight.Init(frames, swapchain.value);
      return Ok(f);
    }

    /** Waiting stops at slot `i`: it is empty or its wait fails. */
    predicate WaitStopsAt(wait: nat -> Outcome<GraphicsError>, i: nat)
      reads this`frames
      requires i < |frames|
    {
      frames[i].None? || wait(i).Fail?
    }

    /** The error waiting reports when it stops at slot `i`. */
    function WaitError(wait: nat -> Outcome<GraphicsError>, i: nat): GraphicsError
      reads this`frames
      requires i < |frames| && WaitStopsAt(wait, i)
    {
      if frames[i].None? then RuntimeError(FrameSyncUnavailable(i)) else wait(i).error
    }

    /** What waiting on the slots from `from` onwards yields: the error of
        the first slot where it stops, or success. */
    function WaitOutcome(wait: nat -> Outcome<GraphicsError>, from: nat): (r: Outcome<GraphicsError>)
      reads this`frames
      ensures r.Pass? <==> forall i :: from <= i < |frames| ==> !WaitStopsAt(wait, i)
      ensures r.Fail? ==> exists i :: (from <= i < |frames| && WaitStopsAt(wait, i) &&
        r.error == WaitError(wait, i) && forall k :: from <= k < i ==> !WaitStopsAt(wait, k))
      decreases |frames| - from
    {
      if from >= |frames| then Pass
      else if WaitStopsAt(wait, from) then Fail(WaitError(wait, from))
      else WaitOutcome(wait, from + 1)
    }

    /** `wait_for_all_frames_to_complete`: visits the slots in order; an
        empty slot is an error naming it, and a failed wait is passed on.
        Nothing changes. */
    method WaitForAllFramesToComplete(wait: nat -> Outcome<GraphicsError>) returns (r: Outcome<GraphicsError>)
      ensures r == WaitOutcome(wait, 0)
    {
      for i := 0 to |frames|
        invariant WaitOutcome(wait, i) == WaitOutcome(wait, 0)
      {
        if frames[i].None? {
          return Fail(RuntimeError(FrameSyncUnavailable(i)));
        }
        var waited := wait(i);
        if waited.Fail? {
          return waited;
        }
      }
      return Pass;
    }

    /** `stall_and_rebuild_swapchain`: waits for every frame, then replaces
        the swapchain, handing the old one to its successor, and clears the
        flag. A failed wait changes nothing; a failed creation leaves no
        swapchain and the flag as it was. */
    method StallAndRebuildSwapchain(framebufferSize: (I32, I32), wait: nat -> Outcome<GraphicsError>,
                                    createSwapchain: (U32, U32, Option<Handle>) -> Result<Handle, GraphicsError>)
      returns (r: Outcome<GraphicsError>)
      modifies this
      ensures frames == old(frames) && currentFrame == old(currentFrame)
      ensures WaitOutcome(wait, 0).Fail? ==>
        r == WaitOutcome(wait, 0) && swapchain == old(swapchain) && swapchainNeedsRebuild == old(swapchainNeedsRebuild)
      ensures WaitOutcome(wait, 0).Pass? ==>
        match createSwapchain(I32AsU32(framebufferSize.0), I32AsU32(framebufferSize.1), old(swapchain))
        case Ok(created) => r.Pass? && swapchain == Some(created) && !swapchainNeedsRebuild
        case Err(e) => r == Fail(e) && swapchain.None? && swapchainNeedsRebuild == old(swapchainNeedsRebuild)
    {
      var waited := WaitForAllFramesToComplete(wait);
      if waited.Fail? {
        return waited;
      }
      var oldSwapchain := swapchain;
      swapchain := None;
      var created := createSwapchain(I32AsU32(framebufferSize.0), I32AsU32(framebufferSize.1), oldSwapchain);
      if created.Err? {
        return Fail(created.error);
      }
      swapchain := Some(created.value);
      swapchainNeedsRebuild := false;
      return Pass;
    }

    /** `invalidate_swapchain`: the next acquire asks for a rebuild. */
    method InvalidateSwapchain()
      modifies this
      ensures swapchainNeedsRebuild
      ensures frames == old(frames) && currentFrame == old(currentFrame) && swapchain == old(swapchain)
    {
      swapchainNeedsRebuild := true;
    }

    /** `acquire_frame` as written: with the flag set, asks for a rebuild
        and changes nothing. Otherwise advances the cursor, takes that
        slot's sync (an empty slot is an error), and acquires an image.
        When the driver says the swapchain is out of date the flag is set
        and the taken sync is dropped, so the slot stays empty. */
    method AcquireFrameAsWritten(acquired: AcquireResult, restarted: Outcome<GraphicsError>)
      returns (r: Result<FrameStatus, GraphicsError>)
      modifies this
      requires Valid() && (!swapchainNeedsRebuild ==> |frames| > 0 && swapchain.Some?)
      ensures Valid() && swapchain == old(swapchain) && |frames| == |old(frames)|
      ensures old(swapchainNeedsRebuild) ==> r == Ok(SwapchainNeedsRebuild) && unchanged(this)
      ensures !old(swapchainNeedsRebuild) ==>
        currentFrame == (old(currentFrame) + 1) % |frames| &&
        frames == old(frames)[currentFrame := None]
      ensures !old(swapchainNeedsRebuild) && old(frames)[currentFrame].None? ==>
        r == Err(RuntimeError(FrameSyncUnavailable(currentFrame))) && !swapchainNeedsRebuild
      ensures !old(swapchainNeedsRebuild) && old(frames)[currentFrame].Some? ==>
        match AcquireSwapchainImage(acquired)
        case Err(e) => r == Err(e) && !swapchainNeedsRebuild
        case Ok(NeedsRebuild) => r == Ok(SwapchainNeedsRebuild) && swapchainNeedsRebuild
        case Ok(Index(index)) =>
          !swapchainNeedsRebuild &&
          (restarted.Fail? ==> r == Err(restarted.error)) &&
          (restarted.Pass? ==> r == Ok(FrameAcquired(Frame(old(frames)[currentFrame].value, index))))
      ensures r.Ok? && r.value.FrameAcquired? ==> r.value.frame.FrameIndex() == currentFrame
    {
      if swapchainNeedsRebuild {
        return Ok(SwapchainNeedsRebuild);
      }
      currentFrame := (currentFrame + 1) % |frames|;
      var slot := frames[currentFrame];
      frames := frames[currentFrame := None];
      if slot.None? {
        return Err(RuntimeError(FrameSyncUnavailable(currentFrame)));
      }
      var frameSync := slot.value;
      var status := AcquireSwapchainImage(acquired);
      if status.Err? {
        return Err(status.error);
      }
      if status.value.NeedsRebuild? {
        swapchainNeedsRebuild := true;
        return Ok(SwapchainNeedsRebuild);
      }
      if restarted.Fail? {
        return Err(restarted.error);
      }
      return Ok(FrameAcquired(Frame(frameSync, status.value.index)));
    }

    /** `acquire_frame`, returning the sync to its slot when the driver
        asks for a rebuild: the flag is set as before, but no slot is left
        empty, so the rebuild that follows can wait on every frame. An
        acquired frame holds the sync of the slot the cursor now names. */
    method AcquireFrame(acquired: AcquireResult, restarted: Outcome<GraphicsError>)
      returns (r: Result<FrameStatus, GraphicsError>)
      modifies this
      requires Valid() && (!swapchainNeedsRebuild ==> |frames| > 0 && swapchain.Some?)
      ensures Valid() && swapchain == old(swapchain) && |frames| == |old(frames)|
      ensures old(swapchainNeedsRebuild) ==> r == Ok(SwapchainNeedsRebuild) && unchanged(this)
      ensures !old(swapchainNeedsRebuild) ==> currentFrame == (old(currentFrame) + 1) % |frames|
      ensures !old(swapchainNeedsRebuild) && old(frames)[currentFrame].None? ==>
        r == Err(RuntimeError(FrameSyncUnavailable(currentFrame))) && frames == old(frames) &&
        !swapchainNeedsRebuild
      ensures !old(swapchainNeedsRebuild) && old(frames)[currentFrame].Some? ==>
        match AcquireSwapchainImage(acquired)
        case Err(e) => r == Err(e) && frames == old(frames)[currentFrame := None] && !swapchainNeedsRebuild
        case Ok(NeedsRebuild) =>
          r == Ok(SwapchainNeedsRebuild) && swapchainNeedsRebuild && frames == old(frames)
        case Ok(Index(index)) =>
          frames == old(frames)[currentFrame := None] && !swapchainNeedsRebuild &&
          (restarted.Fail? ==> r == Err(restarted.error)) &&
          (restarted.Pass? ==> r == Ok(FrameAcquired(Frame(old(frames)[currentFrame].value, index))))
      ensures r.Ok? && r.value.FrameAcquired? ==>
        r.value.frame.FrameIndex() == currentFrame && frames[currentFrame].None?
    {
      if swapchainNeedsRebuild {
        return Ok(SwapchainNeedsRebuild);
      }
      currentFrame := (currentFrame + 1) % |frames|;
      var slot := frames[currentFrame];
      if slot.None? {
        return Err(RuntimeError(FrameSyncUnavailable(currentFrame)));
      }
      var frameSync := slot.value;
      frames := frames[currentFrame := None];
      var status := AcquireSwapchainImage(acquired);
      if status.Err? {
        return Err(status.error);
      }
      if status.value.NeedsRebuild? {
        frames := frames[currentFrame := Some(frameSync)];
        swapchainNeedsRebuild := true;
        return Ok(SwapchainNeedsRebuild);
      }
      if restarted.Fail? {
        return Err(restarted.error);
      }
      return Ok(FrameAcquired(Frame(frameSync, status.value.index)));
    }

    /** `present_frame`: the frame's sync goes back to its own slot first;
        then its commands are ended and submitted and its image presented,
        the first failure being returned. A present that reports an out of
        date swapchain sets the flag. The frame must belong to the slot the
        cursor names (a debug assertion). */
    method PresentFrame(frame: Frame, submitted: Outcome<GraphicsError>, presented: PresentResult)
      returns (r: Outcome<GraphicsError>)
      modifies this
      requires Valid() && frame.FrameIndex() == currentFrame && currentFrame < |frames|
      requires submitted.Pass? ==> swapchain.Some?
      ensures Valid() && frames == old(frames)[frame.FrameIndex() := Some(frame.sync)]
      ensures currentFrame == old(currentFrame) && swapchain == old(swapchain)
      ensures submitted.Fail? ==> r == submitted && swapchainNeedsRebuild == old(swapchainNeedsRebuild)
      ensures submitted.Pass? ==>
        match PresentSwapchainImage(frame.swapchainImageIndex, presented)
        case Err(e) => r == Fail(e) && swapchainNeedsRebuild == old(swapchainNeedsRebuild)
        case Ok(status) => r.Pass? && swapchainNeedsRebuild == (old(swapchainNeedsRebuild) || status.NeedsRebuild?)
    {
      var frameIndex := frame.FrameIndex();
      frames := frames[frameIndex := Some(frame.sync)];
      if submitted.Fail? {
        return submitted;
      }
      var status := PresentSwapchainImage(frame.swapchainImageIndex, presented);
      if status.Err? {
        return Fail(status.error);
      }
      if status.value == NeedsRebuild {
        swapchainNeedsRebuild := true;
      }
      return Pass;
    }
  }

  /** As written, an out-of-date acquire from a ring with every slot full
      leaves the taken slot empty, so the rebuild the application performs
      next fails: `stall_and_rebuild_swapchain` stops at that slot. */
  method RebuildAfterOutOfDateAcquireAsWritten(
    f: FramesInFlight, acquired: AcquireResult, restarted: Outcome<GraphicsError>,
    framebufferSize: (I32, I32), wait: nat -> Outcome<GraphicsError>,
    createSwapchain: (U32, U32, Option<Handle>) -> Result<Handle, GraphicsError>)
    returns (status: Result<FrameStatus, GraphicsError>, rebuilt: Outcome<GraphicsError>)
    modifies f
    requires f.Valid() && |f.frames| > 0 && f.swapchain.Some? && f.AllSlotsFull()
    requires !f.swapchainNeedsRebuild && AcquireInvalidates(acquired)
    requires forall i :: 0 <= i < |f.frames| ==> wait(i).Pass?
    ensures status == Ok(SwapchainNeedsRebuild)
    ensures rebuilt.Fail? && rebuilt.error == RuntimeError(FrameSyncUnavailable(f.currentFrame))
  {
    status := f.AcquireFrameAsWritten(acquired, restarted);
    assert f.WaitStopsAt(wait, f.currentFrame);
    assert forall i :: 0 <= i < |f.frames| && f.WaitStopsAt(wait, i) ==> i == f.currentFrame;
    rebuilt := f.StallAndRebuildSwapchain(framebufferSize, wait, createSwapchain);
  }

  /** With the sync returned to its slot, the same sequence rebuilds the
      swapchain whenever every wait and the creation succeed. */
  method RebuildAfterOutOfDateAcquire(
    f: FramesInFlight, acquired: AcquireResult, restarted: Outcome<GraphicsError>,
    framebufferSize: (I32, I32), wait: nat -> Outcome<GraphicsError>,
    createSwapchain: (U32, U32, Option<Handle>) -> Result<Handle, GraphicsError>)
    returns (status: Result<FrameStatus, GraphicsError>, rebuilt: Outcome<GraphicsError>)
    modifies f
    requires f.Valid() && |f.frames| > 0 && f.swapchain.Some? && f.AllSlotsFull()
    requires !f.swapchainNeedsRebuild && AcquireInvalidates(acquired)
    requires forall i :: 0 <= i < |f.frames| ==> wait(i).Pass?
    requires forall w, h, previous :: createSwapchain(w, h, previous).Ok?
    ensures status == Ok(SwapchainNeedsRebuild)
    ensures rebuilt.Pass? && !f.swapchainNeedsRebuild && f.AllSlotsFull()
  {
    status := f.AcquireFrame(acquired, restarted);
    rebuilt := f.StallAndRebuildSwapchain(framebufferSize, wait, createSwapchain);
  }

  /** A rebuild whose swapchain creation fails leaves no swapchain and the
      flag still set; the next acquire then asks for a rebuild again
      without touching the missing swapchain or the slots. */
  method AcquireAfterFailedRebuild(
    f: FramesInFlight, acquired: AcquireResult, restarted: Outcome<GraphicsError>,
    framebufferSize: (I32, I32), wait: nat -> Outcome<GraphicsError>,
    createSwapchain: (U32, U32, Option<Handle>) -> Result<Handle, GraphicsError>)
    returns (rebuilt: Outcome<GraphicsError>, status: Result<FrameStatus, GraphicsError>)
    modifies f
    requires f.Valid() && f.swapchainNeedsRebuild
    requires forall i :: 0 <= i < |f.frames| ==> f.frames[i].Some? && wait(i).Pass?
    requires forall w, h, previous :: createSwapchain(w, h, previous).Err?
    ensures rebuilt.Fail? && f.swapchain.None? && f.swapchainNeedsRebuild
    ensures status == Ok(SwapchainNeedsRebuild)
  {
    rebuilt := f.StallAndRebuildSwapchain(framebufferSize, wait, createSwapchain);
    status := f.AcquireFrame(acquired, restarted);
  }
}

=== FILE: gpu_vec.dfy ===
/** The growable GPU vector (src/vulkan/buffer/gpu_vec.rs). The mapped
    memory of the device buffer is an array of `capacity` elements; creating
    and mapping a new device buffer is a driver call whose outcome is a
    parameter. */
module GpuVec {
  import opened Wrappers
  import opened Vk

  /** The capacity `push_back` grows to as written: twice the length. */
  function GrowthAsWritten(length: nat): nat {
    2 * length
  }

  /** The capacity a `push_back` as written writes into: a full vector
      first grows to `GrowthAsWritten(length)`. */
  function CapacityBeforeWriteAsWritten(length: nat, capacity: nat): nat {
    if length == capacity then GrowthAsWritten(length) else capacity
  }

  /** As written, the write at index `length` stays inside the (possibly
      grown) buffer exactly when the vector is not an empty vector of
      capacity 0; for that one state the grown capacity is 0 and the write
      is out of bounds. */
  lemma PushBackAsWrittenWriteInBounds(length: nat, capacity: nat)
    requires length <= capacity
    ensures length < CapacityBeforeWriteAsWritten(length, capacity) <==> capacity > 0
    ensures CapacityBeforeWriteAsWritten(0, 0) == 0
  {
  }

  /** The evidently intended growth: double the length, but at least one
      element. */
  function Growth(length: nat): (c: nat)
    ensures length < c
    ensures length > 0 ==> c == GrowthAsWritten(length)
  {
    if length == 0 then 1 else 2 * length
  }

  class GpuVec<T(0)> {
    /** The mapped memory of the current device buffer. */
    var buffer: array<T>
    /** Number of elements the buffer can hold. */
    var capacity: nat
    /** Number of elements in use. */
    var length: nat
    /** `size_of::<T>()`. */
    const elementSize: nat

    /** Capacity is the buffer size, it fits a `u32`, and the length never
        exceeds it. */
    predicate Valid()
      reads this
    {
      buffer.Length == capacity && capacity <= U32_MAX && length <= capacity
    }

    /** The elements in use, in order. */
    function Contents(): seq<T>
      reads this, buffer
      requires Valid()
    {
      buffer[..length]
    }

    /** `new`: an empty vector over a fresh buffer of `initialCapacity`
        elements, or the driver's error. */
    static method New(elementSize: nat, initialCapacity: U32, allocation: Outcome<VkCode>)
      returns (r: Result<GpuVec<T>, VkCode>)
      ensures allocation.Fail? ==> r == Err(allocation.error)
      ensures allocation.Pass? ==> r.Ok? && fresh(r.value) && fresh(r.value.buffer) && r.value.Valid()
      ensures r.Ok? ==> r.value.Contents() == [] && r.value.capacity == initialCapacity
      ensures r.Ok? ==> r.value.elementSize == elementSize
    {
      if allocation.Fail? {
        return Err(allocation.error);
      }
      var v := new GpuVec<T>.Init(elementSize, initialCapacity);
      return Ok(v);
    }

    constructor Init(elementSize: nat, initialCapacity: U32)
      ensures Valid() && fresh(buffer)
      ensures this.elementSize == elementSize && capacity == initialCapacity && length == 0
    {
      this.elementSize := elementSize;
      buffer := new T[initialCapacity];
      capacity := initialCapacity;
      length := 0;
    }

    /** `grow`: a new buffer of `desiredCapacity` elements that starts with
        the whole old buffer; nothing changes when the new buffer cannot be
        made. Copying the old buffer into a smaller one would panic. */
    method Grow(desiredCapacity: U32, allocation: Outcome<VkCode>) returns (r: Outcome<VkCode>)
      requires Valid()
      requires capacity <= desiredCapacity
      modifies this
      ensures Valid() && r == allocation && length == old(length)
      ensures r.Fail? ==> buffer == old(buffer) && capacity == old(capacity)
      ensures r.Pass? ==> fresh(buffer) && capacity == desiredCapacity
      ensures r.Pass? ==> buffer[..old(capacity)] == old(buffer[..])
      ensures Contents() == old(Contents())
    {
      if allocation.Fail? {
        return allocation;
      }
      var newBuffer := new T[desiredCapacity];
      capacity := desiredCapacity;
      forall i | 0 <= i < buffer.Length {
        newBuffer[i] := buffer[i];
      }
      buffer := newBuffer;
      return Pass;
    }

    /** `push_back`: a full vector first grows; then the value is written
        after the last element. The result says whether the buffer was
        replaced. */
    method PushBack(value: T, allocation: Outcome<VkCode>) returns (r: Result<bool, VkCode>)
      requires Valid()
      requires length + 1 <= U32_MAX
      requires length == capacity ==> Growth(length) <= U32_MAX
      modifies this, buffer
      ensures Valid() && (buffer == old(buffer) || fresh(buffer))
      ensures r.Ok? <==> old(length) < old(capacity) || allocation.Pass?
      ensures old(length) < old(capacity) ==> r == Ok(false)
      ensures r.Ok? ==> Contents() == old(Contents()) + [value]
      ensures r == Ok(true) ==> capacity == Growth(old(length)) && fresh(buffer)
      ensures r == Ok(false) ==> old(length) < old(capacity) && capacity == old(capacity) && buffer == old(buffer)
      ensures r.Err? ==> r.error == allocation.error && Contents() == old(Contents()) && buffer == old(buffer)
    {
      var replaced := false;
      if length == capacity {
        var grown := Grow(Growth(length), allocation);
        if grown.Fail? {
          return Err(grown.error);
        }
        replaced := true;
      }
      buffer[length] := value;
      length := length + 1;
      return Ok(replaced);
    }

    /** `clear`: the length drops to zero; the buffer is kept. */
    method Clear()
      requires Valid()
      modifies this
      ensures Valid() && Contents() == []
      ensures buffer == old(buffer) && capacity == old(capacity)
    {
      length := 0;
    }

    /** `len`: the number of elements in use. */
    function Len(): (n: nat)
      reads this, buffer
      requires Valid()
      ensures n == |Contents()| && n <= capacity
    {
      length
    }

    /** `len_bytes`: the bytes in use, `element_count_to_bytes(length)`. */
    function LenBytes(): (n: nat)
      reads this, buffer
      requires Valid()
      ensures n == |Contents()| * elementSize
    {
      length * elementSize
    }
  }
}

=== FILE: markdown.dfy ===
/** `MdList` (src/markdown.rs): a slice written to a formatter as a
    markdown bullet list, one entry per line after a leading newline. The
    `Display` and `Debug` impls differ only in how one entry is rendered
    (`{}` or `{:?}`), which is a parameter here. */
module Markdown {

  /** The formatter's output buffer; writes append to it. */
  class Formatter {
    var written: string

    constructor()
      ensures written == []
    {
      written := [];
    }

    /** `write_str` / `write_fmt`: append `s`. */
    method WriteStr(s: string)
      modifies this
      ensures written == old(written) + s
    {
      written := written + s;
    }
  }

  /** One entry's line: `- `, the rendered entry, a newline. */
  function Item(rendered: string): (line: string)
    ensures |line| == |rendered| + 3
    ensures line[..2] == "- " && line[|line| - 1] == '\n'
    ensures line[2..|line| - 1] == rendered
  {
    "- " + rendered + "\n"
  }

  /** The lines of `entries`, in order. */
  function Items<T>(entries: seq<T>, render: T -> string): (lines: string)
    ensures |entries| == 0 ==> lines == []
  {
    if |entries| == 0 then [] else Item(render(entries[0])) + Items(entries[1..], render)
  }

  /** The whole list: a newline, then one line per entry. */
  function MdList<T>(entries: seq<T>, render: T -> string): (text: string)
    ensures |text| > 0 && text[0] == '\n'
    ensures text[1..] == Items(entries, render)
  {
    "\n" + Items(entries, render)
  }

  /** The number of times `c` occurs in `s`. */
  function Count(s: string, c: char): (n: nat)
    ensures n <= |s|
  {
    if |s| == 0 then 0 else (if s[0] == c then 1 else 0) + Count(s[1..], c)
  }

  lemma {:induction false} CountAppend(a: string, b: string, c: char)
    ensures Count(a + b, c) == Count(a, c) + Count(b, c)
    decreases |a|
  {
    if |a| == 0 {
      assert a + b == b;
    } else {
      assert (a + b)[1..] == a[1..] + b;
      CountAppend(a[1..], b, c);
    }
  }

  /** The lines of a concatenation are the lines of each part, in order. */
  lemma {:induction false} ItemsAppend<T>(a: seq<T>, b: seq<T>, render: T -> string)
    ensures Items(a + b, render) == Items(a, render) + Items(b, render)
    decreases |a|
  {
    if |a| == 0 {
      assert a + b == b;
    } else {
      assert (a + b)[0] == a[0];
      assert (a + b)[1..] == a[1..] + b;
      ItemsAppend(a[1..], b, render);
    }
  }

  /** An empty slice renders as a single newline. */
  lemma EmptyListIsNewline<T>(render: T -> string)
    ensures MdList([], render) == "\n"
  {
  }

  /** When no rendered entry contains a newline, a list of n entries has
      exactly n + 1 newlines: each line ends in one and there is the
      leading one. */
  lemma {:induction false} NewlineCount<T>(entries: seq<T>, render: T -> string)
    requires forall e :: e in entries ==> Count(render(e), '\n') == 0
    ensures Count(Items(entries, render), '\n') == |entries|
    ensures Count(MdList(entries, render), '\n') == |entries| + 1
    decreases |entries|
  {
    CountAppend("\n", Items(entries, render), '\n');
    if |entries| > 0 {
      var e := entries[0];
      assert e in entries;
      forall x | x in entries[1..] ensures Count(render(x), '\n') == 0 {
        assert x in entries;
      }
      NewlineCount(entries[1..], render);
      CountAppend("- " + render(e), "\n", '\n');
      CountAppend("- ", render(e), '\n');
      CountAppend(Item(render(e)), Items(entries[1..], render), '\n');
    }
  }

  /** `fmt`: writes the leading newline, then each entry's line in order;
      the formatter ends up holding exactly `MdList` after what it held. */
  method Fmt<T>(entries: seq<T>, render: T -> string, f: Formatter)
    modifies f
    ensures f.written == old(f.written) + MdList(entries, render)
  {
    f.WriteStr("\n");
    for i := 0 to |entries|
      invariant f.written == old(f.written) + "\n" + Items(entries[..i], render)
    {
      ItemsAppend(entries[..i], [entries[i]], render);
      assert entries[..i + 1] == entries[..i] + [entries[i]];
      f.WriteStr("- " + render(entries[i]) + "\n");
    }
    assert entries[..|entries|] == entries;
  }
}

=== FILE: msaa.dfy ===
/** MSAA sample-count selection of the MSAA display
    (src/graphics/msaa_display/mod.rs). Sample-count masks are `bv32`
    bit sets; Rust's derived ordering on `SampleCountFlags` compares the
    raw numbers, which is the `bv32` order here. */
module Msaa {
  import opened Wrappers
  import opened Vk

  /** `Ord::min` on two flag values: a numeric comparison. */
  function MinFlags(a: Flags, b: Flags): (r: Flags)
    ensures r <= a && r <= b
    ensures r == a || r == b
  {
    if a <= b then a else b
  }

  /** The sample counts above one, highest first. */
  const MULTI_SAMPLE_COUNTS: seq<Flags> :=
    [SAMPLE_COUNT_64, SAMPLE_COUNT_32, SAMPLE_COUNT_16, SAMPLE_COUNT_8, SAMPLE_COUNT_4, SAMPLE_COUNT_2]

  /** Whether a mask holds at least one sample count above one. */
  predicate SupportsMultisampling(mask: Flags) {
    exists c :: c in MULTI_SAMPLE_COUNTS && Contains(mask, c)
  }

  /** The position of the first count of `counts` that `mask` contains. */
  function FirstContained(counts: seq<Flags>, mask: Flags): (r: Option<nat>)
    ensures r.Some? ==> r.value < |counts| && Contains(mask, counts[r.value])
    ensures r.Some? ==> forall j :: 0 <= j < r.value ==> !Contains(mask, counts[j])
    ensures r.None? ==> forall j :: 0 <= j < |counts| ==> !Contains(mask, counts[j])
  {
    if counts == [] then None
    else if Contains(mask, counts[0]) then Some(0)
    else match FirstContained(counts[1..], mask)
      case None => None
      case Some(k) => Some(k + 1)
  }

  /** `FirstContained` on the descending list tests the counts from 64
      samples down to two. */
  lemma FirstContainedUnrolled(mask: Flags)
    ensures FirstContained(MULTI_SAMPLE_COUNTS, mask) ==
      if Contains(mask, SAMPLE_COUNT_64) then Some(0)
      else if Contains(mask, SAMPLE_COUNT_32) then Some(1)
      else if Contains(mask, SAMPLE_COUNT_16) then Some(2)
      else if Contains(mask, SAMPLE_COUNT_8) then Some(3)
      else if Contains(mask, SAMPLE_COUNT_4) then Some(4)
      else if Contains(mask, SAMPLE_COUNT_2) then Some(5)
      else None
  {
    var k := FirstContained(MULTI_SAMPLE_COUNTS, mask);
    var counts := MULTI_SAMPLE_COUNTS;
    assert Contains(mask, SAMPLE_COUNT_64) == Contains(mask, counts[0]);
    assert Contains(mask, SAMPLE_COUNT_32) == Contains(mask, counts[1]);
    assert Contains(mask, SAMPLE_COUNT_16) == Contains(mask, counts[2]);
    assert Contains(mask, SAMPLE_COUNT_8) == Contains(mask, counts[3]);
    assert Contains(mask, SAMPLE_COUNT_4) == Contains(mask, counts[4]);
    assert Contains(mask, SAMPLE_COUNT_2) == Contains(mask, counts[5]);
  }

  /** In the descending list, the first contained count is the highest
      count above one that the mask contains. */
  lemma FirstContainedIsHighest(mask: Flags)
    ensures var k := FirstContained(MULTI_SAMPLE_COUNTS, mask);
      (k.Some? <==> SupportsMultisampling(mask)) &&
      forall c :: c in MULTI_SAMPLE_COUNTS && Contains(mask, c) ==>
        k.Some? && c <= MULTI_SAMPLE_COUNTS[k.value]
  {
    var k := FirstContained(MULTI_SAMPLE_COUNTS, mask);
    forall c | c in MULTI_SAMPLE_COUNTS && Contains(mask, c)
      ensures k.Some? && c <= MULTI_SAMPLE_COUNTS[k.value]
    {
      var i :| 0 <= i < |MULTI_SAMPLE_COUNTS| && MULTI_SAMPLE_COUNTS[i] == c;
      CountsDescending(i, k.value);
    }
    if k.Some? {
      var c := MULTI_SAMPLE_COUNTS[k.value];
      assert c in MULTI_SAMPLE_COUNTS && Contains(mask, c);
    }
  }

  /** The code as written: the "supported" mask is the numeric minimum of
      the depth and colour masks, and the result is the numeric minimum of
      `desired` and the highest count above one in that mask, or one sample
      when there is none. */
  function PickMaxSupportedMsaaCount(depthCounts: Flags, colorCounts: Flags, desired: Flags): (r: Flags)
    ensures var supported := MinFlags(depthCounts, colorCounts);
      SupportsMultisampling(supported) ==> r <= desired && (r == desired || Contains(supported, r))
    ensures !SupportsMultisampling(MinFlags(depthCounts, colorCounts)) ==> r == SAMPLE_COUNT_1
    ensures var k := FirstContained(MULTI_SAMPLE_COUNTS, MinFlags(depthCounts, colorCounts));
      k.Some? ==> r == MinFlags(desired, MULTI_SAMPLE_COUNTS[k.value])
    ensures r == desired || r in MULTI_SAMPLE_COUNTS || r == SAMPLE_COUNT_1
  {
    var supported := MinFlags(depthCounts, colorCounts);
    FirstContainedUnrolled(supported);
    if Contains(supported, SAMPLE_COUNT_64) then MinFlags(desired, SAMPLE_COUNT_64)
    else if Contains(supported, SAMPLE_COUNT_32) then MinFlags(desired, SAMPLE_COUNT_32)
    else if Contains(supported, SAMPLE_COUNT_16) then MinFlags(desired, SAMPLE_COUNT_16)
    else if Contains(supported, SAMPLE_COUNT_8) then MinFlags(desired, SAMPLE_COUNT_8)
    else if Contains(supported, SAMPLE_COUNT_4) then MinFlags(desired, SAMPLE_COUNT_4)
    else if Contains(supported, SAMPLE_COUNT_2) then MinFlags(desired, SAMPLE_COUNT_2)
    else SAMPLE_COUNT_1
  }

  /** The documented examples: a device supporting up to four samples
      gives four when eight are desired, and two when two are desired. */
  lemma PickDocumentedExamples()
    ensures PickMaxSupportedMsaaCount(0x7, 0x7, SAMPLE_COUNT_8) == SAMPLE_COUNT_4
    ensures PickMaxSupportedMsaaCount(0x7, 0x7, SAMPLE_COUNT_2) == SAMPLE_COUNT_2
  {
  }

  /** A desired count that the device supports is returned unchanged. */
  lemma PickKeepsSupportedDesired(depthCounts: Flags, colorCounts: Flags, desired: Flags)
    requires desired in MULTI_SAMPLE_COUNTS
    requires Contains(MinFlags(depthCounts, colorCounts), desired)
    ensures PickMaxSupportedMsaaCount(depthCounts, colorCounts, desired) == desired
  {
  }

  /** The numeric minimum of two masks is not their intersection: with
      depth counts {1, 2, 4, 8} and colour counts {1, 4, 16} (both holding
      1 and 4, as every device must), eight samples desired give eight,
      which the colour attachment does not support; the intended selection
      gives four. */
  lemma PickCanChooseUnsupportedColorCount()
    ensures var r := PickMaxSupportedMsaaCount(0xF, 0x15, SAMPLE_COUNT_8);
      r == SAMPLE_COUNT_8 && !Contains(0x15, r)
    ensures PickSampleCount(0xF, 0x15, SAMPLE_COUNT_8) == SAMPLE_COUNT_4
  {
    var counts := MULTI_SAMPLE_COUNTS;
    assert !Fits(counts[0], 0xF, 0x15, SAMPLE_COUNT_8);
    assert !Fits(counts[1], 0xF, 0x15, SAMPLE_COUNT_8);
    assert !Fits(counts[2], 0xF, 0x15, SAMPLE_COUNT_8);
    assert !Fits(counts[3], 0xF, 0x15, SAMPLE_COUNT_8);
    assert Fits(counts[4], 0xF, 0x15, SAMPLE_COUNT_8);
  }

  /** The multi-sample counts are listed from the highest down. */
  lemma CountsDescending(i: nat, j: nat)
    requires j <= i < |MULTI_SAMPLE_COUNTS|
    ensures MULTI_SAMPLE_COUNTS[i] <= MULTI_SAMPLE_COUNTS[j]
  {
  }

  /** Whether both framebuffers support count `c` and it does not exceed
      `desired`. */
  predicate Fits(c: Flags, depthCounts: Flags, colorCounts: Flags, desired: Flags) {
    Contains(depthCounts, c) && Contains(colorCounts, c) && c <= desired
  }

  /** The position of the first count of `counts` that fits. */
  function FirstFitting(counts: seq<Flags>, depthCounts: Flags, colorCounts: Flags, desired: Flags): (r: Option<nat>)
    ensures r.Some? ==> r.value < |counts| && Fits(counts[r.value], depthCounts, colorCounts, desired)
    ensures r.Some? ==> forall j :: 0 <= j < r.value ==> !Fits(counts[j], depthCounts, colorCounts, desired)
    ensures r.None? ==> forall j :: 0 <= j < |counts| ==> !Fits(counts[j], depthCounts, colorCounts, desired)
  {
    if counts == [] then None
    else if Fits(counts[0], depthCounts, colorCounts, desired) then Some(0)
    else match FirstFitting(counts[1..], depthCounts, colorCounts, desired)
      case None => None
      case Some(k) => Some(k + 1)
  }

  /** The count `FirstFitting` finds in the descending list is at least
      every fitting count, and when it finds none, no count fits. */
  lemma FirstFittingIsHighest(depthCounts: Flags, colorCounts: Flags, desired: Flags)
    ensures var k := FirstFitting(MULTI_SAMPLE_COUNTS, depthCounts, colorCounts, desired);
      forall c :: c in MULTI_SAMPLE_COUNTS && Fits(c, depthCounts, colorCounts, desired) ==>
        k.Some? && c <= MULTI_SAMPLE_COUNTS[k.value]
  {
    var k := FirstFitting(MULTI_SAMPLE_COUNTS, depthCounts, colorCounts, desired);
    forall c | c in MULTI_SAMPLE_COUNTS && Fits(c, depthCounts, colorCounts, desired)
      ensures k.Some? && c <= MULTI_SAMPLE_COUNTS[k.value]
    {
      var i :| 0 <= i < |MULTI_SAMPLE_COUNTS| && MULTI_SAMPLE_COUNTS[i] == c;
      assert Fits(MULTI_SAMPLE_COUNTS[i], depthCounts, colorCounts, desired);
      assert k.Some? && k.value <= i;
      CountsDescending(i, k.value);
    }
  }

  /** The evidently intended selection: the highest sample count that both
      the depth and the colour framebuffers support and that does not exceed
      `desired`, or one sample when there is none. */
  function PickSampleCount(depthCounts: Flags, colorCounts: Flags, desired: Flags): (r: Flags)
    ensures r == SAMPLE_COUNT_1 || (r in MULTI_SAMPLE_COUNTS && Fits(r, depthCounts, colorCounts, desired))
    ensures forall c :: c in MULTI_SAMPLE_COUNTS && Fits(c, depthCounts, colorCounts, desired) ==> c <= r
  {
    FirstFittingIsHighest(depthCounts, colorCounts, desired);
    match FirstFitting(MULTI_SAMPLE_COUNTS, depthCounts, colorCounts, desired)
    case None => SAMPLE_COUNT_1
    case Some(k) => MULTI_SAMPLE_COUNTS[k]
  }
}

=== FILE: queue_families.dfy ===
/** Queue-family selection and queue lookup
    (src/graphics/vulkan_api/render_device/queue_families.rs). The family
    properties are a list of queue-flag masks, and the per-family surface
    support query is a function from family index to its result. */
module QueueFamilies {
  import opened Wrappers
  import opened Vk

  /** The family indices the application uses. */
  datatype QueueFamilies = QueueFamilies(graphicsFamilyIndex: nat, presentFamilyIndex: nat)

  /** The part of `vk::DeviceQueueCreateInfo` that the code fills in. */
  datatype QueueCreateInfo = QueueCreateInfo(familyIndex: nat, queueCount: nat)

  /** A queue, named by its family and its index within the family. */
  datatype DeviceQueue = DeviceQueue(familyIndex: nat, queueIndex: nat)

  /** Graphics work needs both the graphics and the compute capability. */
  predicate IsGraphicsFamily(flags: Flags) {
    Contains(flags, QUEUE_GRAPHICS | QUEUE_COMPUTE)
  }

  /** The last family able to do graphics and compute work. */
  function LastGraphicsFamily(families: seq<Flags>): (r: Option<nat>)
    ensures r.Some? ==> r.value < |families| && IsGraphicsFamily(families[r.value])
    ensures r.Some? ==> forall j :: r.value < j < |families| ==> !IsGraphicsFamily(families[j])
    ensures r.None? ==> forall j :: 0 <= j < |families| ==> !IsGraphicsFamily(families[j])
  {
    if families == [] then None
    else if IsGraphicsFamily(families[|families| - 1]) then Some(|families| - 1)
    else LastGraphicsFamily(families[..|families| - 1])
  }

  /** The last family below `count` whose surface support query answered
      `true`; a failed query counts as no support. */
  function LastPresentFamily(count: nat, presentSupport: nat -> Result<bool, VkCode>): (r: Option<nat>)
    ensures r.Some? ==> r.value < count && presentSupport(r.value) == Ok(true)
    ensures r.Some? ==> forall j :: r.value < j < count ==> presentSupport(j) != Ok(true)
    ensures r.None? ==> forall j :: 0 <= j < count ==> presentSupport(j) != Ok(true)
  {
    if count == 0 then None
    else if presentSupport(count - 1) == Ok(true) then Some(count - 1)
    else LastPresentFamily(count - 1, presentSupport)
  }

  /** Walks the families once, remembering the latest graphics family and
      the latest family that can present; a missing graphics family is
      reported before a missing present family. */
  method FindForPhysicalDevice(families: seq<Flags>, presentSupport: nat -> Result<bool, VkCode>)
    returns (r: Result<QueueFamilies, VulkanError>)
    ensures LastGraphicsFamily(families).None? ==> r == Err(UnableToFindGraphicsQueue)
    ensures LastGraphicsFamily(families).Some? && LastPresentFamily(|families|, presentSupport).None? ==>
      r == Err(UnableToFindPresentQueue)
    ensures r.Ok? <==>
      LastGraphicsFamily(families).Some? && LastPresentFamily(|families|, presentSupport).Some?
    ensures r.Ok? ==>
      Some(r.value.graphicsFamilyIndex) == LastGraphicsFamily(families) &&
      Some(r.value.presentFamilyIndex) == LastPresentFamily(|families|, presentSupport)
  {
    var graphicsFamily: Option<nat> := None;
    var presentFamily: Option<nat> := None;
    for i := 0 to |families|
      invariant graphicsFamily == LastGraphicsFamily(families[..i])
      invariant presentFamily == LastPresentFamily(i, presentSupport)
    {
      if IsGraphicsFamily(families[i]) {
        graphicsFamily := Some(i);
      }
      assert families[..i + 1][..i] == families[..i];
      match presentSupport(i) {
        case Ok(true) => presentFamily := Some(i);
        case Err(_) =>
        case Ok(false) =>
      }
    }
    assert families[..|families|] == families;
    if graphicsFamily.None? {
      return Err(UnableToFindGraphicsQueue);
    }
    if presentFamily.None? {
      return Err(UnableToFindPresentQueue);
    }
    return Ok(QueueFamilies(graphicsFamily.value, presentFamily.value));
  }

  /** Two queues (graphics and compute) from the graphics family, plus one
      queue from the present family when it is a different family. */
  function AsQueueCreateInfos(q: QueueFamilies): (r: seq<QueueCreateInfo>)
    ensures |r| == if q.graphicsFamilyIndex == q.presentFamilyIndex then 1 else 2
    ensures r[0] == QueueCreateInfo(q.graphicsFamilyIndex, 2)
    ensures |r| == 2 ==> r[1] == QueueCreateInfo(q.presentFamilyIndex, 1)
    ensures forall i, j :: 0 <= i < j < |r| ==> r[i].familyIndex != r[j].familyIndex
  {
    var createInfos := [QueueCreateInfo(q.graphicsFamilyIndex, 2)];
    if q.graphicsFamilyIndex != q.presentFamilyIndex then
      createInfos + [QueueCreateInfo(q.presentFamilyIndex, 1)]
    else createInfos
  }

  /** Graphics is queue 0 and compute queue 1 of the graphics family; the
      present queue is the graphics queue when the families are the same,
      else queue 0 of the present family. The result is
      (graphics, present, compute). */
  function GetQueues(q: QueueFamilies): (r: (DeviceQueue, DeviceQueue, DeviceQueue))
    ensures r.0 == DeviceQueue(q.graphicsFamilyIndex, 0)
    ensures r.2 == DeviceQueue(q.graphicsFamilyIndex, 1)
    ensures r.1.familyIndex == q.presentFamilyIndex && r.1.queueIndex == 0
    ensures q.graphicsFamilyIndex == q.presentFamilyIndex <==> r.1 == r.0
  {
    var graphicsQueue := DeviceQueue(q.graphicsFamilyIndex, 0);
    var computeQueue := DeviceQueue(q.graphicsFamilyIndex, 1);
    var presentQueue :=
      if q.graphicsFamilyIndex == q.presentFamilyIndex then graphicsQueue
      else DeviceQueue(q.presentFamilyIndex, 0);
    (graphicsQueue, presentQueue, computeQueue)
  }

  /** Whether a create-info list asks the device for queue `queue`. */
  predicate Requested(infos: seq<QueueCreateInfo>, queue: DeviceQueue) {
    exists info :: info in infos && info.familyIndex == queue.familyIndex && queue.queueIndex < info.queueCount
  }

  /** Every queue `GetQueues` fetches was requested when the device was
      created from `AsQueueCreateInfos`. */
  lemma GetQueuesWereRequested(q: QueueFamilies)
    ensures var infos := AsQueueCreateInfos(q);
      var (graphics, present, compute) := GetQueues(q);
      Requested(infos, graphics) && Requested(infos, present) && Requested(infos, compute)
  {
    var infos := AsQueueCreateInfos(q);
    assert infos[0] in infos;
    if |infos| == 2 {
      assert infos[1] in infos;
    }
  }
}

=== FILE: render_device.dfy ===
/** Two decisions of the `vulkan_api` render device
    (src/graphics/vulkan_api/render_device/mod.rs): which queue families
    share the swapchain images, and which memory type an allocation uses. */
module RenderDevice {
  import opened Wrappers
  import opened Vk

  /** `VK_MAX_MEMORY_TYPES`: the length of the fixed memory-type array. */
  const MAX_MEMORY_TYPES: nat := 32

  /** The families that access swapchain images, each listed once, graphics
      first. */
  function SwapchainQueueFamilyIndices(graphicsFamilyIndex: U32, presentFamilyIndex: U32): (r: seq<U32>)
    ensures |r| == if graphicsFamilyIndex == presentFamilyIndex then 1 else 2
    ensures r[0] == graphicsFamilyIndex
    ensures graphicsFamilyIndex in r && presentFamilyIndex in r
    ensures forall x :: x in r ==> x == graphicsFamilyIndex || x == presentFamilyIndex
    ensures forall i, j :: 0 <= i < j < |r| ==> r[i] != r[j]
  {
    if graphicsFamilyIndex == presentFamilyIndex then [graphicsFamilyIndex]
    else [graphicsFamilyIndex, presentFamilyIndex]
  }

  /** The memory type `i` is allowed by the requirement's type bits and has
      every requested property flag. */
  predicate Suitable(memoryTypes: seq<Flags>, memoryTypeBits: Flags, propertyFlags: Flags, i: nat)
    requires i < |memoryTypes| == MAX_MEMORY_TYPES
  {
    memoryTypeBits & (1 << i) != 0 && Contains(memoryTypes[i], propertyFlags)
  }

  /** The first suitable memory type at or after `from`. */
  function FindMemoryTypeFrom(memoryTypes: seq<Flags>, memoryTypeBits: Flags, propertyFlags: Flags, from: nat): (r: Option<nat>)
    requires |memoryTypes| == MAX_MEMORY_TYPES && from <= MAX_MEMORY_TYPES
    ensures r.Some? ==> from <= r.value < MAX_MEMORY_TYPES && Suitable(memoryTypes, memoryTypeBits, propertyFlags, r.value)
    ensures r.Some? ==> forall j :: from <= j < r.value ==> !Suitable(memoryTypes, memoryTypeBits, propertyFlags, j)
    ensures r.None? ==> forall j :: from <= j < MAX_MEMORY_TYPES ==> !Suitable(memoryTypes, memoryTypeBits, propertyFlags, j)
    decreases MAX_MEMORY_TYPES - from
  {
    if from == MAX_MEMORY_TYPES then None
    else if Suitable(memoryTypes, memoryTypeBits, propertyFlags, from) then Some(from)
    else FindMemoryTypeFrom(memoryTypes, memoryTypeBits, propertyFlags, from + 1)
  }

  /** The memory-type search of `allocate_memory`: the lowest suitable
      index, or `MemoryTypeNotFound` when no type is suitable. */
  function FindMemoryType(memoryTypes: seq<Flags>, memoryTypeBits: Flags, propertyFlags: Flags): (r: Result<nat, VulkanError>)
    requires |memoryTypes| == MAX_MEMORY_TYPES
    ensures r.Ok? ==> r.value < MAX_MEMORY_TYPES && Suitable(memoryTypes, memoryTypeBits, propertyFlags, r.value)
    ensures r.Ok? ==> forall j :: 0 <= j < r.value ==> !Suitable(memoryTypes, memoryTypeBits, propertyFlags, j)
    ensures r.Err? <==> forall j :: 0 <= j < MAX_MEMORY_TYPES ==> !Suitable(memoryTypes, memoryTypeBits, propertyFlags, j)
    ensures r.Err? ==> r.error == MemoryTypeNotFound(propertyFlags, memoryTypeBits)
  {
    match FindMemoryTypeFrom(memoryTypes, memoryTypeBits, propertyFlags, 0)
    case Some(i) => Ok(i)
    case None => Err(MemoryTypeNotFound(propertyFlags, memoryTypeBits))
  }
}

=== FILE: render_device_selection.dfy ===
/** Swapchain parameter selection of the older `RenderDevice`
    (src/vulkan/render_device/swapchain/selection.rs). The surface
    capability, format and present-mode queries are inputs; a failed
    capability query is the `Err` of its result and is passed on. */
module RenderDeviceSelection {
  import opened Wrappers
  import opened Vk
  import SwapchainSelection

  /** One image more than the minimum, capped at the maximum when there is
      one. The `+ 1` on a `u32` panics on overflow in a debug build. */
  function ChooseImageCount<E>(caps: Result<SurfaceCapabilities, E>): (r: Result<U32, E>)
    requires caps.Ok? ==> caps.value.minImageCount < U32_MAX
    ensures caps.Err? ==> r == Err(caps.error)
    ensures caps.Ok? ==> r.Ok?
    ensures caps.Ok? && caps.value.maxImageCount > 0 ==> r.value <= caps.value.maxImageCount
    ensures caps.Ok? ==> r.value <= caps.value.minImageCount + 1
    ensures caps.Ok? && (caps.value.maxImageCount == 0 || caps.value.minImageCount < caps.value.maxImageCount) ==>
      r.value == caps.value.minImageCount + 1
    ensures caps.Ok? && 0 < caps.value.maxImageCount <= caps.value.minImageCount ==>
      r.value == caps.value.maxImageCount
  {
    match caps
    case Err(e) => Err(e)
    case Ok(c) =>
      var proposed := c.minImageCount + 1;
      if c.maxImageCount > 0 then Ok(if proposed < c.maxImageCount then proposed else c.maxImageCount)
      else Ok(proposed)
  }

  /** The preferred SRGB format when it is listed, else the first listed
      one; indexing an empty list panics. */
  function ChooseSurfaceFormat(formats: seq<SurfaceFormat>): (r: SurfaceFormat)
    requires |formats| > 0
    ensures r in formats
    ensures SwapchainSelection.PREFERRED_FORMAT in formats ==> r == SwapchainSelection.PREFERRED_FORMAT
    ensures SwapchainSelection.PREFERRED_FORMAT !in formats ==> r == formats[0]
  {
    if SwapchainSelection.PREFERRED_FORMAT in formats then SwapchainSelection.PREFERRED_FORMAT
    else formats[0]
  }

  /** MAILBOX when listed, otherwise IMMEDIATE. */
  function ChoosePresentMode(modes: seq<PresentMode>): (r: PresentMode)
    ensures r == PRESENT_MODE_MAILBOX_KHR <==> PRESENT_MODE_MAILBOX_KHR in modes
    ensures r != PRESENT_MODE_MAILBOX_KHR ==> r == PRESENT_MODE_IMMEDIATE_KHR
  {
    if PRESENT_MODE_MAILBOX_KHR in modes then PRESENT_MODE_MAILBOX_KHR
    else PRESENT_MODE_IMMEDIATE_KHR
  }

  /** The surface's current extent unless its width is u32::MAX; then the
      framebuffer size clamped to the supported range. */
  function ChooseSwapExtent<E>(caps: Result<SurfaceCapabilities, E>, framebufferSize: (U32, U32)): (r: Result<Extent2D, E>)
    requires caps.Ok? && caps.value.currentExtent.width == U32_MAX ==>
      caps.value.minImageExtent.width <= caps.value.maxImageExtent.width &&
      caps.value.minImageExtent.height <= caps.value.maxImageExtent.height
    ensures caps.Err? ==> r == Err(caps.error)
    ensures caps.Ok? && caps.value.currentExtent.width != U32_MAX ==> r == Ok(caps.value.currentExtent)
    ensures caps.Ok? && caps.value.currentExtent.width == U32_MAX ==>
      r.Ok? &&
      caps.value.minImageExtent.width <= r.value.width <= caps.value.maxImageExtent.width &&
      caps.value.minImageExtent.height <= r.value.height <= caps.value.maxImageExtent.height &&
      (caps.value.minImageExtent.width <= framebufferSize.0 <= caps.value.maxImageExtent.width ==>
        r.value.width == framebufferSize.0) &&
      (caps.value.minImageExtent.height <= framebufferSize.1 <= caps.value.maxImageExtent.height ==>
        r.value.height == framebufferSize.1)
    ensures caps.Ok? && caps.value.currentExtent.width == U32_MAX ==>
      (framebufferSize.0 < caps.value.minImageExtent.width ==> r.value.width == caps.value.minImageExtent.width) &&
      (caps.value.maxImageExtent.width < framebufferSize.0 ==> r.value.width == caps.value.maxImageExtent.width) &&
      (framebufferSize.1 < caps.value.minImageExtent.height ==> r.value.height == caps.value.minImageExtent.height) &&
      (caps.value.maxImageExtent.height < framebufferSize.1 ==> r.value.height == caps.value.maxImageExtent.height)
  {
    match caps
    case Err(e) => Err(e)
    case Ok(c) =>
      if c.currentExtent.width != U32_MAX then Ok(c.currentExtent)
      else
        var (width, height) := framebufferSize;
        Ok(Extent2D(
          Clamp(width, c.minImageExtent.width, c.maxImageExtent.width),
          Clamp(height, c.minImageExtent.height, c.maxImageExtent.height)))
  }

  /** Both generations pick the same format from a non-empty list. */
  lemma SurfaceFormatChoicesAgree(formats: seq<SurfaceFormat>)
    requires |formats| > 0
    ensures SwapchainSelection.ChooseSurfaceFormat(formats) == Ok(ChooseSurfaceFormat(formats))
  {
  }

  /** The two generations pick the same present mode exactly when MAILBOX
      is listed: their fallbacks (IMMEDIATE here, FIFO there) differ. */
  lemma PresentModeChoicesAgreeIffMailbox(modes: seq<PresentMode>)
    ensures ChoosePresentMode(modes) == SwapchainSelection.ChoosePresentationMode(modes)
      <==> PRESENT_MODE_MAILBOX_KHR in modes
  {
  }
}

=== FILE: render_pass.dfy ===
/** The older renderer's render pass wrapper and its arguments
    (src/renderer/render_pass.rs, with the arguments declared in
    src/renderer/mod.rs). Creating the render pass and its framebuffers
    are driver calls: the render pass is a function of the arguments, the
    framebuffers a function of the render pass. */
module RenderPass {
  import opened Wrappers
  import opened Vk

  /** `RenderPassArgs`: whether the pass is the first and the last of a
      frame, and the optional clear colours. */
  datatype RenderPassArgs = RenderPassArgs(first: bool, last: bool, clearColors: Option<seq<ClearValue>>)

  /** `Default`: a middle pass that keeps the image contents. */
  const DEFAULT_ARGS: RenderPassArgs := RenderPassArgs(false, false, None)

  /** The first pass of a frame expects an image whose contents are
      undefined; later passes expect a colour attachment. */
  function InitialLayout(args: RenderPassArgs): (layout: ImageLayout)
    ensures layout == IMAGE_LAYOUT_UNDEFINED <==> args.first
    ensures !args.first ==> layout == IMAGE_LAYOUT_COLOR_ATTACHMENT_OPTIMAL
  {
    if args.first then IMAGE_LAYOUT_UNDEFINED else IMAGE_LAYOUT_COLOR_ATTACHMENT_OPTIMAL
  }

  /** The last pass of a frame leaves the image ready to present; earlier
      passes leave a colour attachment. */
  function FinalLayout(args: RenderPassArgs): (layout: ImageLayout)
    ensures layout == IMAGE_LAYOUT_PRESENT_SRC_KHR <==> args.last
    ensures !args.last ==> layout == IMAGE_LAYOUT_COLOR_ATTACHMENT_OPTIMAL
  {
    if args.last then IMAGE_LAYOUT_PRESENT_SRC_KHR else IMAGE_LAYOUT_COLOR_ATTACHMENT_OPTIMAL
  }

  /** A pass with clear colours clears the attachment; otherwise it loads
      the previous contents. */
  function LoadOp(args: RenderPassArgs): (op: AttachmentLoadOp)
    ensures op == ATTACHMENT_LOAD_OP_CLEAR <==> args.clearColors.Some?
    ensures args.clearColors.None? ==> op == ATTACHMENT_LOAD_OP_LOAD
  {
    if args.clearColors.Some? then ATTACHMENT_LOAD_OP_CLEAR else ATTACHMENT_LOAD_OP_LOAD
  }

  /** The number of clear values handed to `vkCmdBeginRenderPass`: the
      length of the clear list as a `u32`, or 0 without one. */
  function ClearCount(args: RenderPassArgs): (n: U32)
    ensures args.clearColors.None? ==> n == 0
    ensures args.clearColors.Some? && |args.clearColors.value| <= U32_MAX ==> n == |args.clearColors.value|
  {
    match args.clearColors
    case None => 0
    case Some(colors) => TruncateU32(|colors|)
  }

  /** Consecutive passes agree on the image layout between them: a pass
      that is not last hands over the layout that a pass that is not
      first expects. */
  lemma PassesChain(earlier: RenderPassArgs, later: RenderPassArgs)
    requires !earlier.last && !later.first
    ensures FinalLayout(earlier) == InitialLayout(later)
  {
  }

  /** Whenever clear values are handed over, the attachment is cleared. */
  lemma ClearValuesOnlyWhenClearing(args: RenderPassArgs)
    ensures ClearCount(args) > 0 ==> LoadOp(args) == ATTACHMENT_LOAD_OP_CLEAR
  {
  }

  /** The default arguments keep the image: they load it and leave it a
      colour attachment, with no clear values. */
  lemma DefaultKeepsImage()
    ensures InitialLayout(DEFAULT_ARGS) == IMAGE_LAYOUT_COLOR_ATTACHMENT_OPTIMAL
    ensures FinalLayout(DEFAULT_ARGS) == IMAGE_LAYOUT_COLOR_ATTACHMENT_OPTIMAL
    ensures LoadOp(DEFAULT_ARGS) == ATTACHMENT_LOAD_OP_LOAD && ClearCount(DEFAULT_ARGS) == 0
  {
  }

  class RenderPass {
    const name: string
    const args: RenderPassArgs
    var renderPass: Handle
    var framebuffers: seq<Handle>

    constructor Init(name: string, args: RenderPassArgs, renderPass: Handle, framebuffers: seq<Handle>)
      ensures this.name == name && this.args == args
      ensures this.renderPass == renderPass && this.framebuffers == framebuffers
    {
      this.name := name;
      this.args := args;
      this.renderPass := renderPass;
      this.framebuffers := framebuffers;
    }

    /** `new`: creates the render pass from the arguments, then its
        framebuffers; the first error is passed on. */
    static method New<E>(name: string, args: RenderPassArgs,
                         createRenderPass: RenderPassArgs -> Result<Handle, E>,
                         createFramebuffers: Handle -> Result<seq<Handle>, E>)
      returns (r: Result<RenderPass, E>)
      ensures createRenderPass(args).Err? ==> r == Err(createRenderPass(args).error)
      ensures createRenderPass(args).Ok? ==>
        var pass := createRenderPass(args).value;
        (createFramebuffers(pass).Err? ==> r == Err(createFramebuffers(pass).error)) &&
        (createFramebuffers(pass).Ok? ==>
          r.Ok? && fresh(r.value) && r.value.renderPass == pass &&
          r.value.framebuffers == createFramebuffers(pass).value)
      ensures r.Ok? ==> r.value.args == args && r.value.name == name
    {
      var renderPass := createRenderPass(args);
      if renderPass.Err? {
        return Err(renderPass.error);
      }
      var framebuffers := createFramebuffers(renderPass.value);
      if framebuffers.Err? {
        return Err(framebuffers.error);
      }
      var pass := new RenderPass.Init(name, args, renderPass.value, framebuffers.value);
      return Ok(pass);
    }

    /** `destroy`: drains the framebuffers, destroying each in order, then
        destroys the render pass. The stale render pass handle stays in the
        field. */
    method Destroy() returns (destroyedFramebuffers: seq<Handle>, destroyedRenderPass: Handle)
      modifies this
      ensures destroyedFramebuffers == old(framebuffers) && destroyedRenderPass == renderPass
      ensures framebuffers == [] && renderPass == old(renderPass)
    {
      destroyedFramebuffers := [];
      for i := 0 to |framebuffers|
        invariant destroyedFramebuffers == framebuffers[..i]
      {
        destroyedFramebuffers := destroyedFramebuffers + [framebuffers[i]];
      }
      assert framebuffers[..|framebuffers|] == framebuffers;
      framebuffers := [];
      destroyedRenderPass := renderPass;
    }

    /** `rebuild_swapchain_resources`: destroys everything, then recreates
        the render pass from the same arguments and its framebuffers. When
        a creation fails the pass is left without framebuffers. */
    method RebuildSwapchainResources<E>(createRenderPass: RenderPassArgs -> Result<Handle, E>,
                                        createFramebuffers: Handle -> Result<seq<Handle>, E>)
      returns (r: Outcome<E>, destroyedFramebuffers: seq<Handle>, destroyedRenderPass: Handle)
      modifies this
      ensures destroyedFramebuffers == old(framebuffers) && destroyedRenderPass == old(renderPass)
      ensures createRenderPass(args).Err? ==>
        r == Fail(createRenderPass(args).error) && renderPass == old(renderPass) && framebuffers == []
      ensures createRenderPass(args).Ok? ==>
        var pass := createRenderPass(args).value;
        renderPass == pass &&
        (createFramebuffers(pass).Err? ==> r == Fail(createFramebuffers(pass).error) && framebuffers == []) &&
        (createFramebuffers(pass).Ok? ==> r == Pass && framebuffers == createFramebuffers(pass).value)
    {
      destroyedFramebuffers, destroyedRenderPass := Destroy();
      var created := createRenderPass(args);
      if created.Err? {
        return Fail(created.error), destroyedFramebuffers, destroyedRenderPass;
      }
      renderPass := created.value;
      var framebuffersResult := createFramebuffers(renderPass);
      if framebuffersResult.Err? {
        return Fail(framebuffersResult.error), destroyedFramebuffers, destroyedRenderPass;
      }
      framebuffers := framebuffersResult.value;
      r := Pass;
    }
  }
}

=== FILE: render_pass_args.dfy ===
/** The MSAA renderer's render pass arguments
    (src/renderer/render_pass_args.rs): the layout and load rules of its
    multisampled colour attachment, the attachment list with the optional
    resolve attachment, and the framebuffer views. Creating a framebuffer
    is a driver call, given as a function of its views. */
module RenderPassArgs {
  import opened Wrappers
  import opened Vk

  /** `RenderPassArgs` of this renderer: `first` and `last` as before, the
      colour attachment's sample count and the optional clear colours. */
  datatype RenderPassArgs = RenderPassArgs(
    first: bool, last: bool, samples: Flags, clearColors: Option<seq<ClearValue>>)

  /** The fields of `vk::AttachmentDescription` the rules decide. */
  datatype AttachmentDescription = AttachmentDescription(
    samples: Flags, loadOp: AttachmentLoadOp, initialLayout: ImageLayout, finalLayout: ImageLayout)

  /** `vk::AttachmentReference`. */
  datatype AttachmentReference = AttachmentReference(attachment: nat, layout: ImageLayout)

  /** `Default`: a single-sampled middle pass without clear colours. */
  const DEFAULT_ARGS: RenderPassArgs := RenderPassArgs(false, false, SAMPLE_COUNT_1, None)

  /** The length of the clear list as a `u32`, or 0 without one. */
  function ClearCount(args: RenderPassArgs): (n: U32)
    ensures args.clearColors.None? ==> n == 0
    ensures args.clearColors.Some? && |args.clearColors.value| <= U32_MAX ==> n == |args.clearColors.value|
  {
    match args.clearColors
    case None => 0
    case Some(colors) => TruncateU32(|colors|)
  }

  /** UNDEFINED for the first pass of a frame, else COLOR_ATTACHMENT_OPTIMAL. */
  function InitialLayout(args: RenderPassArgs): (layout: ImageLayout)
    ensures layout == IMAGE_LAYOUT_UNDEFINED <==> args.first
    ensures !args.first ==> layout == IMAGE_LAYOUT_COLOR_ATTACHMENT_OPTIMAL
  {
    if args.first then IMAGE_LAYOUT_UNDEFINED else IMAGE_LAYOUT_COLOR_ATTACHMENT_OPTIMAL
  }

  /** The multisampled attachment always ends as a colour attachment: in
      the last pass it is the resolve attachment that is presented. */
  function FinalLayout(args: RenderPassArgs): (layout: ImageLayout)
    ensures layout == IMAGE_LAYOUT_COLOR_ATTACHMENT_OPTIMAL
  {
    IMAGE_LAYOUT_COLOR_ATTACHMENT_OPTIMAL
  }

  /** CLEAR when clear colours are given, else LOAD. */
  function LoadOp(args: RenderPassArgs): (op: AttachmentLoadOp)
    ensures op == ATTACHMENT_LOAD_OP_CLEAR <==> args.clearColors.Some?
    ensures args.clearColors.None? ==> op == ATTACHMENT_LOAD_OP_LOAD
  {
    if args.clearColors.Some? then ATTACHMENT_LOAD_OP_CLEAR else ATTACHMENT_LOAD_OP_LOAD
  }

  /** The attachments of `create_render_pass`: the colour attachment, and
      in the last pass a single-sampled resolve attachment that goes from
      UNDEFINED to PRESENT_SRC_KHR. */
  function Attachments(args: RenderPassArgs): (r: seq<AttachmentDescription>)
    ensures |r| == if args.last then 2 else 1
    ensures r[0] == AttachmentDescription(args.samples, LoadOp(args), InitialLayout(args), FinalLayout(args))
    ensures args.last ==> r[1] == AttachmentDescription(
      SAMPLE_COUNT_1, ATTACHMENT_LOAD_OP_DONT_CARE, IMAGE_LAYOUT_UNDEFINED, IMAGE_LAYOUT_PRESENT_SRC_KHR)
  {
    var colorAttachment := AttachmentDescription(args.samples, LoadOp(args), InitialLayout(args), FinalLayout(args));
    var colorResolveAttachment := AttachmentDescription(
      SAMPLE_COUNT_1, ATTACHMENT_LOAD_OP_DONT_CARE, IMAGE_LAYOUT_UNDEFINED, IMAGE_LAYOUT_PRESENT_SRC_KHR);
    if args.last then [colorAttachment, colorResolveAttachment] else [colorAttachment]
  }

  /** The subpass's resolve reference: attachment 1 in the last pass,
      none (a null pointer) otherwise. */
  function ResolveReference(args: RenderPassArgs): (r: Option<AttachmentReference>)
    ensures r.Some? <==> args.last
    ensures r.Some? ==> r.value == AttachmentReference(1, IMAGE_LAYOUT_COLOR_ATTACHMENT_OPTIMAL)
  {
    if args.last then Some(AttachmentReference(1, IMAGE_LAYOUT_COLOR_ATTACHMENT_OPTIMAL)) else None
  }

  /** The views of framebuffer `i`: the MSAA target, plus swapchain view
      `i` when the pass is last. */
  function FramebufferViews(args: RenderPassArgs, msaaView: Handle, swapchainView: Handle): (views: seq<Handle>)
    ensures |views| == |Attachments(args)|
    ensures views[0] == msaaView
    ensures args.last ==> views[1] == swapchainView
  {
    if args.last then [msaaView, swapchainView] else [msaaView]
  }

  /** The resolve reference names an attachment that exists and is
      single-sampled, and the last pass presents through it. */
  lemma ResolveReferenceIsValid(args: RenderPassArgs)
    ensures var reference := ResolveReference(args);
      reference.Some? ==>
        reference.value.attachment < |Attachments(args)| &&
        Attachments(args)[reference.value.attachment].samples == SAMPLE_COUNT_1 &&
        Attachments(args)[reference.value.attachment].finalLayout == IMAGE_LAYOUT_PRESENT_SRC_KHR
  {
  }

  /** The default arguments: one sample, LOAD and no clear values. */
  lemma DefaultIsSingleSampledLoad()
    ensures DEFAULT_ARGS.samples == SAMPLE_COUNT_1 && LoadOp(DEFAULT_ARGS) == ATTACHMENT_LOAD_OP_LOAD
    ensures ClearCount(DEFAULT_ARGS) == 0 && |Attachments(DEFAULT_ARGS)| == 1
  {
  }

  /** `create_framebuffers`: one framebuffer per swapchain image view, in
      order, each over `FramebufferViews`; the first failure is passed on. */
  method CreateFramebuffers<E>(args: RenderPassArgs, msaaView: Handle, swapchainViews: seq<Handle>,
                               create: seq<Handle> -> Result<Handle, E>)
    returns (r: Result<seq<Handle>, E>)
    ensures r.Ok? ==> |r.value| == |swapchainViews|
    ensures r.Ok? ==> forall i :: 0 <= i < |swapchainViews| ==>
      create(FramebufferViews(args, msaaView, swapchainViews[i])) == Ok(r.value[i])
    ensures r.Err? ==> exists i :: (0 <= i < |swapchainViews| &&
      create(FramebufferViews(args, msaaView, swapchainViews[i])) == Err(r.error) &&
      forall j :: 0 <= j < i ==> create(FramebufferViews(args, msaaView, swapchainViews[j])).Ok?)
    ensures r.Err? <==> exists i :: (0 <= i < |swapchainViews| &&
      create(FramebufferViews(args, msaaView, swapchainViews[i])).Err?)
  {
    var framebuffers: seq<Handle> := [];
    for i := 0 to |swapchainViews|
      invariant |framebuffers| == i
      invariant forall k :: 0 <= k < i ==>
        create(FramebufferViews(args, msaaView, swapchainViews[k])) == Ok(framebuffers[k])
    {
      var views := FramebufferViews(args, msaaView, swapchainViews[i]);
      var framebuffer := create(views);
      if framebuffer.Err? {
        return Err(framebuffer.error);
      }
      framebuffers := framebuffers + [framebuffer.value];
    }
    return Ok(framebuffers);
  }
}

=== FILE: semaphore_pool.dfy ===
/** The binary-semaphore recycling pool (src/vulkan/semaphore_pool/mod.rs).
    Semaphores are opaque handles; creating and destroying one is a driver
    call, so a creation result is a parameter and `Destroy` returns the
    handles it destroys, in order. */
module SemaphorePool {
  import opened Wrappers
  import opened Vk

  datatype SemaphorePoolError = UnableToCreateNewSemaphore(code: VkCode)

  class SemaphorePool {
    /** Semaphores available for reuse; the last one was returned last. */
    var recycled: seq<Handle>

    /** `new`: an empty pool. */
    constructor ()
      ensures recycled == []
    {
      recycled := [];
    }

    /** `get_semaphore`: the most recently returned semaphore when there is
        one (last in, first out); otherwise a newly created one, or the
        creation error. */
    method GetSemaphore(created: Result<Handle, VkCode>) returns (r: Result<Handle, SemaphorePoolError>)
      modifies this
      ensures old(recycled) != [] ==>
        r == Ok(old(recycled)[|old(recycled)| - 1]) && recycled == old(recycled)[..|old(recycled)| - 1]
      ensures old(recycled) == [] ==> recycled == []
      ensures old(recycled) == [] && created.Ok? ==> r == Ok(created.value)
      ensures old(recycled) == [] && created.Err? ==> r == Err(UnableToCreateNewSemaphore(created.error))
    {
      if recycled != [] {
        var last := recycled[|recycled| - 1];
        recycled := recycled[..|recycled| - 1];
        return Ok(last);
      }
      match created {
        case Ok(semaphore) => return Ok(semaphore);
        case Err(code) => return Err(UnableToCreateNewSemaphore(code));
      }
    }

    /** `return_semaphore`: a non-null semaphore goes on top of the pool; a
        null one is ignored. */
    method ReturnSemaphore(semaphore: Handle)
      modifies this
      ensures semaphore == NULL_HANDLE ==> recycled == old(recycled)
      ensures semaphore != NULL_HANDLE ==> recycled == old(recycled) + [semaphore]
    {
      if semaphore != NULL_HANDLE {
        recycled := recycled + [semaphore];
      }
    }

    /** `destroy`: drains the pool, destroying every recycled semaphore in
        pool order; the pool is empty afterwards. */
    method Destroy() returns (destroyed: seq<Handle>)
      modifies this
      ensures destroyed == old(recycled)
      ensures recycled == []
    {
      destroyed := [];
      for i := 0 to |recycled|
        invariant destroyed == recycled[..i]
      {
        destroyed := destroyed + [recycled[i]];
      }
      assert recycled[..|recycled|] == recycled;
      recycled := [];
    }
  }
}

=== FILE: shader_module.dfy ===
/** SPIR-V loading of the `vulkan_api` shader module
    (src/graphics/vulkan_api/pipeline/shader_module.rs). A SPIR-V module is
    a stream of 32-bit words (section 2.3 of the SPIR-V specification); the
    code rebuilds those words from the bytes of a compiled shader, reading
    each group of four bytes as a little-endian `u32`. */
module ShaderModule {
  import opened Wrappers
  import opened Vk

  /** `std::mem::size_of::<u32>()`. */
  const U32_SIZE: nat := 4

  /** Splitting off the low byte of `lo + 0x100 * hi`. */
  lemma SplitLowByte(lo: int, hi: int)
    requires 0 <= lo < 0x100
    ensures (lo + 0x100 * hi) % 0x100 == lo && (lo + 0x100 * hi) / 0x100 == hi
  {
  }

  /** `u32::from_le_bytes`. */
  function WordFromLeBytes(b0: Byte, b1: Byte, b2: Byte, b3: Byte): (w: U32)
    ensures w % 0x100 == b0 && w / 0x100 % 0x100 == b1
    ensures w / 0x100 / 0x100 % 0x100 == b2 && w / 0x100 / 0x100 / 0x100 == b3
  {
    SplitLowByte(b0, b1 + 0x100 * (b2 + 0x100 * b3));
    SplitLowByte(b1, b2 + 0x100 * b3);
    SplitLowByte(b2, b3);
    SplitLowByte(b3, 0);
    b0 + 0x100 * (b1 + 0x100 * (b2 + 0x100 * b3))
  }

  /** `u32::to_le_bytes`, the inverse of `WordFromLeBytes`. */
  function LeBytesOfWord(w: U32): (bs: Bytes)
    ensures |bs| == U32_SIZE
    ensures WordFromLeBytes(bs[0], bs[1], bs[2], bs[3]) == w
  {
    var q0 := w / 0x100;
    var q1 := q0 / 0x100;
    var q2 := q1 / 0x100;
    [w % 0x100, q0 % 0x100, q1 % 0x100, q2]
  }

  /** The words of a byte stream whose length is a multiple of four. */
  function DecodeWords(bytes: Bytes): (words: seq<U32>)
    requires |bytes| % U32_SIZE == 0
    ensures |words| == |bytes| / U32_SIZE
  {
    if bytes == [] then []
    else [WordFromLeBytes(bytes[0], bytes[1], bytes[2], bytes[3])] + DecodeWords(bytes[U32_SIZE..])
  }

  /** The bytes of a word stream, each word little-endian. */
  function EncodeWords(words: seq<U32>): (bytes: Bytes)
    ensures |bytes| == U32_SIZE * |words|
  {
    if words == [] then [] else LeBytesOfWord(words[0]) + EncodeWords(words[1..])
  }

  /** Word `k` is made of bytes `4k` to `4k + 3`, least significant first. */
  lemma {:induction false} DecodeWordsAt(bytes: Bytes, k: nat)
    requires |bytes| % U32_SIZE == 0 && k < |bytes| / U32_SIZE
    ensures DecodeWords(bytes)[k] ==
      WordFromLeBytes(bytes[4 * k], bytes[4 * k + 1], bytes[4 * k + 2], bytes[4 * k + 3])
  {
    if k > 0 {
      DecodeWordsAt(bytes[U32_SIZE..], k - 1);
    }
  }

  /** Decoding the encoding of a word stream gives the words back. */
  lemma {:induction false} DecodeEncode(words: seq<U32>)
    ensures DecodeWords(EncodeWords(words)) == words
  {
    if words != [] {
      var bytes := EncodeWords(words);
      assert bytes[U32_SIZE..] == EncodeWords(words[1..]);
      DecodeEncode(words[1..]);
    }
  }

  /** Encoding the decoded words gives the bytes back: no byte is lost or
      reordered. */
  lemma {:induction false} EncodeDecode(bytes: Bytes)
    requires |bytes| % U32_SIZE == 0
    ensures EncodeWords(DecodeWords(bytes)) == bytes
  {
    if bytes != [] {
      var words := DecodeWords(bytes);
      assert words[1..] == DecodeWords(bytes[U32_SIZE..]);
      EncodeDecode(bytes[U32_SIZE..]);
      var w := words[0];
      assert LeBytesOfWord(w) == bytes[..U32_SIZE];
      assert bytes == bytes[..U32_SIZE] + bytes[U32_SIZE..];
    }
  }

  /** `copy_to_u32`: a length that is not a multiple of four is an error;
      otherwise four bytes at a time are split off the front and pushed as
      one word. */
  method CopyToU32(bytes: Bytes) returns (r: Result<seq<U32>, VulkanError>)
    ensures r.Err? <==> |bytes| % U32_SIZE != 0
    ensures r.Err? ==> r.error == InvalidSourceLengthInShaderSPIRV
    ensures r.Ok? ==> r.value == DecodeWords(bytes)
    ensures r.Ok? ==> |r.value| == |bytes| / U32_SIZE
  {
    if |bytes| % U32_SIZE != 0 {
      return Err(InvalidSourceLengthInShaderSPIRV);
    }
    var buffer: seq<U32> := [];
    var input := bytes;
    while input != []
      invariant |input| % U32_SIZE == 0
      invariant buffer + DecodeWords(input) == DecodeWords(bytes)
      decreases |input|
    {
      var intSlice, rest := input[..U32_SIZE], input[U32_SIZE..];
      input := rest;
      var word := WordFromLeBytes(intSlice[0], intSlice[1], intSlice[2], intSlice[3]);
      buffer := buffer + [word];
    }
    return Ok(buffer);
  }

  /** `code_size` of the create info: the word count times four. */
  function CodeSize(words: seq<U32>): (n: nat)
    ensures n % U32_SIZE == 0
  {
    |words| * U32_SIZE
  }

  /** The code size handed to the driver is the length of the original
      byte stream. */
  lemma CodeSizeIsSourceLength(bytes: Bytes)
    requires |bytes| % U32_SIZE == 0
    ensures CodeSize(DecodeWords(bytes)) == |bytes|
  {
  }
}

=== FILE: swapchain_frames.dfy ===
/** `SwapchainFrames` (src/graphics/swapchain_frames/mod.rs with
    src/graphics/swapchain_frames/frame.rs): one frame slot per swapchain
    image, indexed by the image the driver hands out, a pool of recycled
    acquire semaphores and a flag asking for a rebuild. Driver results are
    parameters; the pool (src/graphics/vulkan_api/sync/semaphore_pool.rs)
    is its stack of recycled handles. */
module SwapchainFrames {
  import opened Wrappers
  import opened Vk
  import opened AcquirePresent

  /** What `Swapchain::acquire_next_swapchain_image` makes of ash's result:
      an optimal image index, a rebuild for a suboptimal or out-of-date
      swapchain, and `UnableToAcquireSwapchainImage` for any other error. */
  function AcquireNextSwapchainImage(r: AcquireResult): (s: Result<SwapchainStatus, VulkanError>)
    ensures s.Ok? && s.value.Index? <==> r.Acquired? && !r.suboptimal
    ensures s.Ok? && s.value.Index? ==> s.value.index == r.index
    ensures s == Ok(NeedsRebuild) <==> AcquireInvalidates(r)
    ensures s.Err? ==> r.AcquireFailed? && s.error == UnableToAcquireSwapchainImage(r.code)
  {
    match r
    case Acquired(index, false) => Ok(Index(index))
    case Acquired(_, true) => Ok(NeedsRebuild)
    case AcquireFailed(code) =>
      if code == ERROR_OUT_OF_DATE_KHR then Ok(NeedsRebuild)
      else Err(UnableToAcquireSwapchainImage(code))
  }

  /** What `Swapchain::present_swapchain_image` makes of ash's result:
      every error, out-of-date included, is `UnableToPresentSwapchainImage`
      and a suboptimal success is a success. */
  function PresentImage(r: PresentResult): (s: Outcome<VulkanError>)
    ensures s.Pass? <==> r.Presented?
    ensures s.Fail? ==> s.error == UnableToPresentSwapchainImage(r.code)
  {
    match r
    case Presented(_) => Pass
    case PresentFailed(code) => Fail(UnableToPresentSwapchainImage(code))
  }

  /** A swapchain and its image count. */
  datatype Swapchain = Swapchain(handle: Handle, imageCount: nat)

  /** A frame's fence, command pool, command buffer and image view. */
  datatype FrameResources = FrameResources(
    queueSubmitFence: Handle, commandPool: Handle, commandBuffer: Handle, swapchainImageView: Handle)

  /** `Frame`: the image it belongs to, the semaphore of its latest
      acquire, its release semaphore and its resources. */
  datatype Frame = Frame(
    swapchainImageIndex: nat, acquireSemaphore: Option<Handle>, releaseSemaphore: Handle,
    resources: FrameResources)

  datatype AcquiredFrame = Available(frame: Frame) | SwapchainNeedsRebuild

  /** The release semaphore `Frame::new` gets for frame `k` of a rebuild:
      the pool is popped while it lasts, then new semaphores are created. */
  function ReleaseSemaphore(pool: seq<Handle>, createSemaphore: nat -> Result<Handle, VulkanError>, k: nat)
    : (r: Result<Handle, VulkanError>)
    ensures k < |pool| ==> r == Ok(pool[|pool| - 1 - k])
    ensures k >= |pool| ==> r == createSemaphore(k)
  {
    if k < |pool| then Ok(pool[|pool| - 1 - k]) else createSemaphore(k)
  }

  /** Frame `k` as a successful rebuild creates it. */
  function NewFrame(pool: seq<Handle>, createSemaphore: nat -> Result<Handle, VulkanError>,
                    createResources: nat -> Result<FrameResources, VulkanError>, k: nat): Option<Frame>
    requires ReleaseSemaphore(pool, createSemaphore, k).Ok? && createResources(k).Ok?
  {
    Some(Frame(k, None, ReleaseSemaphore(pool, createSemaphore, k).value, createResources(k).value))
  }

  class SwapchainFrames {
    var swapchainNeedsRebuild: bool
    var frames: seq<Option<Frame>>
    var swapchain: Option<Swapchain>
    var recycled: seq<Handle>

    /** A slot only ever holds the frame of its own image. */
    predicate Valid()
      reads this
    {
      forall i :: 0 <= i < |frames| && frames[i].Some? ==> frames[i].value.swapchainImageIndex == i
    }

    /** `new`: no frames, no swapchain, an empty pool, and a rebuild due
        before the first acquire. */
    constructor()
      ensures Valid() && swapchainNeedsRebuild
      ensures frames == [] && swapchain.None? && recycled == []
    {
      swapchainNeedsRebuild := true;
      frames := [];
      swapchain := None;
      recycled := [];
    }

    /** `swapchain_image_count`. */
    function SwapchainImageCount(): nat
      reads this
    {
      |frames|
    }

    /** `swapchain_image_view`: the view of frame `i`, or `FrameMissing`
        while that frame is out. */
    function SwapchainImageView(i: nat): (r: Result<Handle, GraphicsError>)
      reads this
      requires i < |frames|
      ensures r.Err? <==> frames[i].None?
      ensures r.Err? ==> r.error == FrameMissing
      ensures r.Ok? ==> r.value == frames[i].value.resources.swapchainImageView
    {
      match frames[i]
      case None => Err(FrameMissing)
      case Some(frame) => Ok(frame.resources.swapchainImageView)
    }

    /** Waiting stops at slot `i`: its frame is out or its fence wait fails. */
    predicate WaitStopsAt(wait: nat -> Outcome<VulkanError>, i: nat)
      reads this`frames
      requires i < |frames|
    {
      frames[i].None? || wait(i).Fail?
    }

    /** The error waiting reports when it stops at slot `i`. */
    function WaitError(wait: nat -> Outcome<VulkanError>, i: nat): GraphicsError
      reads this`frames
      requires i < |frames| && WaitStopsAt(wait, i)
    {
      if frames[i].None? then FrameMissing else Vulkan(wait(i).error)
    }

    /** What waiting on the frames from `from` onwards yields: the error of
        the first slot where it stops, or success. */
    function WaitOutcome(wait: nat -> Outcome<VulkanError>, from: nat): (r: Outcome<GraphicsError>)
      reads this`frames
      ensures r.Pass? <==> forall i :: from <= i < |frames| ==> !WaitStopsAt(wait, i)
      ensures r.Fail? ==> exists i :: (from <= i < |frames| && WaitStopsAt(wait, i) &&
        r.error == WaitError(wait, i) && forall k :: from <= k < i ==> !WaitStopsAt(wait, k))
      decreases |frames| - from
    {
      if from >= |frames| then Pass
      else if WaitStopsAt(wait, from) then Fail(WaitError(wait, from))
      else WaitOutcome(wait, from + 1)
    }

    /** `wait_for_all_frames_to_complete`: waits on each frame's fence in
        slot order; a missing frame is `FrameMissing`. */
    method WaitForAllFramesToComplete(wait: nat -> Outcome<VulkanError>) returns (r: Outcome<GraphicsError>)
      ensures r == WaitOutcome(wait, 0)
    {
      for i := 0 to |frames|
        invariant WaitOutcome(wait, i) == WaitOutcome(wait, 0)
      {
        if frames[i].None? {
          return Fail(FrameMissing);
        }
        var waited := wait(i);
        if waited.Fail? {
          return Fail(Vulkan(waited.error));
        }
      }
      return Pass;
    }

    /** `invalidate_swapchain`. */
    method InvalidateSwapchain()
      modifies this
      ensures swapchainNeedsRebuild
      ensures frames == old(frames) && swapchain == old(swapchain) && recycled == old(recycled)
    {
      swapchainNeedsRebuild := true;
    }

    /** `acquire_swapchain_frame`: with the flag set, asks for a rebuild and
        changes nothing. Otherwise gets a semaphore (the pool's newest, else
        a new one) and acquires an image with it. A rebuild status is
        returned without setting the flag, and the semaphore is dropped.
        For an image `i` the frame in slot `i` is taken (`FrameMissing` when
        it is out), its previous acquire semaphore goes back to the pool and
        the new one takes its place, and its commands are reset. The driver
        only hands out indices of existing images. */
    method AcquireSwapchainFrame(createdSemaphore: Result<Handle, VulkanError>, acquired: AcquireResult,
                                 reset: Outcome<VulkanError>)
      returns (r: Result<AcquiredFrame, GraphicsError>)
      modifies this
      requires Valid()
      requires !swapchainNeedsRebuild && (|recycled| > 0 || createdSemaphore.Ok?) ==> swapchain.Some?
      requires acquired.Acquired? ==> acquired.index < |frames|
      ensures Valid() && swapchainNeedsRebuild == old(swapchainNeedsRebuild) && swapchain == old(swapchain)
      ensures old(swapchainNeedsRebuild) ==> r == Ok(SwapchainNeedsRebuild) && unchanged(this)
      ensures !old(swapchainNeedsRebuild) && |old(recycled)| == 0 && createdSemaphore.Err? ==>
        r == Err(Vulkan(createdSemaphore.error)) && frames == old(frames) && recycled == old(recycled)
      ensures !old(swapchainNeedsRebuild) && (|old(recycled)| > 0 || createdSemaphore.Ok?) ==>
        var semaphore := if |old(recycled)| > 0 then old(recycled)[|old(recycled)| - 1] else createdSemaphore.value;
        var pool := if |old(recycled)| > 0 then old(recycled)[..|old(recycled)| - 1] else old(recycled);
        match AcquireNextSwapchainImage(acquired)
        case Err(e) => r == Err(Vulkan(e)) && frames == old(frames) && recycled == pool
        case Ok(NeedsRebuild) => r == Ok(SwapchainNeedsRebuild) && frames == old(frames) && recycled == pool
        case Ok(Index(i)) =>
          i < |frames| && frames == old(frames)[i := None] &&
          (old(frames)[i].None? ==> r == Err(FrameMissing) && recycled == pool) &&
          (old(frames)[i].Some? ==>
            var frame := old(frames)[i].value;
            recycled == pool + (if frame.acquireSemaphore.Some? then [frame.acquireSemaphore.value] else []) &&
            (reset.Fail? ==> r == Err(Vulkan(reset.error))) &&
            (reset.Pass? ==> r == Ok(Available(frame.(acquireSemaphore := Some(semaphore))))))
    {
      if swapchainNeedsRebuild {
        return Ok(SwapchainNeedsRebuild);
      }
      var semaphore;
      if |recycled| > 0 {
        semaphore := recycled[|recycled| - 1];
        recycled := recycled[..|recycled| - 1];
      } else {
        if createdSemaphore.Err? {
          return Err(Vulkan(createdSemaphore.error));
        }
        semaphore := createdSemaphore.value;
      }
      var status := AcquireNextSwapchainImage(acquired);
      if status.Err? {
        return Err(Vulkan(status.error));
      }
      if status.value.NeedsRebuild? {
        return Ok(SwapchainNeedsRebuild);
      }
      var index := status.value.index;
      var slot := frames[index];
      frames := frames[index := None];
      if slot.None? {
        return Err(FrameMissing);
      }
      var frame := slot.value;
      if frame.acquireSemaphore.Some? {
        recycled := recycled + [frame.acquireSemaphore.value];
      }
      frame := frame.(acquireSemaphore := Some(semaphore));
      if reset.Fail? {
        return Err(Vulkan(reset.error));
      }
      return Ok(Available(frame));
    }

    /** `present_frame_with_signal`: submits the frame's commands, presents
        its image, and only then puts the frame back in its slot. A failed
        submit or present is returned and the frame is dropped; the flag is
        never set here, not even for an out-of-date present. */
    method PresentFrameWithSignal(frame: Frame, submitted: Outcome<VulkanError>, presented: PresentResult)
      returns (r: Outcome<GraphicsError>)
      modifies this
      requires Valid() && frame.swapchainImageIndex < |frames|
      requires submitted.Pass? ==> swapchain.Some?
      ensures Valid() && swapchainNeedsRebuild == old(swapchainNeedsRebuild)
      ensures swapchain == old(swapchain) && recycled == old(recycled)
      ensures submitted.Fail? ==> r == Fail(Vulkan(submitted.error)) && frames == old(frames)
      ensures submitted.Pass? && presented.PresentFailed? ==>
        r == Fail(Vulkan(UnableToPresentSwapchainImage(presented.code))) && frames == old(frames)
      ensures submitted.Pass? && presented.Presented? ==>
        r.Pass? && frames == old(frames)[frame.swapchainImageIndex := Some(frame)]
    {
      if submitted.Fail? {
        return Fail(Vulkan(submitted.error));
      }
      var status := PresentImage(presented);
      if status.Fail? {
        return Fail(Vulkan(status.error));
      }
      frames := frames[frame.swapchainImageIndex := Some(frame)];
      return Pass;
    }

    /** Frames `0..count` can all be created from `pool`. */
    static predicate FramesBuildable(pool: seq<Handle>, createSemaphore: nat -> Result<Handle, VulkanError>,
                                     createResources: nat -> Result<FrameResources, VulkanError>, count: nat)
    {
      forall k :: 0 <= k < count ==> ReleaseSemaphore(pool, createSemaphore, k).Ok? && createResources(k).Ok?
    }

    /** The loop of `rebuild_swapchain` that creates frame `k` for each
        image `k`, stopping at the first failure. */
    method CreateFrames(count: nat, createSemaphore: nat -> Result<Handle, VulkanError>,
                        createResources: nat -> Result<FrameResources, VulkanError>)
      returns (r: Outcome<VulkanError>)
      modifies this
      requires frames == []
      ensures Valid() && swapchain == old(swapchain) && swapchainNeedsRebuild == old(swapchainNeedsRebuild)
      ensures r.Pass? <==> FramesBuildable(old(recycled), createSemaphore, createResources, count)
      ensures r.Pass? ==> |frames| == count && recycled == old(recycled)[..|old(recycled)| - Min(|old(recycled)|, count)]
      ensures forall k :: 0 <= k < |frames| ==>
        ReleaseSemaphore(old(recycled), createSemaphore, k).Ok? && createResources(k).Ok? &&
        frames[k] == NewFrame(old(recycled), createSemaphore, createResources, k)
    {
      ghost var pool := recycled;
      for k := 0 to count
        invariant |frames| == k
        invariant FramesBuildable(pool, createSemaphore, createResources, k)
        invariant forall j :: 0 <= j < k ==>
          ReleaseSemaphore(pool, createSemaphore, j).Ok? && createResources(j).Ok? &&
          frames[j] == NewFrame(pool, createSemaphore, createResources, j)
        invariant recycled == pool[..|pool| - Min(|pool|, k)]
        invariant swapchain == old(swapchain) && swapchainNeedsRebuild == old(swapchainNeedsRebuild)
      {
        var release: Result<Handle, VulkanError>;
        if |recycled| > 0 {
          release := Ok(recycled[|recycled| - 1]);
          recycled := recycled[..|recycled| - 1];
        } else {
          release := createSemaphore(k);
        }
        assert release == ReleaseSemaphore(pool, createSemaphore, k);
        if release.Err? {
          return Fail(release.error);
        }
        var resources := createResources(k);
        if resources.Err? {
          return Fail(resources.error);
        }
        frames := frames + [Some(Frame(k, None, release.value, resources.value))];
      }
      return Pass;
    }

    /** `rebuild_swapchain`: waits for every frame, drops them all, takes
        the old swapchain (an error if anything else still shares it),
        creates a new one from it for the framebuffer size, then creates
        frame `k` for each image `k` in order and clears the flag. Each new
        frame's release semaphore comes from the pool while it lasts. Only
        a complete rebuild clears the flag. */
    method RebuildSwapchain(framebufferSize: (I32, I32), wait: nat -> Outcome<VulkanError>, shared: bool,
                            createSwapchain: (U32, U32, Option<Handle>) -> Result<Swapchain, VulkanError>,
                            createSemaphore: nat -> Result<Handle, VulkanError>,
                            createResources: nat -> Result<FrameResources, VulkanError>)
      returns (r: Outcome<GraphicsError>)
      modifies this
      requires Valid()
      ensures Valid()
      ensures old(WaitOutcome(wait, 0)).Fail? ==> r == old(WaitOutcome(wait, 0)) && unchanged(this)
      ensures old(WaitOutcome(wait, 0)).Pass? && old(swapchain).Some? && shared ==>
        r == Fail(SwapchainOwnershipIsNotUnique) && frames == [] && swapchain.None?
      ensures r.Fail? ==> swapchainNeedsRebuild == old(swapchainNeedsRebuild)
      ensures var created := createSwapchain(I32AsU32(framebufferSize.0), I32AsU32(framebufferSize.1),
                                             if old(swapchain).Some? then Some(old(swapchain).value.handle) else None);
        && (r.Pass? <==> old(WaitOutcome(wait, 0)).Pass? && !(old(swapchain).Some? && shared) && created.Ok? &&
                         FramesBuildable(old(recycled), createSemaphore, createResources, created.value.imageCount))
        && (r.Pass? ==>
              !swapchainNeedsRebuild && swapchain == Some(created.value) && |frames| == created.value.imageCount &&
              (forall k :: 0 <= k < |frames| ==> frames[k] == NewFrame(old(recycled), createSemaphore, createResources, k)) &&
              recycled == old(recycled)[..|old(recycled)| - Min(|old(recycled)|, |frames|)])
    {
      var waited := WaitForAllFramesToComplete(wait);
      if waited.Fail? {
        return waited;
      }
      frames := [];
      var previous: Option<Handle> := None;
      if swapchain.Some? {
        var swap := swapchain.value;
        swapchain := None;
        if shared {
          return Fail(SwapchainOwnershipIsNotUnique);
        }
        previous := Some(swap.handle);
      }
      var created := createSwapchain(I32AsU32(framebufferSize.0), I32AsU32(framebufferSize.1), previous);
      if created.Err? {
        return Fail(Vulkan(created.error));
      }
      swapchain := Some(created.value);
      var built := CreateFrames(created.value.imageCount, createSemaphore, createResources);
      if built.Fail? {
        return Fail(Vulkan(built.error));
      }
      swapchainNeedsRebuild := false;
      return Pass;
    }
  }

  function Min(a: nat, b: nat): (m: nat)
    ensures m <= a && m <= b && (m == a || m == b)
  {
    if a <= b then a else b
  }
}

=== FILE: swapchain_selection.dfy ===
/** Swapchain parameter selection of the `vulkan_api` swapchain
    (src/graphics/vulkan_api/swapchain/selection.rs). The surface queries
    are not modelled: their answers are the inputs. */
module SwapchainSelection {
  import opened Wrappers
  import opened Vk

  /** The format the code prefers: B8G8R8A8_SRGB in the SRGB_NONLINEAR space. */
  const PREFERRED_FORMAT: SurfaceFormat :=
    SurfaceFormat(FORMAT_B8G8R8A8_SRGB, COLOR_SPACE_SRGB_NONLINEAR_KHR)

  /** The preferred format when it is available, else the first available
      one; an error exactly when nothing is available. */
  function ChooseSurfaceFormat(available: seq<SurfaceFormat>): (r: Result<SurfaceFormat, GraphicsError>)
    ensures r.Err? <==> available == []
    ensures r.Err? ==> r.error == RuntimeError(NoSwapchainFormats)
    ensures r.Ok? ==> r.value in available
    ensures PREFERRED_FORMAT in available ==> r == Ok(PREFERRED_FORMAT)
    ensures PREFERRED_FORMAT !in available && available != [] ==> r == Ok(available[0])
  {
    if PREFERRED_FORMAT in available then Ok(PREFERRED_FORMAT)
    else if available == [] then Err(RuntimeError(NoSwapchainFormats))
    else Ok(available[0])
  }

  /** MAILBOX when available, otherwise FIFO (which every implementation
      must support). */
  function ChoosePresentationMode(available: seq<PresentMode>): (r: PresentMode)
    ensures r == PRESENT_MODE_MAILBOX_KHR <==> PRESENT_MODE_MAILBOX_KHR in available
    ensures r != PRESENT_MODE_MAILBOX_KHR ==> r == PRESENT_MODE_FIFO_KHR
  {
    if PRESENT_MODE_MAILBOX_KHR in available then PRESENT_MODE_MAILBOX_KHR
    else PRESENT_MODE_FIFO_KHR
  }

  /** A current width of u32::MAX means the swapchain decides the surface
      size: then each framebuffer dimension is clamped to the supported
      range. Otherwise the framebuffer size is used as it is. */
  function ChooseSwapchainExtent(caps: SurfaceCapabilities, framebufferSize: (U32, U32)): (r: Extent2D)
    requires caps.currentExtent.width == U32_MAX ==>
      caps.minImageExtent.width <= caps.maxImageExtent.width &&
      caps.minImageExtent.height <= caps.maxImageExtent.height
    ensures caps.currentExtent.width != U32_MAX ==> r == Extent2D(framebufferSize.0, framebufferSize.1)
    ensures caps.currentExtent.width == U32_MAX ==>
      caps.minImageExtent.width <= r.width <= caps.maxImageExtent.width &&
      caps.minImageExtent.height <= r.height <= caps.maxImageExtent.height
    ensures caps.minImageExtent.width <= framebufferSize.0 <= caps.maxImageExtent.width ==>
      r.width == framebufferSize.0
    ensures caps.minImageExtent.height <= framebufferSize.1 <= caps.maxImageExtent.height ==>
      r.height == framebufferSize.1
    ensures caps.currentExtent.width == U32_MAX ==>
      (framebufferSize.0 < caps.minImageExtent.width ==> r.width == caps.minImageExtent.width) &&
      (caps.maxImageExtent.width < framebufferSize.0 ==> r.width == caps.maxImageExtent.width) &&
      (framebufferSize.1 < caps.minImageExtent.height ==> r.height == caps.minImageExtent.height) &&
      (caps.maxImageExtent.height < framebufferSize.1 ==> r.height == caps.maxImageExtent.height)
  {
    var (width, height) := framebufferSize;
    if caps.currentExtent.width != U32_MAX then Extent2D(width, height)
    else
      Extent2D(
        Clamp(width, caps.minImageExtent.width, caps.maxImageExtent.width),
        Clamp(height, caps.minImageExtent.height, caps.maxImageExtent.height))
  }

  /** Three images (triple buffering), moved into the supported range; a
      maximum of 0 means there is no upper limit. */
  function ChooseImageCount(caps: SurfaceCapabilities): (r: U32)
    requires caps.maxImageCount > 0 ==> caps.minImageCount <= caps.maxImageCount
    ensures r >= caps.minImageCount
    ensures caps.maxImageCount > 0 ==> r <= caps.maxImageCount
    ensures caps.minImageCount <= 3 && (caps.maxImageCount == 0 || 3 <= caps.maxImageCount) ==> r == 3
    ensures r == 3 || r == caps.minImageCount || r == caps.maxImageCount
    ensures 3 < caps.minImageCount ==> r == caps.minImageCount
    ensures 0 < caps.maxImageCount < 3 ==> r == caps.maxImageCount
  {
    var proposed := 3;
    if caps.maxImageCount > 0 then Clamp(proposed, caps.minImageCount, caps.maxImageCount)
    else if proposed < caps.minImageCount then caps.minImageCount
    else proposed
  }
}

=== FILE: triangle_canvas.dfy ===
/** The triangle canvas renderer's geometry bookkeeping
    (src/renderer/triangle_canvas/mod.rs): one vertex vector and one index
    vector per swapchain image, filled for the image being drawn. Creating
    or growing a GPU buffer is a driver call whose outcome is given, for the
    k-th push of a call, by the `allocate` parameter; naming a replaced
    buffer is one whose outcome is the `naming` parameter. */
module TriangleCanvas {
  import opened Wrappers
  import opened Vk
  import GpuVec

  /** A position in normalized device coordinates. Coordinates are only
      copied, so they are modelled as reals. */
  datatype Point = Point(x: real, y: real)

  /** An RGBA colour. */
  datatype Rgba = Rgba(r: real, g: real, b: real, a: real)

  /** `Vertex2D`. */
  datatype Vertex2D = Vertex2D(pos: Point, rgba: Rgba)

  /** The colour of new vertices until `set_color` is called. */
  const WHITE: Rgba := Rgba(1.0, 1.0, 1.0, 1.0)

  /** Capacity of every per-image vector when it is created. */
  const INITIAL_CAPACITY: U32 := 10

  /** `size_of::<Vertex2D>()`: six `f32` values. */
  const VERTEX_SIZE: nat := 24

  /** `size_of::<u32>()`. */
  const INDEX_SIZE: nat := 4

  /** The vector lengths below this bound never overflow a `u32` when a
      full vector doubles. */
  const PUSH_BOUND: nat := 0x8000_0000

  class TriangleCanvas {
    var currentImage: nat
    var currentColor: Rgba
    var vertexData: seq<GpuVec.GpuVec<Vertex2D>>
    var indices: seq<GpuVec.GpuVec<U32>>
    /** The vertex buffer that image i's descriptor set binds as its
        storage buffer. */
    var boundVertexBuffers: seq<array<Vertex2D>>
    ghost var Repr: set<object>

    /** One vertex and one index vector per image, each valid, no two
        sharing an object or a buffer. */
    ghost predicate Valid()
      reads this, Repr
    {
      this in Repr && |vertexData| == |indices| && |boundVertexBuffers| == |vertexData| &&
      (forall i :: 0 <= i < |vertexData| ==>
        vertexData[i] in Repr && vertexData[i].buffer in Repr && vertexData[i].Valid()) &&
      (forall i :: 0 <= i < |indices| ==>
        indices[i] in Repr && indices[i].buffer in Repr && indices[i].Valid()) &&
      (forall i, j :: 0 <= i < j < |vertexData| ==>
        vertexData[i] != vertexData[j] && vertexData[i].buffer != vertexData[j].buffer) &&
      (forall i, j :: 0 <= i < j < |indices| ==>
        indices[i] != indices[j] && indices[i].buffer != indices[j].buffer)
    }

    /** The vertices recorded for image `i`. */
    ghost function Vertices(i: nat): seq<Vertex2D>
      reads this, Repr
      requires Valid() && i < |vertexData|
    {
      vertexData[i].Contents()
    }

    /** The indices recorded for image `i`. */
    ghost function Indices(i: nat): seq<U32>
      reads this, Repr
      requires Valid() && i < |indices|
    {
      indices[i].Contents()
    }

    /** Image `i`'s descriptor set binds the buffer its vertices are in. */
    ghost predicate VertexBindingCurrent(i: nat)
      reads this, Repr
      requires Valid() && i < |vertexData|
    {
      boundVertexBuffers[i] == vertexData[i].buffer
    }

    /** Every index recorded for image `i` names a recorded vertex. */
    ghost predicate IndicesInRange(i: nat)
      reads this, Repr
      requires Valid() && i < |vertexData|
    {
      forall k :: 0 <= k < |Indices(i)| ==> Indices(i)[k] < |Vertices(i)|
    }

    /** The canvas as `new` leaves it once every per-image buffer has been
        made: image 0, white, `imageCount` empty vectors of each kind. */
    constructor Init(imageCount: nat)
      ensures Valid() && fresh(Repr)
      ensures currentImage == 0 && currentColor == WHITE
      ensures |vertexData| == imageCount
      ensures forall i :: 0 <= i < imageCount ==> Vertices(i) == [] && Indices(i) == []
      ensures forall i :: 0 <= i < imageCount ==> vertexData[i].capacity == INITIAL_CAPACITY
      ensures forall i :: 0 <= i < imageCount ==> VertexBindingCurrent(i)
    {
      currentImage := 0;
      currentColor := WHITE;
      var vs, vertexBuffers, vertexObjects := NewVectors<Vertex2D>(imageCount, VERTEX_SIZE);
      var ixs, _, indexObjects := NewVectors<U32>(imageCount, INDEX_SIZE);
      vertexData := vs;
      indices := ixs;
      boundVertexBuffers := vertexBuffers;
      Repr := {this} + vertexObjects + indexObjects;
    }

    /** `count` new, empty, distinct vectors, their buffers and the objects
        they own. */
    static method NewVectors<T(0)>(count: nat, elementSize: nat)
      returns (vs: seq<GpuVec.GpuVec<T>>, buffers: seq<array<T>>, ghost objects: set<object>)
      ensures |vs| == count && |buffers| == count && fresh(objects)
      ensures forall i :: 0 <= i < count ==> buffers[i] == vs[i].buffer
      ensures forall i :: 0 <= i < count ==>
        vs[i] in objects && vs[i].buffer in objects && vs[i].Valid() && vs[i].Contents() == [] &&
        vs[i].capacity == INITIAL_CAPACITY
      ensures forall i, j :: 0 <= i < j < count ==> vs[i] != vs[j] && vs[i].buffer != vs[j].buffer
    {
      vs, buffers := [], [];
      objects := {};
      for n := 0 to count
        invariant |vs| == n && |buffers| == n && fresh(objects)
        invariant forall i :: 0 <= i < n ==> buffers[i] == vs[i].buffer
        invariant forall i :: 0 <= i < n ==>
          vs[i] in objects && vs[i].buffer in objects && vs[i].Valid() && vs[i].Contents() == [] &&
          vs[i].capacity == INITIAL_CAPACITY
        invariant forall i, j :: 0 <= i < j < n ==> vs[i] != vs[j] && vs[i].buffer != vs[j].buffer
      {
        var v := new GpuVec.GpuVec<T>.Init(elementSize, INITIAL_CAPACITY);
        vs, buffers := vs + [v], buffers + [v.buffer];
        objects := objects + {v, v.buffer};
      }
    }

    /** `set_color`: the colour of the vertices added from now on. */
    method SetColor(rgba: Rgba)
      modifies this
      ensures currentColor == rgba
      ensures currentImage == old(currentImage) && vertexData == old(vertexData) && indices == old(indices)
      ensures boundVertexBuffers == old(boundVertexBuffers) && Repr == old(Repr)
    {
      currentColor := rgba;
    }

    /** `clear`: selects image `image` and empties its two vectors only. */
    method Clear(image: nat)
      requires Valid() && image < |vertexData|
      modifies this, vertexData[image], indices[image]
      ensures Valid() && Repr == old(Repr)
      ensures currentImage == image && currentColor == old(currentColor)
      ensures vertexData == old(vertexData) && indices == old(indices)
      ensures boundVertexBuffers == old(boundVertexBuffers)
      ensures Vertices(image) == [] && Indices(image) == [] && IndicesInRange(image)
      ensures forall i :: 0 <= i < |vertexData| && i != image ==>
        Vertices(i) == old(Vertices(i)) && Indices(i) == old(Indices(i))
    {
      currentImage := image;
      vertexData[image].Clear();
      indices[image].Clear();
    }

    /** One `push_back` onto the current image's vertex vector. */
    method PushVertex(vertex: Vertex2D, allocation: Outcome<VkCode>) returns (r: Result<bool, VkCode>)
      requires Valid() && currentImage < |vertexData|
      requires |Vertices(currentImage)| < PUSH_BOUND
      modifies this, vertexData[currentImage], vertexData[currentImage].buffer
      ensures Valid() && fresh(Repr - old(Repr))
      ensures currentImage == old(currentImage) && currentColor == old(currentColor)
      ensures vertexData == old(vertexData) && indices == old(indices)
      ensures boundVertexBuffers == old(boundVertexBuffers)
      ensures r == Ok(true) ==> fresh(vertexData[currentImage].buffer)
      ensures r != Ok(true) ==> vertexData[currentImage].buffer == old(vertexData[currentImage].buffer)
      ensures r.Ok? ==> Vertices(currentImage) == old(Vertices(currentImage)) + [vertex]
      ensures r.Err? ==> Vertices(currentImage) == old(Vertices(currentImage))
      ensures allocation.Pass? ==> r.Ok?
      ensures r.Err? ==> allocation.Fail? && r.error == allocation.error
      ensures forall i :: 0 <= i < |vertexData| && i != currentImage ==> Vertices(i) == old(Vertices(i))
      ensures forall i :: 0 <= i < |indices| ==> Indices(i) == old(Indices(i))
    {
      var vec := vertexData[currentImage];
      assert vec.buffer in Repr;
      r := vec.PushBack(vertex, allocation);
      assert r.Ok? && !r.value ==> r == Ok(false);
      Repr := Repr + {vec.buffer};
    }

    /** `push_vertices`: pushes the vertices in order onto the current
        image's vector and returns the index of the last vertex. A failed
        push ends the call and leaves the earlier pushes in place. When a
        push replaced the buffer, the image's descriptor set is rebound to
        the new buffer and the buffer is given its debug name, whose outcome
        is `naming`; a naming failure is returned with every vertex pushed. */
    method PushVertices(vertices: seq<Vertex2D>, allocate: nat -> Outcome<VkCode>, naming: Outcome<VkCode>)
      returns (r: Result<U32, VkCode>)
      requires Valid() && currentImage < |vertexData|
      requires |Vertices(currentImage)| + |vertices| <= PUSH_BOUND
      requires |vertices| > 0 || |Vertices(currentImage)| > 0
      modifies this, vertexData[currentImage], vertexData[currentImage].buffer
      ensures Valid() && fresh(Repr - old(Repr))
      ensures currentImage == old(currentImage) && currentColor == old(currentColor)
      ensures vertexData == old(vertexData) && indices == old(indices)
      ensures vertexData[currentImage].buffer == old(vertexData[currentImage].buffer) ||
        fresh(vertexData[currentImage].buffer)
      ensures r.Ok? ==> Vertices(currentImage) == old(Vertices(currentImage)) + vertices
      ensures r.Ok? ==> r.value == |Vertices(currentImage)| - 1
      ensures exists k :: 0 <= k <= |vertices| && Vertices(currentImage) == old(Vertices(currentImage)) + vertices[..k]
      ensures (forall k :: 0 <= k < |vertices| ==> allocate(k).Pass?) ==> naming.Pass? ==> r.Ok?
      ensures r.Err? ==> var k := |Vertices(currentImage)| - |old(Vertices(currentImage))|;
        (0 <= k < |vertices| && allocate(k).Fail? && r.error == allocate(k).error) ||
        (k == |vertices| && naming.Fail? && r.error == naming.error && fresh(vertexData[currentImage].buffer))
      ensures |boundVertexBuffers| == |old(boundVertexBuffers)|
      ensures forall i :: 0 <= i < |vertexData| && i != currentImage ==> boundVertexBuffers[i] == old(boundVertexBuffers[i])
      ensures |Vertices(currentImage)| == |old(Vertices(currentImage))| + |vertices| ==>
        vertexData[currentImage].buffer != old(vertexData[currentImage].buffer) ==>
        VertexBindingCurrent(currentImage)
      ensures |Vertices(currentImage)| < |old(Vertices(currentImage))| + |vertices| ==>
        boundVertexBuffers == old(boundVertexBuffers)
      ensures vertexData[currentImage].buffer == old(vertexData[currentImage].buffer) ==>
        boundVertexBuffers == old(boundVertexBuffers)
      ensures forall i :: 0 <= i < |vertexData| && i != currentImage ==> Vertices(i) == old(Vertices(i))
      ensures forall i :: 0 <= i < |indices| ==> Indices(i) == old(Indices(i))
    {
      var grew := false;
      for k := 0 to |vertices|
        invariant Valid() && fresh(Repr - old(Repr))
        invariant currentImage == old(currentImage) && currentColor == old(currentColor)
        invariant vertexData == old(vertexData) && indices == old(indices)
        invariant boundVertexBuffers == old(boundVertexBuffers)
        invariant grew ==> fresh(vertexData[currentImage].buffer)
        invariant !grew ==> vertexData[currentImage].buffer == old(vertexData[currentImage].buffer)
        invariant Vertices(currentImage) == old(Vertices(currentImage)) + vertices[..k]
        invariant forall i :: 0 <= i < |vertexData| && i != currentImage ==> Vertices(i) == old(Vertices(i))
        invariant forall i :: 0 <= i < |indices| ==> Indices(i) == old(Indices(i))
      {
        var pushed := PushVertex(vertices[k], allocate(k));
        if pushed.Err? {
          return Err(pushed.error);
        }
        grew := grew || pushed.value;
        assert vertices[..k + 1] == vertices[..k] + [vertices[k]];
      }
      assert vertices[..|vertices|] == vertices;
      if grew {
        boundVertexBuffers := boundVertexBuffers[currentImage := vertexData[currentImage].buffer];
        if naming.Fail? {
          return Err(naming.error);
        }
      }
      return Ok(vertexData[currentImage].Len() - 1);
    }

    /** One `push_back` onto the current image's index vector. */
    method PushIndex(index: U32, allocation: Outcome<VkCode>) returns (r: Result<bool, VkCode>)
      requires Valid() && currentImage < |indices|
      requires |Indices(currentImage)| < PUSH_BOUND
      modifies this, indices[currentImage], indices[currentImage].buffer
      ensures Valid() && fresh(Repr - old(Repr))
      ensures currentImage == old(currentImage) && currentColor == old(currentColor)
      ensures vertexData == old(vertexData) && indices == old(indices)
      ensures boundVertexBuffers == old(boundVertexBuffers)
      ensures r == Ok(true) ==> fresh(indices[currentImage].buffer)
      ensures r != Ok(true) ==> indices[currentImage].buffer == old(indices[currentImage].buffer)
      ensures r.Ok? ==> Indices(currentImage) == old(Indices(currentImage)) + [index]
      ensures r.Err? ==> Indices(currentImage) == old(Indices(currentImage))
      ensures allocation.Pass? ==> r.Ok?
      ensures r.Err? ==> allocation.Fail? && r.error == allocation.error
      ensures forall i :: 0 <= i < |indices| && i != currentImage ==> Indices(i) == old(Indices(i))
      ensures forall i :: 0 <= i < |vertexData| ==> Vertices(i) == old(Vertices(i))
    {
      var vec := indices[currentImage];
      assert vec.buffer in Repr;
      r := vec.PushBack(index, allocation);
      assert r.Ok? && !r.value ==> r == Ok(false);
      Repr := Repr + {vec.buffer};
    }

    /** `push_indices`: pushes the indices in order onto the current
        image's index vector. A failed push ends the call and leaves the
        earlier pushes in place. When a push replaced the buffer, the buffer
        is given its debug name, whose outcome is `naming`; a naming failure
        is returned with every index pushed. */
    method PushIndices(newIndices: seq<U32>, allocate: nat -> Outcome<VkCode>, naming: Outcome<VkCode>)
      returns (r: Outcome<VkCode>)
      requires Valid() && currentImage < |indices|
      requires |Indices(currentImage)| + |newIndices| <= PUSH_BOUND
      modifies this, indices[currentImage], indices[currentImage].buffer
      ensures Valid() && fresh(Repr - old(Repr))
      ensures currentImage == old(currentImage) && currentColor == old(currentColor)
      ensures vertexData == old(vertexData) && indices == old(indices)
      ensures boundVertexBuffers == old(boundVertexBuffers)
      ensures indices[currentImage].buffer == old(indices[currentImage].buffer) ||
        fresh(indices[currentImage].buffer)
      ensures r.Pass? ==> Indices(currentImage) == old(Indices(currentImage)) + newIndices
      ensures exists k :: 0 <= k <= |newIndices| && Indices(currentImage) == old(Indices(currentImage)) + newIndices[..k]
      ensures (forall k :: 0 <= k < |newIndices| ==> allocate(k).Pass?) ==> naming.Pass? ==> r.Pass?
      ensures r.Fail? ==> var k := |Indices(currentImage)| - |old(Indices(currentImage))|;
        (0 <= k < |newIndices| && allocate(k).Fail? && r.error == allocate(k).error) ||
        (k == |newIndices| && naming.Fail? && r.error == naming.error && fresh(indices[currentImage].buffer))
      ensures forall i :: 0 <= i < |indices| && i != currentImage ==> Indices(i) == old(Indices(i))
      ensures forall i :: 0 <= i < |vertexData| ==> Vertices(i) == old(Vertices(i))
    {
      var grew := false;
      for k := 0 to |newIndices|
        invariant Valid() && fresh(Repr - old(Repr))
        invariant currentImage == old(currentImage) && currentColor == old(currentColor)
        invariant vertexData == old(vertexData) && indices == old(indices)
        invariant boundVertexBuffers == old(boundVertexBuffers)
        invariant grew ==> fresh(indices[currentImage].buffer)
        invariant !grew ==> indices[currentImage].buffer == old(indices[currentImage].buffer)
        invariant Indices(currentImage) == old(Indices(currentImage)) + newIndices[..k]
        invariant forall i :: 0 <= i < |indices| && i != currentImage ==> Indices(i) == old(Indices(i))
        invariant forall i :: 0 <= i < |vertexData| ==> Vertices(i) == old(Vertices(i))
      {
        var pushed := PushIndex(newIndices[k], allocate(k));
        if pushed.Err? {
          return Fail(pushed.error);
        }
        grew := grew || pushed.value;
        assert newIndices[..k + 1] == newIndices[..k] + [newIndices[k]];
      }
      assert newIndices[..|newIndices|] == newIndices;
      if grew && naming.Fail? {
        return Fail(naming.error);
      }
      return Pass;
    }

    /** The bookkeeping `add_triangle` and `add_quad` share: push the
        vertices, then the indices `pattern` relative to the first new
        vertex. Indices that were in range stay in range, whatever fails. */
    method AddShape(vertices: seq<Vertex2D>, pattern: seq<nat>,
                    allocateVertex: nat -> Outcome<VkCode>, allocateIndex: nat -> Outcome<VkCode>,
                    nameVertexBuffer: Outcome<VkCode>, nameIndexBuffer: Outcome<VkCode>)
      returns (r: Outcome<VkCode>)
      requires Valid() && currentImage < |vertexData|
      requires |vertices| > 0 && forall k :: 0 <= k < |pattern| ==> pattern[k] < |vertices|
      requires |Vertices(currentImage)| + |vertices| <= PUSH_BOUND
      requires |Indices(currentImage)| + |pattern| <= PUSH_BOUND
      modifies this, vertexData[currentImage], vertexData[currentImage].buffer
      modifies indices[currentImage], indices[currentImage].buffer
      ensures Valid() && fresh(Repr - old(Repr))
      ensures currentImage == old(currentImage) && currentColor == old(currentColor)
      ensures vertexData == old(vertexData) && indices == old(indices)
      ensures |boundVertexBuffers| == |old(boundVertexBuffers)|
      ensures forall i :: 0 <= i < |vertexData| && i != currentImage ==> boundVertexBuffers[i] == old(boundVertexBuffers[i])
      ensures r.Pass? && old(VertexBindingCurrent(currentImage)) ==> VertexBindingCurrent(currentImage)
      ensures r.Pass? ==> Vertices(currentImage) == old(Vertices(currentImage)) + vertices
      ensures r.Pass? ==>
        Indices(currentImage) == old(Indices(currentImage)) + Offset(pattern, |old(Vertices(currentImage))|)
      ensures (forall k :: 0 <= k < |vertices| ==> allocateVertex(k).Pass?) ==>
        (forall k :: 0 <= k < |pattern| ==> allocateIndex(k).Pass?) ==>
        nameVertexBuffer.Pass? ==> nameIndexBuffer.Pass? ==> r.Pass?
      ensures r.Fail? ==>
        (exists k :: 0 <= k < |vertices| && allocateVertex(k).Fail? && r.error == allocateVertex(k).error) ||
        (exists k :: 0 <= k < |pattern| && allocateIndex(k).Fail? && r.error == allocateIndex(k).error) ||
        (nameVertexBuffer.Fail? && r.error == nameVertexBuffer.error) ||
        (nameIndexBuffer.Fail? && r.error == nameIndexBuffer.error)
      ensures old(IndicesInRange(currentImage)) ==> IndicesInRange(currentImage)
      ensures forall i :: 0 <= i < |vertexData| && i != currentImage ==>
        Vertices(i) == old(Vertices(i)) && Indices(i) == old(Indices(i))
    {
      ghost var n := |Vertices(currentImage)|;
      var lastIndex := PushVertices(vertices, allocateVertex, nameVertexBuffer);
      if lastIndex.Err? {
        return Fail(lastIndex.error);
      }
      var first := lastIndex.value - (|vertices| - 1);
      assert first == n;
      var newIndices := Offset(pattern, first);
      r := PushIndices(newIndices, allocateIndex, nameIndexBuffer);
      assert forall k :: 0 <= k < |newIndices| ==> newIndices[k] < |Vertices(currentImage)|;
    }

    /** `add_triangle`: three vertices in the current colour and the
        indices of those three vertices. */
    method AddTriangle(a: Point, b: Point, c: Point,
                       allocateVertex: nat -> Outcome<VkCode>, allocateIndex: nat -> Outcome<VkCode>,
                    nameVertexBuffer: Outcome<VkCode>, nameIndexBuffer: Outcome<VkCode>)
      returns (r: Outcome<VkCode>)
      requires Valid() && currentImage < |vertexData|
      requires |Vertices(currentImage)| + 3 <= PUSH_BOUND
      requires |Indices(currentImage)| + 3 <= PUSH_BOUND
      modifies this, vertexData[currentImage], vertexData[currentImage].buffer
      modifies indices[currentImage], indices[currentImage].buffer
      ensures Valid() && fresh(Repr - old(Repr))
      ensures currentImage == old(currentImage) && currentColor == old(currentColor)
      ensures vertexData == old(vertexData) && indices == old(indices)
      ensures |boundVertexBuffers| == |old(boundVertexBuffers)|
      ensures forall i :: 0 <= i < |vertexData| && i != currentImage ==> boundVertexBuffers[i] == old(boundVertexBuffers[i])
      ensures r.Pass? && old(VertexBindingCurrent(currentImage)) ==> VertexBindingCurrent(currentImage)
      ensures r.Pass? ==>
        Vertices(currentImage) == old(Vertices(currentImage)) +
          [Vertex2D(a, currentColor), Vertex2D(b, currentColor), Vertex2D(c, currentColor)]
      ensures r.Pass? ==> var n := |old(Vertices(currentImage))|;
        Indices(currentImage) == old(Indices(currentImage)) + [n, n + 1, n + 2]
      ensures (forall k :: 0 <= k < 3 ==> allocateVertex(k).Pass?) ==>
        (forall k :: 0 <= k < 3 ==> allocateIndex(k).Pass?) ==>
        nameVertexBuffer.Pass? ==> nameIndexBuffer.Pass? ==> r.Pass?
      ensures r.Fail? ==>
        (exists k :: 0 <= k < 3 && allocateVertex(k).Fail? && r.error == allocateVertex(k).error) ||
        (exists k :: 0 <= k < 3 && allocateIndex(k).Fail? && r.error == allocateIndex(k).error) ||
        (nameVertexBuffer.Fail? && r.error == nameVertexBuffer.error) ||
        (nameIndexBuffer.Fail? && r.error == nameIndexBuffer.error)
      ensures old(IndicesInRange(currentImage)) ==> IndicesInRange(currentImage)
      ensures forall i :: 0 <= i < |vertexData| && i != currentImage ==>
        Vertices(i) == old(Vertices(i)) && Indices(i) == old(Indices(i))
    {
      var vertices := [Vertex2D(a, currentColor), Vertex2D(b, currentColor), Vertex2D(c, currentColor)];
      r := AddShape(vertices, TRIANGLE_PATTERN, allocateVertex, allocateIndex, nameVertexBuffer, nameIndexBuffer);
    }

    /** `add_quad`: four vertices (top left, top right, bottom left, bottom
        right) in the current colour and the two triangles tl-tr-bl and
        tr-bl-br. */
    method AddQuad(topLeft: Point, topRight: Point, bottomLeft: Point, bottomRight: Point,
                   allocateVertex: nat -> Outcome<VkCode>, allocateIndex: nat -> Outcome<VkCode>,
                    nameVertexBuffer: Outcome<VkCode>, nameIndexBuffer: Outcome<VkCode>)
      returns (r: Outcome<VkCode>)
      requires Valid() && currentImage < |vertexData|
      requires |Vertices(currentImage)| + 4 <= PUSH_BOUND
      requires |Indices(currentImage)| + 6 <= PUSH_BOUND
      modifies this, vertexData[currentImage], vertexData[currentImage].buffer
      modifies indices[currentImage], indices[currentImage].buffer
      ensures Valid() && fresh(Repr - old(Repr))
      ensures currentImage == old(currentImage) && currentColor == old(currentColor)
      ensures vertexData == old(vertexData) && indices == old(indices)
      ensures |boundVertexBuffers| == |old(boundVertexBuffers)|
      ensures forall i :: 0 <= i < |vertexData| && i != currentImage ==> boundVertexBuffers[i] == old(boundVertexBuffers[i])
      ensures r.Pass? && old(VertexBindingCurrent(currentImage)) ==> VertexBindingCurrent(currentImage)
      ensures r.Pass? ==>
        Vertices(currentImage) == old(Vertices(currentImage)) +
          [Vertex2D(topLeft, currentColor), Vertex2D(topRight, currentColor),
           Vertex2D(bottomLeft, currentColor), Vertex2D(bottomRight, currentColor)]
      ensures r.Pass? ==> var n := |old(Vertices(currentImage))|;
        Indices(currentImage) == old(Indices(currentImage)) + [n, n + 1, n + 2, n + 1, n + 2, n + 3]
      ensures (forall k :: 0 <= k < 4 ==> allocateVertex(k).Pass?) ==>
        (forall k :: 0 <= k < 6 ==> allocateIndex(k).Pass?) ==>
        nameVertexBuffer.Pass? ==> nameIndexBuffer.Pass? ==> r.Pass?
      ensures r.Fail? ==>
        (exists k :: 0 <= k < 4 && allocateVertex(k).Fail? && r.error == allocateVertex(k).error) ||
        (exists k :: 0 <= k < 6 && allocateIndex(k).Fail? && r.error == allocateIndex(k).error) ||
        (nameVertexBuffer.Fail? && r.error == nameVertexBuffer.error) ||
        (nameIndexBuffer.Fail? && r.error == nameIndexBuffer.error)
      ensures old(IndicesInRange(currentImage)) ==> IndicesInRange(currentImage)
      ensures forall i :: 0 <= i < |vertexData| && i != currentImage ==>
        Vertices(i) == old(Vertices(i)) && Indices(i) == old(Indices(i))
    {
      var vertices := [Vertex2D(topLeft, currentColor), Vertex2D(topRight, currentColor),
                       Vertex2D(bottomLeft, currentColor), Vertex2D(bottomRight, currentColor)];
      r := AddShape(vertices, QUAD_PATTERN, allocateVertex, allocateIndex, nameVertexBuffer, nameIndexBuffer);
    }
  }

  /** The triangle's indices relative to its first vertex. */
  const TRIANGLE_PATTERN: seq<nat> := [0, 1, 2]

  /** The quad's two triangles relative to its top-left vertex. */
  const QUAD_PATTERN: seq<nat> := [0, 1, 2, 1, 2, 3]

  /** `pattern` shifted to start at vertex `first`. */
  function Offset(pattern: seq<nat>, first: U32): (r: seq<U32>)
    requires forall k :: 0 <= k < |pattern| ==> first + pattern[k] <= U32_MAX
    ensures |r| == |pattern|
    ensures forall k :: 0 <= k < |pattern| ==> r[k] == first + pattern[k]
  {
    seq(|pattern|, k requires 0 <= k < |pattern| => first + pattern[k])
  }
}

=== FILE: utf8.dfy ===
/** Well-formed UTF-8 byte sequences, as defined by the syntax in
    section 4 of RFC 3629. This is the test `String::from_utf8` applies
    before it accepts a byte vector as a string. */
module Utf8 {
  import opened Vk

  /** A continuation byte, 0x80..0xBF. */
  predicate IsTail(b: Byte) {
    0x80 <= b <= 0xBF
  }

  /** The length of the well-formed character that starts `s`, or 0 when
      `s` does not start with one (including when `s` is empty). */
  function LeadingCharLength(s: Bytes): (n: nat)
    ensures n <= 4 && n <= |s|
    ensures n > 1 ==> forall k :: 1 <= k < n ==> IsTail(s[k])
    ensures |s| > 0 && s[0] < 0x80 ==> n == 1
    ensures |s| > 0 && (0x80 <= s[0] < 0xC2 || s[0] > 0xF4) ==> n == 0
  {
    if |s| == 0 then 0
    else if s[0] <= 0x7F then 1
    else if 0xC2 <= s[0] <= 0xDF then
      if |s| >= 2 && IsTail(s[1]) then 2 else 0
    else if 0xE0 <= s[0] <= 0xEF then
      var lo := if s[0] == 0xE0 then 0xA0 else 0x80;
      var hi := if s[0] == 0xED then 0x9F else 0xBF;
      if |s| >= 3 && lo <= s[1] <= hi && IsTail(s[2]) then 3 else 0
    else if 0xF0 <= s[0] <= 0xF4 then
      var lo := if s[0] == 0xF0 then 0x90 else 0x80;
      var hi := if s[0] == 0xF4 then 0x8F else 0xBF;
      if |s| >= 4 && lo <= s[1] <= hi && IsTail(s[2]) && IsTail(s[3]) then 4 else 0
    else 0
  }

  /** `s` is a sequence of well-formed characters. */
  predicate ValidUtf8(s: Bytes)
    decreases |s|
  {
    |s| == 0 || (LeadingCharLength(s) > 0 && ValidUtf8(s[LeadingCharLength(s)..]))
  }

  /** Every byte below 0x80 is a character of its own, so ASCII text,
      NUL padding included, is well-formed. */
  lemma {:induction false} AsciiIsValidUtf8(s: Bytes)
    requires forall k :: 0 <= k < |s| ==> s[k] < 0x80
    ensures ValidUtf8(s)
    decreases |s|
  {
    if |s| > 0 {
      assert LeadingCharLength(s) == 1;
      AsciiIsValidUtf8(s[1..]);
    }
  }

  /** A well-formed character at the start of `a` is still the leading
      character when more bytes follow. */
  lemma LeadingCharLengthOfPrefix(a: Bytes, b: Bytes)
    requires LeadingCharLength(a) > 0
    ensures LeadingCharLength(a + b) == LeadingCharLength(a)
  {
    var s := a + b;
    assert s[0] == a[0];
    if |a| >= 2 { assert s[1] == a[1]; }
    if |a| >= 3 { assert s[2] == a[2]; }
    if |a| >= 4 { assert s[3] == a[3]; }
  }

  /** Well-formed text followed by well-formed text is well-formed. */
  lemma {:induction false} ValidUtf8Concat(a: Bytes, b: Bytes)
    requires ValidUtf8(a) && ValidUtf8(b)
    ensures ValidUtf8(a + b)
    decreases |a|
  {
    if |a| == 0 {
      assert a + b == b;
    } else {
      var n := LeadingCharLength(a);
      LeadingCharLengthOfPrefix(a, b);
      assert (a + b)[n..] == a[n..] + b;
      ValidUtf8Concat(a[n..], b);
    }
  }

  /** Well-formed text never contains a byte that no character can start
      or continue with (0xC0, 0xC1, 0xF5..0xFF). */
  lemma {:induction false} ValidUtf8HasNoForbiddenByte(s: Bytes, i: nat)
    requires ValidUtf8(s) && i < |s|
    ensures s[i] != 0xC0 && s[i] != 0xC1 && s[i] < 0xF5
    decreases |s|
  {
    var n := LeadingCharLength(s);
    if i >= n {
      ValidUtf8HasNoForbiddenByte(s[n..], i - n);
    }
  }
}

=== FILE: vk.dfy ===
/** Vulkan vocabulary shared by the modelled modules: opaque handles, flag
    masks, the enumerant values the code compares against, and the error
    types its functions return. Numeric values are those of the Vulkan 1.3
    headers. */
module Vk {
  import opened Wrappers

  /** An opaque non-dispatchable handle; 0 is VK_NULL_HANDLE. */
  type Handle = nat
  const NULL_HANDLE: Handle := 0

  type U32 = x: int | 0 <= x < 0x1_0000_0000
  const U32_MAX: U32 := 0xFFFF_FFFF

  type Byte = b: int | 0 <= b < 0x100
  type Bytes = seq<Byte>

  /** A `Vk*Flags` bit mask. */
  type Flags = bv32

  /** `bitflags` `contains`: every bit of `bits` is set in `mask`. */
  predicate Contains(mask: Flags, bits: Flags) {
    mask & bits == bits
  }

  /** A `vk::Result` error code. */
  type VkCode = int
  const ERROR_OUT_OF_DATE_KHR: VkCode := -1000001004

  type Format = int
  const FORMAT_B8G8R8A8_SRGB: Format := 50

  type ColorSpace = int
  const COLOR_SPACE_SRGB_NONLINEAR_KHR: ColorSpace := 0

  type PresentMode = int
  const PRESENT_MODE_IMMEDIATE_KHR: PresentMode := 0
  const PRESENT_MODE_MAILBOX_KHR: PresentMode := 1
  const PRESENT_MODE_FIFO_KHR: PresentMode := 2

  type ImageLayout = int
  const IMAGE_LAYOUT_UNDEFINED: ImageLayout := 0
  const IMAGE_LAYOUT_COLOR_ATTACHMENT_OPTIMAL: ImageLayout := 2
  const IMAGE_LAYOUT_PRESENT_SRC_KHR: ImageLayout := 1000001002

  type AttachmentLoadOp = int
  const ATTACHMENT_LOAD_OP_LOAD: AttachmentLoadOp := 0
  const ATTACHMENT_LOAD_OP_CLEAR: AttachmentLoadOp := 1
  const ATTACHMENT_LOAD_OP_DONT_CARE: AttachmentLoadOp := 2

  type DescriptorType = int
  const DESCRIPTOR_TYPE_COMBINED_IMAGE_SAMPLER: DescriptorType := 1
  const DESCRIPTOR_TYPE_UNIFORM_BUFFER: DescriptorType := 6
  const DESCRIPTOR_TYPE_STORAGE_BUFFER: DescriptorType := 7

  const SAMPLE_COUNT_1: Flags := 0x01
  const SAMPLE_COUNT_2: Flags := 0x02
  const SAMPLE_COUNT_4: Flags := 0x04
  const SAMPLE_COUNT_8: Flags := 0x08
  const SAMPLE_COUNT_16: Flags := 0x10
  const SAMPLE_COUNT_32: Flags := 0x20
  const SAMPLE_COUNT_64: Flags := 0x40

  const QUEUE_GRAPHICS: Flags := 0x01
  const QUEUE_COMPUTE: Flags := 0x02

  /** Rust's `Ord::clamp`, which panics unless `lo <= hi`. */
  function Clamp(x: int, lo: int, hi: int): (r: int)
    requires lo <= hi
    ensures lo <= r <= hi
    ensures lo <= x <= hi ==> r == x
    ensures x < lo ==> r == lo
    ensures hi < x ==> r == hi
  {
    if x < lo then lo else if x > hi then hi else x
  }

  /** Rust's `as u32` on a length: the value modulo 2^32. */
  function TruncateU32(n: nat): (r: U32)
    ensures n <= U32_MAX ==> r == n
  {
    n % 0x1_0000_0000
  }

  /** A Rust `i32`. */
  type I32 = x: int | -0x8000_0000 <= x < 0x8000_0000

  /** `x as u32` for an `i32`: the same bits, so negatives wrap. */
  function I32AsU32(x: I32): (r: U32)
    ensures x >= 0 ==> r == x
    ensures x < 0 ==> r == x + 0x1_0000_0000
  {
    if x < 0 then x + 0x1_0000_0000 else x
  }

  /** `vk::Extent2D`. */
  datatype Extent2D = Extent2D(width: U32, height: U32)

  /** `vk::SurfaceFormatKHR`. */
  datatype SurfaceFormat = SurfaceFormat(format: Format, colorSpace: ColorSpace)

  /** The fields of `vk::SurfaceCapabilitiesKHR` that the selection code reads. */
  datatype SurfaceCapabilities = SurfaceCapabilities(
    minImageCount: U32,
    maxImageCount: U32,
    currentExtent: Extent2D,
    minImageExtent: Extent2D,
    maxImageExtent: Extent2D)

  /** `vk::ClearValue` holding a clear colour. The values are only
      copied, so they are reals. */
  datatype ClearValue = ClearColor(r: real, g: real, b: real, a: real)

  /** `vk::DescriptorPoolSize`. */
  datatype DescriptorPoolSize = DescriptorPoolSize(ty: DescriptorType, descriptorCount: U32)

  /** The fields of `vk::DescriptorPoolCreateInfo` the code sets. */
  datatype DescriptorPoolCreateInfo = DescriptorPoolCreateInfo(
    maxSets: U32, poolSizeCount: U32, poolSizes: seq<DescriptorPoolSize>)

  /** The fields of `vk::DescriptorSetAllocateInfo` the code sets. */
  datatype DescriptorSetAllocateInfo = DescriptorSetAllocateInfo(
    descriptorPool: Handle, descriptorSetCount: U32, setLayouts: seq<Handle>)

  /** The variants of the crate's `VulkanError` that the modelled code produces. */
  datatype VulkanError =
    | RequiredExtensionsNotFound(names: seq<Bytes>)
    | UnableToListAvailableExtensions(code: VkCode)
    | UnableToFindGraphicsQueue
    | UnableToFindPresentQueue
    | InvalidSourceLengthInShaderSPIRV
    | DeviceMemoryIsNotMapped
    | DeviceMemoryIsNotAlignedForType(typeName: string)
    | MemoryTypeNotFound(propertyFlags: Flags, memoryTypeBits: Flags)
    | UnableToAcquireSwapchainImage(code: VkCode)
    | UnableToPresentSwapchainImage(code: VkCode)
    | UnableToMapDeviceMemory(code: VkCode)
    | UnableToCreateSemaphore(code: VkCode)
    | DriverFailure(code: VkCode)

  /** Why an `anyhow`-wrapped `GraphicsError::RuntimeError` was raised. */
  datatype Cause =
    | UnexpectedVkResult(code: VkCode)
    | NoSwapchainFormats
    | FrameSyncUnavailable(frameIndex: nat)

  /** The variants of the crate's `GraphicsError` that the modelled code produces. */
  datatype GraphicsError =
    | FrameMissing
    | SwapchainOwnershipIsNotUnique
    | RuntimeError(cause: Cause)
    | Vulkan(error: VulkanError)

  /** The floor quotient `n / d` counts the whole `d`-sized pieces of `n`. */
  lemma DivisionBounds(n: nat, d: nat)
    requires d > 0
    ensures (n / d) * d <= n < (n / d + 1) * d
  {
    var q := n / d;
    assert n == q * d + n % d;
    assert (q + 1) * d == q * d + d;
  }
}

=== FILE: wrappers.dfy ===
/** Failure-compatible wrappers used for the Rust `Option`, `Result` and
    `Result<(), E>` values of the modelled code. */
module Wrappers {

  datatype Option<+T> = None | Some(value: T)

  datatype Result<+T, +E> = Ok(value: T) | Err(error: E) {
    predicate IsFailure() { Err? }
    function PropagateFailure<U>(): Result<U, E>
      requires Err?
    {
      Err(error)
    }
    function Extract(): T
      requires Ok?
    {
      value
    }
  }

  /** The outcome of a call that returns `Result<(), E>`. */
  datatype Outcome<+E> = Pass | Fail(error: E)
}
